=== FILE: README.md ===
# Network monitor, dashboard and log analyzer — a Dafny model

The system watches two links from a Raspberry Pi, the local router and a host on the
internet, and writes what it sees into one semicolon-separated log per day. Three
programs share those logs:

- **The monitor** (`monitor.py`) loops forever. In each pass it:
  - finds today's log file and creates it with a header line if it is new;
  - probes each host with `fping`, and parses the loss percentage and the average
    round-trip time from fping's summary on the error stream;
  - classifies each result into one of five states: `OK`, `WARN_LATENCY`,
    `WARN_LOSS`, `CRITICAL`, `DOWN`;
  - appends one row per host, both stamped with the same time;
  - sleeps for the long interval when both links are `OK`, and for the short one
    otherwise.
- **The dashboard** (`display_status.py`) reads from the log:
  - the per-host history of recent rows, with a fall-back value for every field it
    cannot read;
  - the last lines of a speed-test log.

  It colours each state and frames labels.
- **The analyzer** (`analyze_logs.py`) folds over every daily log in name order. It
  counts the rows per state and records the time stamps of the first and the last
  problem row.

The model is purely functional:

- The file system is a map from path to lines.
- A CSV row as Python's `csv.DictReader` yields it is a map from column name to
  `Option<string>`. `None` is the reader's `restval` for a missing trailing field.
- The fping process is abstracted to its outcome: it failed, or it completed with
  some error text.
- The clock is an input.

Python's text operations are written out: `strip`, `split`, `in`, `replace`,
`int()`/`float()` on plain decimal text, `int()` of a float, `:.2f`, `strftime`,
`os.path.join`, slicing with negative bounds, and string ordering for `sorted`.

Modules:

| module | what it holds |
|---|---|
| `Wrappers` | `Option` |
| `Strings` | `strip`, `find`/`in`, `split`/`join`, `replace`, `*` on strings, string ordering |
| `Numbers` | digit text, `str(int)`, `int()` and `float()` on plain decimal text |
| `Rounding` | `int()` of a float, `:.2f` |
| `Files` | the file-system map, `os.path.join` |
| `Csv` | `csv.DictReader` with `;` as delimiter |
| `Fping` | the parsing part of `run_fping` |
| `Monitor` | configuration, `classify_status`, file naming, `ensure_header`, one pass of the loop |
| `Display` | `read_last_speedtests`, `read_ping_history`, `status_to_color`, `format_big_label` |
| `Analyzer` | the file search and sort, and the fold of `main` |
| `Interop` | what the readers make of the rows the monitor writes |

The monitor writes the header exactly as the program does:
`Timestamp;Target;Packet_Loss_%;;Avg_Latency_ms;Status`.

- The doubled `;` makes six columns, while every row has five fields.
- The dashboard looks the loss up under `"Packet_Loss_% "`, with a trailing space.

`Interop` follows rows through both readers twice:

- once under the header as written;
- once under a five-name header, `CorrectedHeader`, with the loss looked up under
  its real name.

See "Findings".

## Model

| member | source | states |
|---|---|---|
| Monitor.LoadConfig | monitor.py:11-30 | Configuration loads exactly when both sections exist and every numeric option reads as a number. An absent option takes its default; a present one takes its text or parsed value. |
| Monitor.EmptySectionsGiveDefaults | monitor.py:18-30 | Two empty sections give exactly the default configuration. |
| Monitor.OverrideOne | monitor.py:18-30 | An option written in the file replaces its default; every other setting keeps its default. |
| Monitor.Classify | monitor.py:87-96 | Each of the five states, as an if-and-only-if condition on loss and latency. Total loss is DOWN whatever the thresholds. CRITICAL needs loss at or above the critical threshold. WARN_LOSS needs loss below it. WARN_LATENCY needs loss below both thresholds. OK needs all four conditions. |
| Monitor.ClassifyMonotone | monitor.py:87-96 | Up to 100% loss, more loss and more latency never give a milder state. |
| Monitor.BeyondTotalLoss | monitor.py:87-96 | For every configuration and latency, a total loss is DOWN and any loss above 100 gets a strictly milder state: the decision list is not monotone past 100. |
| Monitor.NameInjective | monitor.py:88-96 | Different states are written under different names. |
| Monitor.StatusNameRoundTrip | monitor.py:88-96 | Reading a written state name gives the state back. |
| Monitor.DateKey | monitor.py:34 | `%Y-%m-%d` is ten characters with dashes at 4 and 7. The three digit fields read back as the year, month and day. |
| Monitor.DateKeyInjective | monitor.py:34 | Different days get different keys. |
| Monitor.Stamp | monitor.py:110 | `%Y-%m-%d %H:%M:%S` is 19 characters: the date key, a space, then two-digit hour, minute and second separated by `:`, each digit pair reading back as its value. It holds only digits, `-`, space and `:`. |
| Monitor.StampInjective | monitor.py:110 | Different times get different stamps. |
| Monitor.StampHasNoSeparator | monitor.py:110 | A time stamp never contains the log's `;`. |
| Files.JoinPath | monitor.py:36 | `os.path.join` ends with the second component. It starts with the first unless the second is absolute, in which case it is the second. |
| Monitor.LogFilePath | monitor.py:33-36 | The path ends with `prefix_YYYY-MM-DD.csv`. |
| Monitor.PathEndsWithKey | monitor.py:33-36 | The date key sits 14 characters from the end of the path, just before `.csv`, whatever the directory and prefix. |
| Monitor.LogFilePathInjective | monitor.py:33-36 | For one configuration, different days are logged to different files. |
| Monitor.EnsureHeader | monitor.py:39-42 | An existing file is left unchanged. A missing one is created holding only the header line. No other file changes. |
| Monitor.EnsureHeaderIdempotent | monitor.py:39-42 | Ensuring the header twice is the same as ensuring it once. |
| Monitor.HeaderColumns | monitor.py:42 | The header as written splits into six names, the fourth of them empty. |
| Monitor.Measure | monitor.py:112-124 | A host's measurement carries the probe's reading; a failed probe gives 100, 0.0, DOWN. Its state is DOWN exactly at 100% loss, CRITICAL exactly at or above the critical threshold below 100, WARN_LOSS exactly between the two loss thresholds, and OK exactly when the loss is below both and the latency below its threshold. |
| Monitor.FailedProbeIsDown | monitor.py:83-89 | A probe that could not run is recorded as 100% loss, latency 0.0, DOWN. |
| Monitor.RowSplits | monitor.py:127-128 | A written row splits on `;` into exactly its five values. |
| Monitor.RowValues | monitor.py:127-128 | The values in a row read back: the loss exactly, the latency to within 0.005, the state by name. |
| Monitor.AppendLines | monitor.py:126-128 | Appending keeps the old contents as a prefix, adds exactly the new lines, and leaves every other file unchanged. |
| Monitor.SleepFor | monitor.py:130-133 | The pause is the OK interval exactly when both states are OK. Otherwise it is the problem interval. |
| Monitor.Cycle | monitor.py:106-133 | One pass of the loop. The file gets its header if new, then a ROUTER row and an INTERNET row with the same stamp. The old contents stay a prefix and no other file changes. The pause follows both states. |
| Monitor.CyclesAppend | monitor.py:106-128 | A second pass on the same day writes to the same file, keeps what the first pass left as a prefix, and adds two lines. |
| Fping.FailSafe | monitor.py:63-84 | A probe that did not complete, or whose stripped error text lacks either marker, reads as (100, 0.0). |
| Fping.BothMarkers | monitor.py:68-82 | With both markers present, two error texts with the same loss field give the same loss, and two with the same latency field give the same latency, whatever the rest. An unreadable loss gives 100 with the latency still read; an unreadable latency gives 0.0 with the loss still read. |
| Fping.LossFieldLocal | monitor.py:69-71 | The loss depends only on the text after the first `xmt/rcv/%loss =`: changing what precedes it changes nothing. |
| Fping.LatencyFieldLocal | monitor.py:76-78 | The latency depends only on the text after the first `min/avg/max =`: changing what precedes it changes nothing. |
| Fping.LossFieldOfSummary | monitor.py:69-71 | On fping's summary line, the loss parsed is `int()` of exactly the loss token. |
| Fping.LatencyFieldOfSummary | monitor.py:76-78 | On fping's summary line, the latency parsed is `float()` of exactly the average. |
| Fping.SummaryReading | monitor.py:63-82 | For a host name or address without `/` or whitespace, and `HOST : xmt/rcv/%loss = T/R/L%, min/avg/max = a/b/c` with a trailing newline, the reading is (`int(L)` or 100, `float(b)` or 0.0). |
| Fping.SummaryReadingValues | monitor.py:68-82 | With a whole-number loss and a decimal average, the reading is exactly their values. |
| Fping.LossOnlyIsDown | monitor.py:65-66 | A summary without the round-trip part reads as (100, 0.0), even though it holds a loss. |
| Numbers.IntToStringRoundTrip | monitor.py:127 | `int()` of the loss text `str()` wrote gives the loss back. |
| Rounding.Fixed2RoundTrip | monitor.py:127 | `float()` of the `:.2f` text is within 0.005 of the latency written. |
| Rounding.Truncate | display_status.py:66 | `int()` of a float truncates toward zero. |
| Csv.DictRow | analyze_logs.py:23 | A row's keys are exactly the header's names; fields beyond the last name are dropped (see "Left out"). |
| Csv.DictRowCell | analyze_logs.py:23 | Each name maps to the field in its last column, or to `None` when the row is too short. |
| Display.ReadLastSpeedtests | display_status.py:28-41 | A missing file gives nothing. Every line returned is non-empty. For a positive count: the last `count` non-empty stripped lines, newest first. For a zero count: all of them, reversed. |
| Display.StrippedLinesTrimmed | display_status.py:35-38 | Every kept line has no whitespace at either end. |
| Display.ReadHistoryKeyed | display_status.py:44-82 | The history always has exactly the keys ROUTER and INTERNET. A missing file gives two empty lists. |
| Display.CollectAppends | display_status.py:60-74 | The reading loop keeps the two keys. Under each it appends the entries of exactly the rows for that target, in file order. |
| Display.OtherTargetsSkipped | display_status.py:61-63 | A row for any other target changes nothing. |
| Display.HistoryOfTarget | display_status.py:54-79 | A target's history is the truncation of the entries of its rows. |
| Display.HistoryIsNewestRows | display_status.py:76-79 | With a positive bound, the history is the newest `min(n, bound)` entries of the target's rows, in order. With a zero bound, it is all of them. |
| Display.HistoryFromRows | display_status.py:60-79 | Every entry kept was built from a row for that target. |
| Display.Truncated | display_status.py:77-79 | Truncation keeps a suffix of the right length, and a zero bound keeps everything. |
| Display.NumberFallbacks | display_status.py:65-72 | A missing or unreadable loss reads as 0. A missing or unreadable latency reads as 0.0. |
| Display.DecimalComma | display_status.py:65-72 | A decimal comma reads as a decimal point. The loss keeps the whole part, with `float()` read exactly (see "Left out"). |
| Display.StatusToColor | display_status.py:85-92 | Green exactly for OK. Yellow exactly for the two warnings. Red exactly for CRITICAL and DOWN. Anything else, a missing state included, is cyan. |
| Display.FormatBigLabel | display_status.py:95-97 | The label is three rules' worth of characters plus two line breaks long. |
| Display.BigLabelLines | display_status.py:95-97 | A label without a line break gives three lines. The middle one is `| label |`. The outer two are `=` rules of the same width. |
| Analyzer.LogPaths | analyze_logs.py:12 | The files found are exactly the existing paths matching `LOG_DIR/network_log_*.csv`. |
| Analyzer.SortPaths | analyze_logs.py:12 | Sorting gives each found path exactly once, in increasing order. |
| Analyzer.SortedUnique | analyze_logs.py:12 | There is only one sorted order of a set of paths. |
| Analyzer.Analyze | analyze_logs.py:11-32 | The analyzer reports "no logs" exactly when no file matches. Otherwise it folds over the rows of the files in sorted order: it stops on a missing column exactly when some row lacks `Status`, or is a problem and lacks `Timestamp`. When it completes, the counts are the multiset of the rows' states, the first problem is the first problem stamp that is not `None`, and the last problem is the last problem row's stamp. |
| Analyzer.ScanComputesExpected | analyze_logs.py:17-32 | The fold adds the multiset of the rows' states to the counts. The first problem is kept if set, else taken from the first problem row with a stamp. The last problem is the last problem row's stamp. |
| Analyzer.ScanFailsIffUnreadable | analyze_logs.py:25-29 | The fold stops on a missing column exactly when some row lacks `Status`, or is a problem and lacks `Timestamp`. |
| Analyzer.CountsAddUp | analyze_logs.py:25-26 | Each row adds one to the count of its state, so the counts add up to the number of rows. |
| Analyzer.FirstProblemIff | analyze_logs.py:28-32 | A first problem is recorded exactly when some problem row carries a time stamp. Any state other than OK is a problem. |
| Analyzer.StampsOfProblems | analyze_logs.py:28-32 | The problem stamps are those of exactly the problem rows. |
| Analyzer.FirstProblemStamp | analyze_logs.py:28-32 | On rows that carry every column the fold reads, the fold completes, and a first problem recorded is the stamp of some problem row. |
| Interop.ReadLog | monitor.py:126-128 | A log of written rows reads back as one row per written row, under the header's names. |
| Interop.AsWrittenColumns | monitor.py:42 | Under the header as written, the empty column gets the latency and `Avg_Latency_ms` gets the state name. `Status` is missing. |
| Interop.AnalyzerSeesOnlyProblems | analyze_logs.py:25-32 | On a log the monitor wrote, every row is counted under a missing state and as a problem. The first and last problems are the first and last rows. |
| Interop.DashboardEntryAsWritten | display_status.py:64-74 | The dashboard reads a written row as loss 0, latency 0.0 and no state, shown in cyan. |
| Interop.DashboardShowsNothing | display_status.py:60-79 | Whatever was measured, every entry kept from a written log shows no loss, no latency and no state. |
| Interop.CorrectedColumns | monitor.py:42 | Under a five-name header, each value is found under its own name. |
| Interop.AnalyzerOnCorrectedLog | analyze_logs.py:25-32 | With the five-name header, each row is counted under its own state name. A first problem is recorded exactly when some measurement was not OK. |
| Interop.AnalyzerReportsOnCorrectedLog | analyze_logs.py:38-42 | With the five-name header and non-empty stamps, the analyzer reports problems (a truthy first problem) exactly when some measurement was not OK. |
| Interop.DashboardEntryCorrected | display_status.py:64-74 | With the five-name header and the loss looked up under its name, the dashboard shows the loss exactly, the latency to within 0.005, and the state. |
| Interop.DashboardLossAlwaysZero | display_status.py:66 | With the lookup key as written, the loss reads as 0 under either header. |
| Interop.LossReadsBack | display_status.py:66 | `int(float(str(n)))` is `n`, with `float()` read exactly (see "Left out"). |
| Interop.LatencyReadsBack | display_status.py:70 | `float()` of a `:.2f` text is within 0.005 of the value written. |
| Interop.ColorBands | display_status.py:85-92 | The colour of a written state follows its severity: green, then yellow for the two warnings, then red. |
| Interop.MonitorLogFound | analyze_logs.py:7-12 | A monitor configured with the analyzer's directory and the default prefix writes files the analyzer's search finds. |
| Interop.DefaultLogsNotFound | monitor.py:21 | With its default directory `/home/pi/monitoring`, the monitor writes where the analyzer, which searches `/home/partner/monitoring`, does not look. |

## Left out

- Process spawning, the 10-second timeout and exit codes are not modelled. A probe is either `Failed` or `Completed(stderr)`.
- The clock is an input (`today`, `now`), and `time.sleep` is represented only by the chosen interval. A negative configured interval, for which `time.sleep` raises `ValueError` and ends the monitor, is returned as is (`Monitor.SleepFor`, `Monitor.Cycle`).
- `os.makedirs` and directory creation are not modelled. A file's existence is membership in the file-system map.
- Read errors other than a missing file are not modelled; the file system has no error state. So the dashboard's `except Exception` in `read_last_speedtests` is never taken, and the other exceptions `read_ping_history` would propagate do not arise.
- `find_latest_log_file` is not modelled: it chooses by modification time, which the model does not have.
- Terminal output is not modelled: printing, ANSI clearing, the `main` of the dashboard (including its float averages), and the analyzer's report text.
- The `while True` loops are modelled one pass at a time (`Monitor.Cycle`), plus two consecutive passes (`Monitor.CyclesAppend`).
- Concurrency is not modelled: the dashboard and analyzer reading while the monitor appends.
- CSV quoting rules are not modelled; no field the monitor writes contains quotes. The reader splits on `;` and skips blank lines.
- Monitor.OverrideOne: shows the override rule for one option (`interval_problem`) as a concrete instance. The rule for every option, absent or present, is stated by `Monitor.LoadConfig`'s contract.
- Monitor.LoadConfig: configparser details are not modelled. This covers key case folding, keys inherited from the `[DEFAULT]` section, interpolation, continuation lines, whitespace around values, and a missing config file (which leaves the sections missing, as modelled). Sections are given as parsed maps.
- Csv.DictRow: a line with more fields than the header has names is not modelled as `csv.DictReader` reads it. Python keeps the extra fields as a list under the key `None` (its `restkey`); the model drops them. No reader in the system looks that key up, and every line the monitor writes has five fields.
- Numbers.IntToStringRoundTrip: `int()` and `float()` are modelled on plain decimal text with an optional `-` or `+` sign. Underscores, exponents, `inf`/`nan` and Unicode digits, all of which Python also accepts, are not modelled.
- Interop.LossReadsBack: `float()` is modelled as exact on the dashboard's loss path too. Python first rounds the text to a binary double, so `int(float(str(n)))` gives `n` back only for `|n|` up to 2^53. The monitor writes losses from 0 to 100, well inside that range.
- Interop.DashboardEntryCorrected: shows the loss exactly under the same exact-`float()` reading. It depends on `Interop.LossReadsBack`, so the same 2^53 bound applies.
- Display.DecimalComma: "the loss keeps the whole part" holds for exact reals. Python rounds to a double first, so a fraction past double precision can round up: `"0,99999999999999999"` reads as 1 there.
- Rounding.Fixed2RoundTrip: latencies are exact reals, not binary doubles. `:.2f` rounds the exact value half-to-even, which agrees with Python when the value is exactly representable.
- Monitor.DateKey: only years 1000-9999 are modelled. `strftime("%Y")` pads smaller years differently across platforms.
- Fping.SummaryReading: only fping's summary for one answering target is characterised. Other shapes of error text are covered only by the fail-safe and independence lemmas.
- Display.ReadLastSpeedtests: for a negative count, the contract states only that the lines returned are non-empty. Python's `lines[-count:]` then drops `-count` lines from the front; the function computes this, but no ensures states it.
- `Fping.RunFping` has no contract of its own. Its behaviour is stated by `Fping.FailSafe`, `Fping.BothMarkers`, `Fping.SummaryReading` and `Fping.LossOnlyIsDown`.

## Findings

| source | as written | input that shows it | evidently intended | confidence | as-written member | corrected member |
|---|---|---|---|---|---|---|
| monitor.py:42 | The header has `;;` and names six columns, while each row written at monitor.py:127-128 has five fields. | Any row, e.g. `2024-05-01 12:00:00;ROUTER;0;12.34;OK`. Under the header, its state lands in `Avg_Latency_ms`, and `Status` is missing. The analyzer then counts every row under `None` as a problem, and the dashboard shows no state. | A five-name header `Timestamp;Target;Packet_Loss_%;Avg_Latency_ms;Status`. | not executed | Interop.AnalyzerSeesOnlyProblems | Interop.AnalyzerOnCorrectedLog |
| display_status.py:66 | The loss is looked up under `"Packet_Loss_% "`, with a trailing space, which no header names. | Any log, with either header. Every loss the dashboard shows is 0. | The lookup key `"Packet_Loss_%"`. | not executed | Interop.DashboardLossAlwaysZero | Interop.DashboardEntryCorrected |

`Monitor` keeps the header exactly as the program writes it, and `Display.ReadPingHistory` uses the key as written. The corrected header (`Interop.CorrectedHeader`, with `Interop.CorrectedColumns`) and the corrected key are defined in `Interop`. `Display.ReadHistoryKeyed` takes the loss key as a parameter, so one definition serves both.

=== FILE: analyzer.dfy ===
/**
 * The log analyzer: every daily log in the monitoring directory, in name
 * order, folded into a count per state and the time stamps of the first and
 * the last problem.
 */
module Analyzer {
  import opened Wrappers
  import opened Strings
  import opened Files
  import opened Csv

  /** The directory the analyzer searches. */
  const LogDir := "/home/partner/monitoring"

  /** The fixed parts of the pattern `network_log_*.csv`. */
  const NamePrefix := "network_log_"
  const NameSuffix := ".csv"

  /**
   * A path `glob` finds for `LogDir/network_log_*.csv`: directly inside the
   * directory, a name that starts and ends with the fixed parts, `*` standing
   * for any text without `/`.
   */
  predicate IsLogPath(p: string) {
    var dir := LogDir + "/";
    && |p| >= |dir| + |NamePrefix| + |NameSuffix|
    && p[..|dir|] == dir
    && p[|dir|..|dir| + |NamePrefix|] == NamePrefix
    && p[|p| - |NameSuffix|..] == NameSuffix
    && '/' !in p[|dir|..]
  }

  /** The log files present. */
  function LogPaths(fs: FileSystem): (r: set<string>)
    ensures forall p :: p in r <==> p in fs && IsLogPath(p)
  {
    set p | p in fs && IsLogPath(p)
  }

  /** Increasing in Python's string order, hence without repeats. */
  predicate StrictlySorted(s: seq<string>) {
    forall i, j :: 0 <= i < j < |s| ==> Below(s[i], s[j])
  }

  /** `x` put into its place in a sorted sequence that lacks it. */
  function Insert(s: seq<string>, x: string): (r: seq<string>)
    requires StrictlySorted(s) && x !in s
    ensures StrictlySorted(r)
    ensures |r| == |s| + 1
    ensures forall y :: y in r <==> y in s || y == x
    decreases |s|
  {
    if |s| == 0 then [x]
    else
      BelowTotal(x, s[0]);
      if Below(x, s[0]) then
        forall j | 0 <= j < |s|
          ensures Below(x, s[j])
        {
          if j > 0 {
            BelowTransitive(x, s[0], s[j]);
          }
        }
        [x] + s
      else
        var rest := Insert(s[1..], x);
        assert forall j :: 0 <= j < |rest| ==> Below(s[0], rest[j]) by {
          forall j | 0 <= j < |rest|
            ensures Below(s[0], rest[j])
          {
            if rest[j] != x {
              assert rest[j] in rest;
              assert rest[j] in s[1..];
              var k :| 0 <= k < |s[1..]| && s[1..][k] == rest[j];
              assert s[k + 1] == rest[j];
            }
          }
        }
        [s[0]] + rest
  }

  /** `sorted(paths)`. */
  method SortPaths(paths: set<string>) returns (r: seq<string>)
    ensures StrictlySorted(r)
    ensures forall p :: p in r <==> p in paths
    ensures |r| == |paths|
  {
    r := [];
    var rest := paths;
    while rest != {}
      invariant StrictlySorted(r)
      invariant forall p :: p in r <==> p in paths && p !in rest
      invariant rest <= paths
      invariant |r| + |rest| == |paths|
      decreases |rest|
    {
      var x :| x in rest;
      r := Insert(r, x);
      rest := rest - {x};
    }
  }

  /** Two sorted sequences with the same elements are the same sequence. */
  lemma {:induction false} SortedUnique(a: seq<string>, b: seq<string>)
    requires StrictlySorted(a) && StrictlySorted(b)
    requires forall x :: x in a <==> x in b
    ensures a == b
    decreases |a|
  {
    assert |a| == 0 <==> |b| == 0 by {
      if |a| > 0 {
        assert a[0] in a;
      }
      if |b| > 0 {
        assert b[0] in b;
      }
    }
    if |a| > 0 {
      assert a[0] in b;
      assert b[0] in a;
      var i :| 0 <= i < |a| && a[i] == b[0];
      var j :| 0 <= j < |b| && b[j] == a[0];
      if i > 0 && j > 0 {
        BelowTransitive(a[0], b[0], a[0]);
        BelowIrreflexive(a[0]);
      }
      assert a[0] == b[0] by {
        if i > 0 {
          assert Below(a[0], b[0]);
          if j > 0 {
            assert false;
          }
        }
      }
      forall x
        ensures x in a[1..] <==> x in b[1..]
      {
        if x in a[1..] {
          var k :| 0 <= k < |a[1..]| && a[1..][k] == x;
          assert Below(a[0], a[k + 1]);
          BelowIrreflexive(a[0]);
          assert x in b && x != b[0];
          var m :| 0 <= m < |b| && b[m] == x;
          assert b[1..][m - 1] == x;
        }
        if x in b[1..] {
          var k :| 0 <= k < |b[1..]| && b[1..][k] == x;
          assert Below(b[0], b[k + 1]);
          BelowIrreflexive(b[0]);
          assert x in a && x != a[0];
          var m :| 0 <= m < |a| && a[m] == x;
          assert a[1..][m - 1] == x;
        }
      }
      SortedUnique(a[1..], b[1..]);
      assert a == [a[0]] + a[1..] && b == [b[0]] + b[1..];
    }
  }

  /** The rows of the files, file by file, each file's rows in order. */
  function RowsOf(fs: FileSystem, files: seq<string>): seq<Row>
    requires forall k :: 0 <= k < |files| ==> files[k] in fs
    decreases |files|
  {
    if |files| == 0 then [] else ReadDict(fs[files[0]]) + RowsOf(fs, files[1..])
  }

  /** What the loop accumulates: the states seen, with multiplicity, and two time stamps. */
  datatype Tally = Tally(counts: multiset<Option<string>>, first: Option<string>, last: Option<string>)

  const Start := Tally(multiset{}, None, None)

  /** How the analyzer ends: no logs, a `KeyError` on a missing column, or a summary. */
  datatype Outcome = NoLogs | MissingKey(key: string) | Summary(tally: Tally)

  predicate IsProblem(status: Option<string>) {
    status != Some("OK")
  }

  /**
   * The loop over the rows: each row adds one to the count of its state;
   * a row whose state is not OK sets the first problem if none is set yet,
   * and always sets the last problem, to its time stamp.
   */
  function Scan(t: Tally, rows: seq<Row>): Outcome
    decreases |rows|
  {
    if |rows| == 0 then Summary(t)
    else
      var row := rows[0];
      if "Status" !in row then MissingKey("Status")
      else
        var status := row["Status"];
        var counts := t.counts + multiset{status};
        if IsProblem(status) then
          if "Timestamp" !in row then MissingKey("Timestamp")
          else
            var ts := row["Timestamp"];
            Scan(Tally(counts, if t.first.None? then ts else t.first, ts), rows[1..])
        else Scan(Tally(counts, t.first, t.last), rows[1..])
  }

  /** Every row has a state, and every problem row a time stamp. */
  predicate Readable(rows: seq<Row>) {
    forall k :: 0 <= k < |rows| ==>
      "Status" in rows[k] && (IsProblem(rows[k]["Status"]) ==> "Timestamp" in rows[k])
  }

  /** The states of the rows, in order. */
  function Statuses(rows: seq<Row>): (r: seq<Option<string>>)
    requires Readable(rows)
    ensures |r| == |rows|
    ensures forall k :: 0 <= k < |rows| ==> r[k] == rows[k]["Status"]
  {
    seq(|rows|, k requires 0 <= k < |rows| => rows[k]["Status"])
  }

  /** The time stamps of the problem rows, in order. */
  function ProblemStamps(rows: seq<Row>): (r: seq<Option<string>>)
    requires Readable(rows)
    ensures |r| <= |rows|
    decreases |rows|
  {
    if |rows| == 0 then []
    else if IsProblem(rows[0]["Status"]) then [rows[0]["Timestamp"]] + ProblemStamps(rows[1..])
    else ProblemStamps(rows[1..])
  }

  /** The first value that is not `None`. */
  function FirstSome(s: seq<Option<string>>): (r: Option<string>)
    ensures r.None? <==> forall k :: 0 <= k < |s| ==> s[k].None?
    ensures r.Some? ==> r in s
    decreases |s|
  {
    if |s| == 0 then None
    else if s[0].Some? then s[0]
    else
      var r := FirstSome(s[1..]);
      assert r.None? ==> forall k :: 0 <= k < |s| ==> s[k].None? by {
        if r.None? {
          forall k | 0 <= k < |s|
            ensures s[k].None?
          {
            if k > 0 {
              assert s[k] == s[1..][k - 1];
            }
          }
        }
      }
      assert r.Some? ==> r in s by {
        if r.Some? {
          var k :| 0 <= k < |s[1..]| && s[1..][k] == r;
          assert s[k + 1] == r;
        }
      }
      r
  }

  /** The tally the loop should reach, from `t`, stated without the loop. */
  function Expected(t: Tally, rows: seq<Row>): Tally
    requires Readable(rows)
  {
    var stamps := ProblemStamps(rows);
    Tally(t.counts + multiset(Statuses(rows)),
          if t.first.Some? then t.first else FirstSome(stamps),
          if |stamps| > 0 then stamps[|stamps| - 1] else t.last)
  }

  lemma ReadableTail(rows: seq<Row>)
    requires |rows| > 0 && Readable(rows)
    ensures Readable(rows[1..])
    ensures Statuses(rows) == [rows[0]["Status"]] + Statuses(rows[1..])
  {
    assert forall k :: 0 <= k < |rows[1..]| ==> rows[1..][k] == rows[k + 1];
    assert Statuses(rows) == [rows[0]["Status"]] + Statuses(rows[1..]);
  }

  lemma FirstSomeCons(x: Option<string>, s: seq<Option<string>>)
    ensures FirstSome([x] + s) == if x.Some? then x else FirstSome(s)
  {
    assert ([x] + s)[1..] == s;
  }

  /**
   * On readable rows the loop reaches exactly the expected tally: every
   * state counted once, the first problem the earliest problem time stamp
   * that is set, the last problem the time stamp of the last problem row.
   */
  lemma {:induction false} ScanComputesExpected(t: Tally, rows: seq<Row>)
    requires Readable(rows)
    ensures Scan(t, rows) == Summary(Expected(t, rows))
    decreases |rows|
  {
    if |rows| == 0 {
      assert t.counts + multiset(Statuses(rows)) == t.counts;
    } else {
      ReadableTail(rows);
      var row := rows[0];
      var status := row["Status"];
      var counts := t.counts + multiset{status};
      if IsProblem(status) {
        var ts := row["Timestamp"];
        var t' := Tally(counts, if t.first.None? then ts else t.first, ts);
        ScanComputesExpected(t', rows[1..]);
        ExpectedProblemStep(t, rows);
      } else {
        ScanComputesExpected(Tally(counts, t.first, t.last), rows[1..]);
        ExpectedOkStep(t, rows);
      }
    }
  }

  /** Counting the first row's state, then the rest, counts them all. */
  lemma CountsStep(t: Tally, rows: seq<Row>)
    requires |rows| > 0 && Readable(rows)
    ensures Readable(rows[1..])
    ensures t.counts + multiset(Statuses(rows))
            == (t.counts + multiset{rows[0]["Status"]}) + multiset(Statuses(rows[1..]))
  {
    ReadableTail(rows);
    assert multiset(Statuses(rows)) == multiset{rows[0]["Status"]} + multiset(Statuses(rows[1..]));
  }

  /** After an OK row the expected tally is the one from the next row on, with the state counted. */
  lemma ExpectedOkStep(t: Tally, rows: seq<Row>)
    requires |rows| > 0 && Readable(rows) && !IsProblem(rows[0]["Status"])
    ensures Readable(rows[1..])
    ensures Expected(t, rows)
            == Expected(Tally(t.counts + multiset{rows[0]["Status"]}, t.first, t.last), rows[1..])
  {
    CountsStep(t, rows);
  }

  /** After a problem row the expected tally is the one from the next row on, with the row recorded. */
  lemma ExpectedProblemStep(t: Tally, rows: seq<Row>)
    requires |rows| > 0 && Readable(rows) && IsProblem(rows[0]["Status"])
    ensures Readable(rows[1..])
    ensures var ts := rows[0]["Timestamp"];
            Expected(t, rows)
            == Expected(Tally(t.counts + multiset{rows[0]["Status"]}, if t.first.None? then ts else t.first, ts),
                        rows[1..])
  {
    CountsStep(t, rows);
    var ts := rows[0]["Timestamp"];
    var stamps := ProblemStamps(rows);
    var stamps' := ProblemStamps(rows[1..]);
    assert stamps == [ts] + stamps';
    FirstSomeCons(ts, stamps');
    if |stamps'| > 0 {
      assert stamps[|stamps| - 1] == stamps'[|stamps'| - 1];
    }
  }

  /** The loop stops on a `KeyError` exactly when some row is not readable. */
  lemma {:induction false} ScanFailsIffUnreadable(t: Tally, rows: seq<Row>)
    ensures Scan(t, rows).MissingKey? <==> !Readable(rows)
    ensures !Scan(t, rows).NoLogs?
    decreases |rows|
  {
    if Readable(rows) {
      ScanComputesExpected(t, rows);
    } else {
      var k :| 0 <= k < |rows| && !("Status" in rows[k] && (IsProblem(rows[k]["Status"]) ==> "Timestamp" in rows[k]));
      if k > 0 {
        var row := rows[0];
        if "Status" in row && (IsProblem(row["Status"]) ==> "Timestamp" in row) {
          var status := row["Status"];
          var counts := t.counts + multiset{status};
          assert !Readable(rows[1..]) by {
            assert rows[1..][k - 1] == rows[k];
          }
          if IsProblem(status) {
            ScanFailsIffUnreadable(Tally(counts, if t.first.None? then row["Timestamp"] else t.first, row["Timestamp"]), rows[1..]);
          } else {
            ScanFailsIffUnreadable(Tally(counts, t.first, t.last), rows[1..]);
          }
        }
      }
    }
  }

  /** The analyzer: no logs, or the loop over every row of every log in name order. */
  method Analyze(fs: FileSystem) returns (files: seq<string>, out: Outcome)
    ensures StrictlySorted(files)
    ensures forall p :: p in files <==> p in fs && IsLogPath(p)
    ensures out.NoLogs? <==> files == []
    ensures files != [] ==> out == Scan(Start, RowsOf(fs, files))
    ensures files != [] ==> (out.MissingKey? <==> !Readable(RowsOf(fs, files)))
    ensures files != [] && Readable(RowsOf(fs, files)) ==>
              out.Summary? && out.tally.counts == multiset(Statuses(RowsOf(fs, files)))
              && out.tally.first == FirstSome(ProblemStamps(RowsOf(fs, files)))
              && out.tally.last == (var stamps := ProblemStamps(RowsOf(fs, files));
                                    if |stamps| > 0 then stamps[|stamps| - 1] else None)
  {
    files := SortPaths(LogPaths(fs));
    if files == [] {
      out := NoLogs;
    } else {
      var rows := RowsOf(fs, files);
      ScanFailsIffUnreadable(Start, rows);
      if Readable(rows) {
        ScanComputesExpected(Start, rows);
        assert Start.counts + multiset(Statuses(rows)) == multiset(Statuses(rows));
      }
      out := Scan(Start, rows);
    }
  }

  /** Counting from nothing, the counts add up to the number of rows. */
  lemma CountsAddUp(rows: seq<Row>)
    requires Readable(rows)
    ensures Scan(Start, rows).Summary?
    ensures |Scan(Start, rows).tally.counts| == |rows|
    ensures forall s :: Scan(Start, rows).tally.counts[s] == multiset(Statuses(rows))[s]
  {
    ScanComputesExpected(Start, rows);
    assert multiset{} + multiset(Statuses(rows)) == multiset(Statuses(rows));
  }

  /** A first problem is recorded exactly when some problem row has a time stamp set. */
  lemma FirstProblemIff(rows: seq<Row>)
    requires Readable(rows)
    ensures Scan(Start, rows).Summary?
    ensures Scan(Start, rows).tally.first.Some?
            <==> exists k :: 0 <= k < |rows| && IsProblem(rows[k]["Status"]) && rows[k]["Timestamp"].Some?
  {
    ScanComputesExpected(Start, rows);
    StampsOfProblems(rows);
    var stamps := ProblemStamps(rows);
    if exists k :: 0 <= k < |rows| && IsProblem(rows[k]["Status"]) && rows[k]["Timestamp"].Some? {
      var k :| 0 <= k < |rows| && IsProblem(rows[k]["Status"]) && rows[k]["Timestamp"].Some?;
      assert rows[k]["Timestamp"] in stamps;
    }
    if FirstSome(stamps).Some? {
      var i :| 0 <= i < |stamps| && stamps[i].Some?;
      assert stamps[i] in stamps;
    }
  }

  /** The problem time stamps are those of exactly the problem rows. */
  lemma {:induction false} StampsOfProblems(rows: seq<Row>)
    requires Readable(rows)
    ensures forall v :: v in ProblemStamps(rows) <==>
              exists k :: 0 <= k < |rows| && IsProblem(rows[k]["Status"]) && rows[k]["Timestamp"] == v
    decreases |rows|
  {
    if |rows| > 0 {
      ReadableTail(rows);
      StampsOfProblems(rows[1..]);
      forall v
        ensures v in ProblemStamps(rows) <==>
                exists k :: 0 <= k < |rows| && IsProblem(rows[k]["Status"]) && rows[k]["Timestamp"] == v
      {
        StampsStep(rows, v);
      }
    }
  }

  /** One value at a time: a problem stamp of the rows is the first row's or one of the rest's. */
  lemma StampsStep(rows: seq<Row>, v: Option<string>)
    requires |rows| > 0 && Readable(rows) && Readable(rows[1..])
    requires v in ProblemStamps(rows[1..]) <==>
               exists k :: 0 <= k < |rows[1..]| && IsProblem(rows[1..][k]["Status"]) && rows[1..][k]["Timestamp"] == v
    ensures v in ProblemStamps(rows) <==>
              exists k :: 0 <= k < |rows| && IsProblem(rows[k]["Status"]) && rows[k]["Timestamp"] == v
  {
    if exists k :: 0 <= k < |rows| && IsProblem(rows[k]["Status"]) && rows[k]["Timestamp"] == v {
      var k :| 0 <= k < |rows| && IsProblem(rows[k]["Status"]) && rows[k]["Timestamp"] == v;
      if k > 0 {
        assert rows[1..][k - 1] == rows[k];
      }
    }
    if v in ProblemStamps(rows[1..]) {
      var k :| 0 <= k < |rows[1..]| && IsProblem(rows[1..][k]["Status"]) && rows[1..][k]["Timestamp"] == v;
      assert rows[k + 1] == rows[1..][k];
    }
  }

  /** A first problem the loop records is the time stamp of some problem row. */
  lemma FirstProblemStamp(rows: seq<Row>)
    requires Readable(rows)
    ensures Scan(Start, rows).Summary?
    ensures Scan(Start, rows).tally.first.Some? ==>
              exists k :: 0 <= k < |rows| && IsProblem(rows[k]["Status"])
                          && rows[k]["Timestamp"] == Scan(Start, rows).tally.first
  {
    ScanComputesExpected(Start, rows);
    StampsOfProblems(rows);
  }

  /** `if first_problem:` -- a time stamp that is set and not empty. */
  predicate ReportsProblems(out: Outcome) {
    out.Summary? && out.tally.first.Some? && out.tally.first.value != ""
  }
}

=== FILE: csv.dfy ===
/**
 * `csv.DictReader` with `delimiter=";"` over a file's lines, for text without
 * quote characters: the first line names the columns, blank lines are skipped,
 * and each other line becomes a row mapping column names to fields.
 */
module Csv {
  import opened Wrappers
  import opened Strings

  /**
   * One row: each column name maps to its field, or to `None` (the reader's
   * `restval`) when the line has fewer fields than there are names.
   */
  type Row = map<string, Option<string>>

  /** The fields of one line: none for a blank line, otherwise the `;`-separated parts. */
  function Fields(line: string): (r: seq<string>)
    ensures line == "" <==> r == []
    ensures r != [] ==> Join(r, ";") == line
    ensures forall k :: 0 <= k < |r| ==> ';' !in r[k]
  {
    if line == "" then []
    else
      var r := Split(line, ";");
      forall k | 0 <= k < |r|
        ensures ';' !in r[k]
      {
        ContainsChar(r[k], ';');
      }
      r
  }

  /** Joining fields free of `;` and reading them back gives the same fields. */
  lemma FieldsOfJoin(fields: seq<string>)
    requires |fields| >= 2
    requires forall k :: 0 <= k < |fields| ==> ';' !in fields[k]
    ensures Fields(Join(fields, ";")) == fields
  {
    SplitJoinChar(fields, ';');
    assert Join(fields, ";") != "" by {
      assert |Join(fields, ";")| >= 1 by {
        assert Join(fields, ";") == fields[0] + ";" + Join(fields[1..], ";");
      }
    }
  }

  /** The field in position `j`, or `None` past the end of the line. */
  function Cell(fields: seq<string>, j: nat): Option<string> {
    if j < |fields| then Some(fields[j]) else None
  }

  /** No later column carries the same name as column `j`. */
  predicate LastNamed(names: seq<string>, j: int)
    requires 0 <= j < |names|
  {
    forall j' :: j < j' < |names| ==> names[j'] != names[j]
  }

  /**
   * The row for one line: `dict(zip(names, fields))` with missing trailing
   * fields set to `None`; a repeated name keeps the value of its last column.
   * Fields beyond the last name (the reader's `restkey` list) are dropped.
   */
  function DictRow(names: seq<string>, fields: seq<string>): (r: Row)
    ensures r.Keys == set k | k in names
    decreases |names|
  {
    if |names| == 0 then map[]
    else
      var n := |names| - 1;
      assert names == names[..n] + [names[n]];
      DictRow(names[..n], fields)[names[n] := Cell(fields, n)]
  }

  /** Each name maps to the field under its last column. */
  lemma {:induction false} DictRowCell(names: seq<string>, fields: seq<string>, j: nat)
    requires j < |names| && LastNamed(names, j)
    ensures DictRow(names, fields)[names[j]] == Cell(fields, j)
    decreases |names|
  {
    var n := |names| - 1;
    if j < n {
      assert names[..n][j] == names[j];
      assert LastNamed(names[..n], j) by {
        forall j' | j < j' < n
          ensures names[..n][j'] != names[..n][j]
        {
          assert names[..n][j'] == names[j'];
        }
      }
      DictRowCell(names[..n], fields, j);
    }
  }

  /** The lines that are not blank, in order. */
  function NonBlank(lines: seq<string>): (r: seq<string>)
    ensures |r| <= |lines|
    ensures forall k :: 0 <= k < |r| ==> r[k] != "" && r[k] in lines
    decreases |lines|
  {
    if |lines| == 0 then []
    else if lines[0] == "" then NonBlank(lines[1..])
    else [lines[0]] + NonBlank(lines[1..])
  }

  /** Filtering blank lines distributes over concatenation. */
  lemma {:induction false} NonBlankAppend(a: seq<string>, b: seq<string>)
    ensures NonBlank(a + b) == NonBlank(a) + NonBlank(b)
    decreases |a|
  {
    if |a| > 0 {
      assert (a + b)[1..] == a[1..] + b;
      NonBlankAppend(a[1..], b);
    } else {
      assert a + b == b;
    }
  }

  /** Rows read under the given column names, one per non-blank line. */
  function RowsUnder(names: seq<string>, lines: seq<string>): (r: seq<Row>)
    ensures |r| == |NonBlank(lines)|
  {
    var body := NonBlank(lines);
    seq(|body|, i requires 0 <= i < |body| => DictRow(names, Fields(body[i])))
  }

  /** All rows of a file: the first line names the columns. */
  function ReadDict(lines: seq<string>): seq<Row> {
    if |lines| == 0 then [] else RowsUnder(Fields(lines[0]), lines[1..])
  }
}

=== FILE: display.dfy ===
/**
 * The status dashboard's pure parts: the recent speed tests, the per-target
 * ping history read from a log, the state colours and the framed label.
 */
module Display {
  import opened Wrappers
  import opened Strings
  import opened Numbers
  import opened Rounding
  import opened Files
  import opened Csv

  /** Where Python's `s[start:]` begins in a sequence of length `n`. */
  function SliceStart(n: nat, start: int): (k: nat)
    ensures k <= n
  {
    if start >= 0 then (if start < n then start else n)
    else if n + start > 0 then n + start else 0
  }

  /** `s[::-1]`. */
  function Reverse<T>(s: seq<T>): (r: seq<T>)
    ensures |r| == |s|
    ensures forall i :: 0 <= i < |s| ==> r[i] == s[|s| - 1 - i]
    decreases |s|
  {
    if |s| == 0 then [] else [s[|s| - 1]] + Reverse(s[..|s| - 1])
  }

  /** Each line stripped, keeping only those that are not empty. */
  function StrippedLines(lines: seq<string>): (r: seq<string>)
    ensures |r| <= |lines|
    ensures forall k :: 0 <= k < |r| ==> r[k] != ""
    decreases |lines|
  {
    if |lines| == 0 then []
    else
      var t := Strip(lines[0]);
      (if t != "" then [t] else []) + StrippedLines(lines[1..])
  }

  /** Every kept line has no whitespace at either end. */
  lemma {:induction false} StrippedLinesTrimmed(lines: seq<string>)
    ensures forall k :: 0 <= k < |StrippedLines(lines)| ==> Trimmed(StrippedLines(lines)[k])
    decreases |lines|
  {
    if |lines| > 0 {
      StrippedLinesTrimmed(lines[1..]);
      var t := Strip(lines[0]);
      var rest := StrippedLines(lines[1..]);
      var r := StrippedLines(lines);
      forall k | 0 <= k < |r|
        ensures Trimmed(r[k])
      {
        if t != "" && k == 0 {
          assert r[k] == t;
        } else {
          var k' := if t != "" then k - 1 else k;
          assert r[k] == rest[k'];
        }
      }
    }
  }

  /**
   * `read_last_speedtests`: the last `count` non-empty stripped lines of the
   * file, newest first; nothing when the file does not exist. As with Python's
   * `lines[-count:]`, a zero count keeps every line and a negative one drops
   * that many from the front.
   */
  function ReadLastSpeedtests(fs: FileSystem, path: string, count: int): (r: seq<string>)
    ensures path !in fs ==> r == []
    ensures forall k :: 0 <= k < |r| ==> r[k] != ""
    ensures path in fs && count >= 1 ==>
              var lines := StrippedLines(fs[path]);
              |r| == (if count < |lines| then count else |lines|)
              && forall i :: 0 <= i < |r| ==> r[i] == lines[|lines| - 1 - i]
    ensures path in fs && count == 0 ==> r == Reverse(StrippedLines(fs[path]))
  {
    if path !in fs then []
    else
      var lines := StrippedLines(fs[path]);
      Reverse(lines[SliceStart(|lines|, -count)..])
  }

  /** One history entry: time stamp, loss percentage, latency and state, as read. */
  datatype Entry = Entry(ts: Option<string>, loss: int, latency: real, status: Option<string>)

  /** The history by target name. */
  type History = map<string, seq<Entry>>

  /** The two targets the dashboard keeps, with nothing recorded yet. */
  const EmptyHistory: History := map["ROUTER" := [], "INTERNET" := []]

  /** The column the dashboard looks up for the loss, trailing space included. */
  const LossKey := "Packet_Loss_% "

  /** `row.get(key, default)`: the stored field, which may be `None`, or the default. */
  function Get(row: Row, key: string, default: string): (r: Option<string>)
    ensures key !in row ==> r == Some(default)
    ensures key in row ==> r == row[key]
  {
    if key in row then row[key] else Some(default)
  }

  /**
   * `int(float(v.replace(",", ".")))`, or 0 where Python raises: on a missing
   * field (`None` has no `replace`) or on text `float()` rejects.
   */
  function LossOf(v: Option<string>): int {
    match v
    case None => 0
    case Some(s) =>
      match ParseFloat(Substitute(s, ',', '.'))
      case None => 0
      case Some(x) => Truncate(x)
  }

  /** `float(v.replace(",", "."))`, or 0.0 where Python raises. */
  function LatencyOf(v: Option<string>): real {
    match v
    case None => 0.0
    case Some(s) =>
      match ParseFloat(Substitute(s, ',', '.'))
      case None => 0.0
      case Some(x) => x
  }

  /** The entry the dashboard builds from one row, looking the loss up under `lossKey`. */
  function EntryOf(row: Row, lossKey: string): Entry {
    Entry(Get(row, "Timestamp", ""),
          LossOf(Get(row, lossKey, "0")),
          LatencyOf(Get(row, "Avg_Latency_ms", "0")),
          Get(row, "Status", ""))
  }

  /** Whether a row's Target is exactly `name`. */
  predicate RowFor(row: Row, name: string) {
    Get(row, "Target", "") == Some(name)
  }

  /** The entries of the rows for one target, in file order: the reference for the reader. */
  function EntriesFor(rows: seq<Row>, name: string, lossKey: string): (r: seq<Entry>)
    ensures |r| <= |rows|
    decreases |rows|
  {
    if |rows| == 0 then []
    else (if RowFor(rows[0], name) then [EntryOf(rows[0], lossKey)] else []) + EntriesFor(rows[1..], name, lossKey)
  }

  /** Every entry for a target comes from a row for that target. */
  lemma {:induction false} EntriesForMembers(rows: seq<Row>, name: string, lossKey: string)
    ensures forall e :: e in EntriesFor(rows, name, lossKey) ==>
              exists k :: 0 <= k < |rows| && RowFor(rows[k], name) && e == EntryOf(rows[k], lossKey)
    decreases |rows|
  {
    if |rows| > 0 {
      EntriesForMembers(rows[1..], name, lossKey);
      forall e | e in EntriesFor(rows, name, lossKey)
        ensures exists k :: 0 <= k < |rows| && RowFor(rows[k], name) && e == EntryOf(rows[k], lossKey)
      {
        if e in EntriesFor(rows[1..], name, lossKey) {
          var k :| 0 <= k < |rows[1..]| && RowFor(rows[1..][k], name) && e == EntryOf(rows[1..][k], lossKey);
          assert rows[k + 1] == rows[1..][k];
        } else {
          assert RowFor(rows[0], name) && e == EntryOf(rows[0], lossKey);
        }
      }
    }
  }

  /** Record one row under its target, or skip it when the target is not one of the keys. */
  function AddRow(h: History, row: Row, lossKey: string): History {
    match Get(row, "Target", "")
    case Some(t) => if t in h then h[t := h[t] + [EntryOf(row, lossKey)]] else h
    case None => h
  }

  /** The reading loop: every row in turn, as `AddRow`. */
  function Collect(h: History, rows: seq<Row>, lossKey: string): History
    decreases |rows|
  {
    if |rows| == 0 then h else Collect(AddRow(h, rows[0], lossKey), rows[1..], lossKey)
  }

  /** One row adds its entry under its own target and nowhere else. */
  lemma AddRowAppends(h: History, row: Row, lossKey: string)
    ensures AddRow(h, row, lossKey).Keys == h.Keys
    ensures forall t :: t in h ==>
              AddRow(h, row, lossKey)[t] == h[t] + (if RowFor(row, t) then [EntryOf(row, lossKey)] else [])
  {
    forall t | t in h
      ensures AddRow(h, row, lossKey)[t] == h[t] + (if RowFor(row, t) then [EntryOf(row, lossKey)] else [])
    {
      if !RowFor(row, t) {
        assert h[t] + [] == h[t];
      }
    }
  }

  /** Appending the first row's entries, then the rest's, appends the entries of all rows. */
  lemma AppendStep(before: seq<Entry>, middle: seq<Entry>, after: seq<Entry>, rows: seq<Row>, t: string, lossKey: string)
    requires |rows| > 0
    requires middle == before + (if RowFor(rows[0], t) then [EntryOf(rows[0], lossKey)] else [])
    requires after == middle + EntriesFor(rows[1..], t, lossKey)
    ensures after == before + EntriesFor(rows, t, lossKey)
  {
    var here := if RowFor(rows[0], t) then [EntryOf(rows[0], lossKey)] else [];
    assert EntriesFor(rows, t, lossKey) == here + EntriesFor(rows[1..], t, lossKey);
    assert before + here + EntriesFor(rows[1..], t, lossKey) == before + (here + EntriesFor(rows[1..], t, lossKey));
  }

  /**
   * The loop keeps the keys it started with and appends, under each, the
   * entries of exactly the rows for that key.
   */
  lemma {:induction false} CollectAppends(h: History, rows: seq<Row>, lossKey: string)
    ensures Collect(h, rows, lossKey).Keys == h.Keys
    ensures forall t :: t in h ==> Collect(h, rows, lossKey)[t] == h[t] + EntriesFor(rows, t, lossKey)
    decreases |rows|
  {
    if |rows| == 0 {
      forall t | t in h
        ensures Collect(h, rows, lossKey)[t] == h[t] + EntriesFor(rows, t, lossKey)
      {
        assert h[t] + [] == h[t];
      }
    } else {
      var h1 := AddRow(h, rows[0], lossKey);
      var c := Collect(h1, rows[1..], lossKey);
      assert Collect(h, rows, lossKey) == c;
      AddRowAppends(h, rows[0], lossKey);
      CollectAppends(h1, rows[1..], lossKey);
      forall t | t in h
        ensures c[t] == h[t] + EntriesFor(rows, t, lossKey)
      {
        AppendStep(h[t], h1[t], c[t], rows, t, lossKey);
      }
    }
  }

  /**
   * `entries[-max_entries:]` applied only when there are more than
   * `max_entries`: a positive bound keeps the newest entries, zero keeps all.
   */
  function Truncated(entries: seq<Entry>, maxEntries: int): (r: seq<Entry>)
    ensures maxEntries >= 1 ==> |r| == (if |entries| < maxEntries then |entries| else maxEntries)
    ensures maxEntries >= 1 ==> r == entries[|entries| - |r|..]
    ensures maxEntries == 0 ==> r == entries
  {
    if |entries| > maxEntries then entries[SliceStart(|entries|, -maxEntries)..] else entries
  }

  /** `read_ping_history`, with the loss column named by `lossKey`. */
  function ReadHistoryKeyed(fs: FileSystem, path: string, maxEntries: int, lossKey: string): (r: History)
    ensures r.Keys == {"ROUTER", "INTERNET"}
    ensures path !in fs ==> r == EmptyHistory
  {
    if path !in fs then EmptyHistory
    else
      var h := Collect(EmptyHistory, ReadDict(fs[path]), lossKey);
      CollectAppends(EmptyHistory, ReadDict(fs[path]), lossKey);
      map["ROUTER" := Truncated(h["ROUTER"], maxEntries), "INTERNET" := Truncated(h["INTERNET"], maxEntries)]
  }

  /** Whatever the bound, truncation keeps only entries it was given. */
  lemma TruncatedWithin(entries: seq<Entry>, maxEntries: int)
    ensures forall e :: e in Truncated(entries, maxEntries) ==> e in entries
  {
    var r := Truncated(entries, maxEntries);
    forall e | e in r
      ensures e in entries
    {
      var i :| 0 <= i < |r| && r[i] == e;
      if |entries| > maxEntries {
        var start := SliceStart(|entries|, -maxEntries);
        assert e == entries[start + i];
      }
    }
  }

  /** Every entry of a target's history was built from a row for that target. */
  lemma HistoryFromRows(fs: FileSystem, path: string, maxEntries: int, lossKey: string, name: string)
    requires path in fs && (name == "ROUTER" || name == "INTERNET")
    ensures forall e :: e in ReadHistoryKeyed(fs, path, maxEntries, lossKey)[name] ==>
              exists k :: 0 <= k < |ReadDict(fs[path])| && RowFor(ReadDict(fs[path])[k], name)
                          && e == EntryOf(ReadDict(fs[path])[k], lossKey)
  {
    var rows := ReadDict(fs[path]);
    HistoryOfTarget(fs, path, maxEntries, lossKey, name);
    TruncatedWithin(EntriesFor(rows, name, lossKey), maxEntries);
    EntriesForMembers(rows, name, lossKey);
  }

  /** `read_ping_history` as written: the loss is looked up under `"Packet_Loss_% "`. */
  function ReadPingHistory(fs: FileSystem, path: string, maxEntries: int): History {
    ReadHistoryKeyed(fs, path, maxEntries, LossKey)
  }

  /** Each target's history is the truncation of the entries of its rows. */
  lemma HistoryOfTarget(fs: FileSystem, path: string, maxEntries: int, lossKey: string, name: string)
    requires path in fs && (name == "ROUTER" || name == "INTERNET")
    ensures ReadHistoryKeyed(fs, path, maxEntries, lossKey)[name]
            == Truncated(EntriesFor(ReadDict(fs[path]), name, lossKey), maxEntries)
  {
    var rows := ReadDict(fs[path]);
    CollectAppends(EmptyHistory, rows, lossKey);
    var all := EntriesFor(rows, name, lossKey);
    assert EmptyHistory[name] == [];
    assert Collect(EmptyHistory, rows, lossKey)[name] == [] + all;
    assert [] + all == all;
  }

  /** `r` is the newest `maxEntries` entries of `all`, or all of them when the bound is zero. */
  predicate NewestOf(all: seq<Entry>, r: seq<Entry>, maxEntries: int) {
    && (maxEntries >= 1 ==> |r| == (if |all| < maxEntries then |all| else maxEntries) && r == all[|all| - |r|..])
    && (maxEntries == 0 ==> r == all)
  }

  lemma TruncatedNewest(all: seq<Entry>, r: seq<Entry>, maxEntries: int)
    requires r == Truncated(all, maxEntries)
    ensures NewestOf(all, r, maxEntries)
  {
  }

  /**
   * For each target, the history is the newest `max_entries` entries of the
   * rows for that target, in file order; a zero bound keeps them all.
   */
  lemma HistoryIsNewestRows(fs: FileSystem, path: string, maxEntries: int, lossKey: string, name: string)
    requires path in fs && (name == "ROUTER" || name == "INTERNET")
    ensures NewestOf(EntriesFor(ReadDict(fs[path]), name, lossKey),
                     ReadHistoryKeyed(fs, path, maxEntries, lossKey)[name], maxEntries)
  {
    var all := EntriesFor(ReadDict(fs[path]), name, lossKey);
    var r := ReadHistoryKeyed(fs, path, maxEntries, lossKey)[name];
    HistoryOfTarget(fs, path, maxEntries, lossKey, name);
    TruncatedNewest(all, r, maxEntries);
  }


  /** A row whose Target is neither ROUTER nor INTERNET leaves the history as it was. */
  lemma OtherTargetsSkipped(h: History, row: Row, lossKey: string)
    requires h.Keys == {"ROUTER", "INTERNET"}
    requires !RowFor(row, "ROUTER") && !RowFor(row, "INTERNET")
    ensures AddRow(h, row, lossKey) == h
  {
  }

  /** A missing or unreadable loss reads as 0; a missing or unreadable latency as 0.0. */
  lemma NumberFallbacks(s: string)
    requires ParseFloat(Substitute(s, ',', '.')).None?
    ensures LossOf(None) == 0 && LossOf(Some(s)) == 0
    ensures LatencyOf(None) == 0.0 && LatencyOf(Some(s)) == 0.0
  {
  }

  /** A decimal comma is read as a decimal point; the loss keeps the whole part. */
  lemma DecimalComma(whole: string, frac: string)
    requires |whole| > 0 && AllDigits(whole) && AllDigits(frac)
    ensures LatencyOf(Some(whole + "," + frac)) == DecimalValue(whole, frac)
    ensures LossOf(Some(whole + "," + frac)) == DigitsValue(whole) as int
  {
    var s := whole + "," + frac;
    var t := whole + "." + frac;
    forall i | 0 <= i < |s|
      ensures Substitute(s, ',', '.')[i] == t[i]
    {
      if i < |whole| {
        assert s[i] == whole[i] && IsDigit(whole[i]);
      } else if i > |whole| {
        assert s[i] == frac[i - |whole| - 1] && IsDigit(frac[i - |whole| - 1]);
      }
    }
    assert Substitute(s, ',', '.') == t;
    DecimalParseAsFloat(whole, frac);
    DecimalValueBounds(whole, frac);
  }

  /** The terminal colours the dashboard uses. */
  datatype Color = Green | Yellow | Red | Cyan

  /**
   * `status_to_color`: OK is green, the two warnings yellow, CRITICAL and DOWN
   * red, and anything else, a missing state included, cyan.
   */
  function StatusToColor(status: Option<string>): (r: Color)
    ensures r == Green <==> status == Some("OK")
    ensures r == Yellow <==> status == Some("WARN_LATENCY") || status == Some("WARN_LOSS")
    ensures r == Red <==> status == Some("CRITICAL") || status == Some("DOWN")
  {
    match status
    case Some(s) =>
      if s == "OK" then Green
      else if s == "WARN_LATENCY" || s == "WARN_LOSS" then Yellow
      else if s == "CRITICAL" || s == "DOWN" then Red
      else Cyan
    case None => Cyan
  }

  /** `format_big_label`: the label framed between two rules of `=`. */
  function FormatBigLabel(title: string): (r: string)
    ensures |r| == 3 * (|title| + 4) + 2
  {
    var rule := Repeat('=', |title| + 4);
    rule + "\n" + "| " + title + " |" + "\n" + rule
  }

  /**
   * A label without a line break gives exactly three lines: two rules of `=`
   * as wide as the middle line, which is the label between `| ` and ` |`.
   */
  lemma BigLabelLines(title: string)
    requires '\n' !in title
    ensures var lines := Split(FormatBigLabel(title), "\n");
            && |lines| == 3
            && lines[1] == "| " + title + " |"
            && |lines[0]| == |lines[1]| == |lines[2]| == |title| + 4
            && (forall i :: 0 <= i < |lines[0]| ==> lines[0][i] == '=')
            && lines[2] == lines[0]
  {
    var rule := Repeat('=', |title| + 4);
    var mid := "| " + title + " |";
    assert '\n' !in rule;
    assert '\n' !in mid;
    assert FormatBigLabel(title) == rule + ['\n'] + (mid + ['\n'] + rule);
    SplitAtChar(rule, '\n', mid + ['\n'] + rule);
    SplitAtChar(mid, '\n', rule);
    SplitNone(rule, "\n") by {
      MissingCharNotContained(rule, "\n", 0);
    }
  }
}

=== FILE: files.dfy ===
/** The file system seen by the monitor and its readers, and `os.path.join`. */
module Files {

  /**
   * Each existing file, by path, as its lines without line terminators. Every
   * line the monitor writes ends with a newline, so a file is a whole number
   * of lines.
   */
  type FileSystem = map<string, seq<string>>

  /** `os.path.join(a, b)` for two components. */
  function JoinPath(a: string, b: string): (r: string)
    ensures |r| >= |b| && r[|r| - |b|..] == b
    ensures (|b| > 0 && b[0] == '/') || (|r| >= |a| && r[..|a|] == a)
    ensures |b| > 0 && b[0] == '/' ==> r == b
  {
    if |b| > 0 && b[0] == '/' then b
    else if |a| == 0 || a[|a| - 1] == '/' then a + b
    else a + "/" + b
  }
}

=== FILE: fping.dfy ===
/**
 * The probe of monitor.py's `run_fping`: the external `fping -c N -q -p MS`
 * process is abstracted to its outcome, and its diagnostic output is parsed
 * into a loss percentage and an average round-trip time, degrading to
 * "total loss" whenever anything goes wrong.
 */
module Fping {
  import opened Wrappers
  import opened Strings
  import opened Numbers

  /**
   * How the probe process ended: it could not be run (not installed, the
   * 10-second timeout, any other exception), or it completed, with whatever
   * exit status, leaving this text on its error stream.
   */
  datatype ProbeOutcome = Failed | Completed(stderr: string)

  /** A loss percentage and an average latency in milliseconds. */
  datatype Reading = Reading(loss: int, latency: real)

  /** The fail-safe reading: everything lost, no latency. */
  const Down := Reading(100, 0.0)

  /** The two markers whose presence the probe checks before parsing. */
  const LossMarker := "xmt/rcv/%loss"
  const LatencyMarker := "min/avg/max"

  /** The texts the probe splits on: each marker followed by ` =`. */
  const LossSplitter := "xmt/rcv/%loss ="
  const LatencySplitter := "min/avg/max ="

  /**
   * The loss percentage: the text after the first `xmt/rcv/%loss =` up to
   * the next comma, its last `/`-separated part with every `%` removed, read
   * by `int()`. `None` where Python raises (no text after the splitter, or a
   * token `int()` rejects).
   */
  function LossField(s: string): Option<int> {
    var parts := Split(s, LossSplitter);
    if |parts| < 2 then None
    else
      var partLoss := Strip(Split(parts[1], ",")[0]);
      ParseInt(Strip(Remove(LastPart(partLoss), '%')))
  }

  /** `t.split("/")[-1]`. */
  function LastPart(t: string): string {
    var pieces := Split(t, "/");
    pieces[|pieces| - 1]
  }

  /**
   * The average latency: the text after the first `min/avg/max =`, stripped,
   * its second `/`-separated part read by `float()`. `None` where Python
   * raises (nothing after the splitter, no second part, a bad number).
   */
  function LatencyField(s: string): Option<real> {
    var parts := Split(s, LatencySplitter);
    if |parts| < 2 then None
    else
      var pieces := Split(Strip(parts[1]), "/");
      if |pieces| < 2 then None else ParseFloat(Strip(pieces[1]))
  }

  /**
   * `run_fping`: the fail-safe reading unless the process completed and its
   * stripped error text holds both markers; then each field parsed on its
   * own, loss falling back to 100 and latency to 0.0.
   */
  function RunFping(outcome: ProbeOutcome): Reading
  {
    match outcome
    case Failed => Down
    case Completed(err) =>
      var s := Strip(err);
      if !Contains(s, LossMarker) || !Contains(s, LatencyMarker) then Down
      else Reading(LossField(s).GetOr(100), LatencyField(s).GetOr(0.0))
  }

  /**
   * The fail-safe: a probe that did not complete, or whose stripped error text
   * lacks either marker, reads as a total loss with no latency.
   */
  lemma FailSafe(outcome: ProbeOutcome)
    ensures outcome.Failed? ==> RunFping(outcome) == Down
    ensures outcome.Completed? && !Contains(Strip(outcome.stderr), LossMarker) ==> RunFping(outcome) == Down
    ensures outcome.Completed? && !Contains(Strip(outcome.stderr), LatencyMarker) ==> RunFping(outcome) == Down
  {
  }

  /**
   * With both markers present, each field is parsed on its own: the loss
   * depends on the loss field alone and the latency on the latency field
   * alone, and a field that fails to parse falls back without disturbing the
   * other.
   */
  lemma BothMarkers(one: ProbeOutcome, two: ProbeOutcome)
    requires one.Completed? && two.Completed?
    requires Contains(Strip(one.stderr), LossMarker) && Contains(Strip(one.stderr), LatencyMarker)
    requires Contains(Strip(two.stderr), LossMarker) && Contains(Strip(two.stderr), LatencyMarker)
    ensures LossField(Strip(one.stderr)) == LossField(Strip(two.stderr))
            ==> RunFping(one).loss == RunFping(two).loss
    ensures LatencyField(Strip(one.stderr)) == LatencyField(Strip(two.stderr))
            ==> RunFping(one).latency == RunFping(two).latency
    ensures LossField(Strip(one.stderr)).None? && LatencyField(Strip(one.stderr)).Some?
            ==> RunFping(one) == Reading(100, LatencyField(Strip(one.stderr)).value)
    ensures LossField(Strip(one.stderr)).Some? && LatencyField(Strip(one.stderr)).None?
            ==> RunFping(one) == Reading(LossField(Strip(one.stderr)).value, 0.0)
  {
    MarkedReading(one);
    MarkedReading(two);
  }

  /** The reading of an output holding both markers, field by field. */
  lemma MarkedReading(outcome: ProbeOutcome)
    requires outcome.Completed?
    requires Contains(Strip(outcome.stderr), LossMarker) && Contains(Strip(outcome.stderr), LatencyMarker)
    ensures RunFping(outcome).loss == LossField(Strip(outcome.stderr)).GetOr(100)
    ensures RunFping(outcome).latency == LatencyField(Strip(outcome.stderr)).GetOr(0.0)
  {
  }

  /**
   * The loss field depends only on the text after the first loss splitter:
   * whatever precedes it is ignored.
   */
  lemma LossFieldLocal(before: string, before': string, after: string)
    requires Find(before + LossSplitter + after, LossSplitter) == Some(|before|)
    requires Find(before' + LossSplitter + after, LossSplitter) == Some(|before'|)
    ensures LossField(before + LossSplitter + after) == LossField(before' + LossSplitter + after)
  {
    SplitAtFirst(before, LossSplitter, after);
    SplitAtFirst(before', LossSplitter, after);
  }

  /**
   * The latency field depends only on the text after the first latency
   * splitter: whatever precedes it is ignored.
   */
  lemma LatencyFieldLocal(before: string, before': string, after: string)
    requires Find(before + LatencySplitter + after, LatencySplitter) == Some(|before|)
    requires Find(before' + LatencySplitter + after, LatencySplitter) == Some(|before'|)
    ensures LatencyField(before + LatencySplitter + after) == LatencyField(before' + LatencySplitter + after)
  {
    SplitAtFirst(before, LatencySplitter, after);
    SplitAtFirst(before', LatencySplitter, after);
  }

  /** The characters of a number as fping prints it. */
  predicate IsTokenChar(c: char) {
    IsDigit(c) || c == '.'
  }

  predicate Token(x: string) {
    |x| > 0 && forall i :: 0 <= i < |x| ==> IsTokenChar(x[i])
  }

  /**
   * A target as fping echoes it: a host name or a numeric address, which
   * holds neither a slash nor whitespace.
   */
  predicate Host(x: string) {
    |x| > 0 && forall i :: 0 <= i < |x| ==> x[i] != '/' && !IsSpace(x[i])
  }

  /** The round-trip part of the summary: ` mn/avg/mx`. */
  function LatencyTail(mn: string, avg: string, mx: string): string {
    " " + mn + "/" + avg + "/" + mx
  }

  /** The transmitted/received/loss part, before the comma. */
  function LossPart(xmt: string, rcv: string, loss: string): string {
    " " + xmt + "/" + rcv + "/" + loss + "%"
  }

  /**
   * The summary line `fping -q` prints for a target that answered:
   * `ADDR : xmt/rcv/%loss = T/R/L%, min/avg/max = a/b/c`.
   */
  function SummaryLine(target: string, xmt: string, rcv: string, loss: string,
                       mn: string, avg: string, mx: string): string {
    target + " : " + LossSplitter + LossPart(xmt, rcv, loss) + ", " + LatencySplitter + LatencyTail(mn, avg, mx)
  }

  /** The summary line for a target that never answered: no round-trip part. */
  function LossOnlyLine(target: string, xmt: string, rcv: string, loss: string): string {
    target + " : " + LossSplitter + LossPart(xmt, rcv, loss)
  }

  lemma TokenLacks(x: string, c: char)
    requires Token(x) && !IsTokenChar(c)
    ensures c !in x
  {
    forall i | 0 <= i < |x|
      ensures x[i] != c
    {
      assert IsTokenChar(x[i]);
    }
  }

  lemma HostLacksSlash(x: string)
    requires Host(x)
    ensures '/' !in x
  {
    forall i | 0 <= i < |x|
      ensures x[i] != '/'
    {
    }
  }

  /** A token has no whitespace, so `strip()` keeps it. */
  lemma TokenUnstripped(x: string)
    requires Token(x)
    ensures Strip(x) == x
  {
    forall i | 0 <= i < |x|
      ensures !IsSpace(x[i])
    {
      assert IsTokenChar(x[i]);
    }
    StripNoSpace(x);
  }

  /** Splitting a summary line at the loss splitter: the address part, then the rest. */
  lemma LossSplit(target: string, xmt: string, rcv: string, loss: string, rest: string)
    requires Host(target)
    requires 'l' !in rest
    ensures Split(target + " : " + LossSplitter + rest, LossSplitter) == [target + " : ", rest]
  {
    HostLacksSlash(target);
    assert '/' !in target + " : ";
    assert LossSplitter[3] == '/' && LossSplitter[9] == 'l';
    SplitOnce(target + " : ", LossSplitter, rest, 3, 9);
  }

  /** From the text after the loss splitter, the loss token is what `int()` sees. */
  lemma LossToken(xmt: string, rcv: string, loss: string, after: string)
    requires Token(xmt) && Token(rcv) && Token(loss)
    ensures Strip(Split(LossPart(xmt, rcv, loss) + "," + after, ",")[0]) == xmt + "/" + rcv + "/" + loss + "%"
  {
    var inner := xmt + "/" + rcv + "/" + loss + "%";
    assert LossPart(xmt, rcv, loss) == " " + inner;
    LossPartLacks(xmt, rcv, loss, ',');
    SplitAtChar(LossPart(xmt, rcv, loss), ',', after);
    LossInnerStripped(xmt, rcv, loss);
  }

  /** Stripping the loss part leaves `T/R/L%`. */
  lemma LossInnerStripped(xmt: string, rcv: string, loss: string)
    requires Token(xmt) && Token(rcv) && Token(loss)
    ensures Strip(LossPart(xmt, rcv, loss)) == xmt + "/" + rcv + "/" + loss + "%"
  {
    var inner := xmt + "/" + rcv + "/" + loss + "%";
    assert Trimmed(inner) by {
      assert inner[0] == xmt[0] && IsTokenChar(xmt[0]);
    }
    assert LossPart(xmt, rcv, loss) == " " + inner + "";
    StripPadded(" ", inner, "");
  }

  /** Three slash-free texts joined by `/` split back into the three. */
  lemma SplitThree(x: string, y: string, z: string)
    requires '/' !in x && '/' !in y && '/' !in z
    ensures Split(x + "/" + y + "/" + z, "/") == [x, y, z]
  {
    var parts := [x, y, z];
    assert parts[1..][1..] == [z];
    assert Join(parts[1..], "/") == y + "/" + z;
    assert Join(parts, "/") == x + "/" + (y + "/" + z);
    assert x + "/" + (y + "/" + z) == x + "/" + y + "/" + z;
    SplitJoinChar(parts, '/');
  }

  /** `L%` with `%` removed is the token `L`. */
  lemma PercentRemoved(loss: string)
    requires Token(loss)
    ensures Remove(loss + "%", '%') == loss
  {
    RemoveAppend(loss, "%", '%');
    TokenLacks(loss, '%');
    RemoveAbsent(loss, '%');
    assert Remove("%", '%') == "";
  }

  /** `T/R/L%` splits at `/` into `T`, `R` and `L%`. */
  lemma LossPieces(xmt: string, rcv: string, loss: string)
    requires Token(xmt) && Token(rcv) && Token(loss)
    ensures Split(xmt + "/" + rcv + "/" + loss + "%", "/") == [xmt, rcv, loss + "%"]
  {
    TokenLacks(xmt, '/');
    TokenLacks(rcv, '/');
    TokenLacks(loss, '/');
    assert '/' !in loss + "%";
    SplitThree(xmt, rcv, loss + "%");
    assert xmt + "/" + rcv + "/" + loss + "%" == xmt + "/" + rcv + "/" + (loss + "%");
  }

  /** The last `/`-part of `T/R/L%` with `%` removed is `L`. */
  lemma LossPercent(xmt: string, rcv: string, loss: string)
    requires Token(xmt) && Token(rcv) && Token(loss)
    ensures Strip(Remove(LastPart(xmt + "/" + rcv + "/" + loss + "%"), '%')) == loss
  {
    LossPieces(xmt, rcv, loss);
    PercentRemoved(loss);
    TokenUnstripped(loss);
  }

  /** A summary line is its address part, the loss splitter, and a rest without `l`. */
  lemma SummaryLossShape(target: string, xmt: string, rcv: string, loss: string,
                         mn: string, avg: string, mx: string)
    requires Token(xmt) && Token(rcv) && Token(loss) && Token(mn) && Token(avg) && Token(mx)
    ensures var rest := LossPart(xmt, rcv, loss) + "," + (" " + LatencySplitter + LatencyTail(mn, avg, mx));
            && SummaryLine(target, xmt, rcv, loss, mn, avg, mx) == target + " : " + LossSplitter + rest
            && 'l' !in rest
  {
    LossPartLacks(xmt, rcv, loss, 'l');
    LatencyTailLacks(mn, avg, mx, 'l');
    assert 'l' !in LatencySplitter;
  }

  /** The loss part holds only its tokens, a space, slashes and `%`. */
  lemma LossPartLacks(xmt: string, rcv: string, loss: string, c: char)
    requires Token(xmt) && Token(rcv) && Token(loss)
    requires !IsTokenChar(c) && c != ' ' && c != '/' && c != '%'
    ensures c !in LossPart(xmt, rcv, loss)
  {
    TokenLacks(xmt, c);
    TokenLacks(rcv, c);
    TokenLacks(loss, c);
  }

  /** The round-trip part holds only its tokens, a space and slashes. */
  lemma LatencyTailLacks(mn: string, avg: string, mx: string, c: char)
    requires Token(mn) && Token(avg) && Token(mx)
    requires !IsTokenChar(c) && c != ' ' && c != '/'
    ensures c !in LatencyTail(mn, avg, mx)
  {
    TokenLacks(mn, c);
    TokenLacks(avg, c);
    TokenLacks(mx, c);
  }

  /** The loss field, step by step: the part after the splitter, its first comma-part, its last slash-part. */
  lemma LossFieldSteps(s: string, pre: string, rest: string, inner: string, loss: string)
    requires Split(s, LossSplitter) == [pre, rest]
    requires Strip(Split(rest, ",")[0]) == inner
    requires Strip(Remove(LastPart(inner), '%')) == loss
    ensures LossField(s) == ParseInt(loss)
  {
    assert LossField(s) == ParseInt(Strip(Remove(LastPart(Strip(Split(rest, ",")[0])), '%')));
  }

  /** On a summary line the loss field is `int()` of the loss token. */
  lemma LossFieldOfSummary(target: string, xmt: string, rcv: string, loss: string,
                           mn: string, avg: string, mx: string)
    requires Host(target)
    requires Token(xmt) && Token(rcv) && Token(loss) && Token(mn) && Token(avg) && Token(mx)
    ensures LossField(SummaryLine(target, xmt, rcv, loss, mn, avg, mx)) == ParseInt(loss)
  {
    var after := " " + LatencySplitter + LatencyTail(mn, avg, mx);
    var rest := LossPart(xmt, rcv, loss) + "," + after;
    SummaryLossShape(target, xmt, rcv, loss, mn, avg, mx);
    LossSplit(target, xmt, rcv, loss, rest);
    LossToken(xmt, rcv, loss, after);
    LossPercent(xmt, rcv, loss);
    LossFieldSteps(SummaryLine(target, xmt, rcv, loss, mn, avg, mx), target + " : ", rest,
                   xmt + "/" + rcv + "/" + loss + "%", loss);
  }

  /**
   * Neither marker holds whitespace and both hold a slash, so a slash-free
   * target followed by ` : ` cannot hide the start of one; past the target a
   * text without `g` cannot hold the latency marker either.
   */
  lemma NoLatencyStart(s: string, target: string, mid: string, t: string)
    requires t == LatencyMarker || t == LatencySplitter
    requires '/' !in target && |mid| >= 3 && mid[..3] == " : " && 'g' !in mid
    requires |s| >= |target| + |mid| && s[..|target| + |mid|] == target + mid
    requires forall j :: |target| + |mid| <= j < |target| + |mid| + 6 && j < |s| ==> s[j] != 'g'
    ensures forall j :: 0 <= j < |target| + |mid| ==> !OccursAt(s, t, j)
  {
    assert t[3] == '/' && t[6] == 'g';
    forall j | 3 <= j < |target| + 3 && 0 <= j < |s|
      ensures s[j] != '/'
    {
      if j < |target| {
        assert s[j] == (target + mid)[j] == target[j];
        assert target[j] in target;
      } else {
        assert s[j] == (target + mid)[j] == mid[..3][j - |target|];
      }
    }
    NoOccurrenceBetween(s, t, 0, |target|, 3);
    forall j | |target| + 6 <= j < |target| + |mid| + 6 && 0 <= j < |s|
      ensures s[j] != 'g'
    {
      if j < |target| + |mid| {
        assert s[j] == (target + mid)[j] == mid[j - |target|];
        assert mid[j - |target|] in mid;
      }
    }
    NoOccurrenceBetween(s, t, |target|, |target| + |mid|, 6);
  }

  /**
   * Splitting a summary line at the latency splitter: everything before it,
   * then the tail.
   */
  lemma LatencySplit(target: string, mid: string, mn: string, avg: string, mx: string)
    requires '/' !in target && |mid| >= 3 && mid[..3] == " : " && 'g' !in mid
    requires Token(mn) && Token(avg) && Token(mx)
    ensures Split(target + mid + LatencySplitter + LatencyTail(mn, avg, mx), LatencySplitter)
            == [target + mid, LatencyTail(mn, avg, mx)]
  {
    var tail := LatencyTail(mn, avg, mx);
    var s := target + mid + LatencySplitter + tail;
    assert s[..|target| + |mid|] == target + mid;
    forall j | |target| + |mid| <= j < |target| + |mid| + 6
      ensures s[j] != 'g'
    {
      assert s[j] == LatencySplitter[j - |target| - |mid|];
    }
    NoLatencyStart(s, target, mid, LatencySplitter);
    SplitAtFirst(target + mid, LatencySplitter, tail);
    TokenLacks(mn, 'm');
    TokenLacks(avg, 'm');
    TokenLacks(mx, 'm');
    assert 'm' !in tail;
    MissingCharNotContained(tail, LatencySplitter, 0);
    SplitNone(tail, LatencySplitter);
  }

  /** The stripped tail ` a/b/c` splits into its three tokens. */
  lemma LatencyPieces(mn: string, avg: string, mx: string)
    requires Token(mn) && Token(avg) && Token(mx)
    ensures Split(Strip(LatencyTail(mn, avg, mx)), "/") == [mn, avg, mx]
  {
    var inner := mn + "/" + avg + "/" + mx;
    assert LatencyTail(mn, avg, mx) == " " + inner + "";
    assert Trimmed(inner) by {
      assert inner[0] == mn[0] && IsTokenChar(mn[0]);
      assert inner[|inner| - 1] == mx[|mx| - 1] && IsTokenChar(mx[|mx| - 1]);
    }
    StripPadded(" ", inner, "");
    TokenLacks(mn, '/');
    TokenLacks(avg, '/');
    TokenLacks(mx, '/');
    SplitThree(mn, avg, mx);
  }

  /** On a summary line the latency field is `float()` of the average token. */
  lemma LatencyFieldOfSummary(target: string, xmt: string, rcv: string, loss: string,
                              mn: string, avg: string, mx: string)
    requires Host(target)
    requires Token(xmt) && Token(rcv) && Token(loss) && Token(mn) && Token(avg) && Token(mx)
    ensures LatencyField(SummaryLine(target, xmt, rcv, loss, mn, avg, mx)) == ParseFloat(avg)
  {
    var mid := LossMid(xmt, rcv, loss) + ", ";
    var line := SummaryLine(target, xmt, rcv, loss, mn, avg, mx);
    assert line == target + mid + LatencySplitter + LatencyTail(mn, avg, mx);
    HostLacksSlash(target);
    LossMidLacksG(xmt, rcv, loss);
    LatencySplit(target, mid, mn, avg, mx);
    LatencyPieces(mn, avg, mx);
    TokenUnstripped(avg);
    LatencyFieldSteps(line, target + mid, LatencyTail(mn, avg, mx), mn, avg, mx);
  }

  /** The latency field, step by step: the part after the splitter, stripped, its second slash-part. */
  lemma LatencyFieldSteps(s: string, pre: string, tail: string, mn: string, avg: string, mx: string)
    requires Split(s, LatencySplitter) == [pre, tail]
    requires Split(Strip(tail), "/") == [mn, avg, mx]
    requires Strip(avg) == avg
    ensures LatencyField(s) == ParseFloat(avg)
  {
  }

  /** What follows the target on a summary line, up to the end of the loss part. */
  function LossMid(xmt: string, rcv: string, loss: string): string {
    " : " + LossSplitter + LossPart(xmt, rcv, loss)
  }

  /** That text opens with ` : ` and has no `g`, with or without the `, ` after it. */
  lemma LossMidLacksG(xmt: string, rcv: string, loss: string)
    requires Token(xmt) && Token(rcv) && Token(loss)
    ensures var mid := LossMid(xmt, rcv, loss);
            && 'g' !in mid && mid[..3] == " : "
            && 'g' !in mid + ", " && (mid + ", ")[..3] == " : "
  {
    TokenLacks(xmt, 'g');
    TokenLacks(rcv, 'g');
    TokenLacks(loss, 'g');
    var mid := LossMid(xmt, rcv, loss);
    assert mid[..3] == " : ";
    assert (mid + ", ")[..3] == " : ";
  }

  /** A line with no whitespace at either end loses only its newline to `strip()`. */
  lemma SummaryStripped(line: string)
    requires |line| > 0 && !IsSpace(line[0]) && !IsSpace(line[|line| - 1])
    ensures Strip(line + "\n") == line
  {
    assert "" + line + "\n" == line + "\n";
    StripPadded("", line, "\n");
  }

  /**
   * The whole `run_fping` parse on fping's summary for an answering target:
   * the loss is `int()` of the loss token (100 when that fails) and the
   * latency `float()` of the average (0.0 when that fails), each independently.
   */
  lemma SummaryReading(target: string, xmt: string, rcv: string, loss: string,
                       mn: string, avg: string, mx: string)
    requires Host(target)
    requires Token(xmt) && Token(rcv) && Token(loss) && Token(mn) && Token(avg) && Token(mx)
    ensures RunFping(Completed(SummaryLine(target, xmt, rcv, loss, mn, avg, mx) + "\n"))
            == Reading(ParseInt(loss).GetOr(100), ParseFloat(avg).GetOr(0.0))
  {
    var line := SummaryLine(target, xmt, rcv, loss, mn, avg, mx);
    SummaryTrimmed(target, xmt, rcv, loss, mn, avg, mx);
    SummaryMarkers(target, xmt, rcv, loss, mn, avg, mx);
    BothMarkers(Completed(line + "\n"), Completed(line + "\n"));
    LossFieldOfSummary(target, xmt, rcv, loss, mn, avg, mx);
    LatencyFieldOfSummary(target, xmt, rcv, loss, mn, avg, mx);
  }

  lemma SummaryTrimmed(target: string, xmt: string, rcv: string, loss: string,
                       mn: string, avg: string, mx: string)
    requires Host(target) && Token(mx)
    ensures Strip(SummaryLine(target, xmt, rcv, loss, mn, avg, mx) + "\n") == SummaryLine(target, xmt, rcv, loss, mn, avg, mx)
  {
    var line := SummaryLine(target, xmt, rcv, loss, mn, avg, mx);
    assert line[0] == target[0] && !IsSpace(target[0]);
    assert line[|line| - 1] == mx[|mx| - 1] && IsTokenChar(mx[|mx| - 1]);
    SummaryStripped(line);
  }

  lemma SummaryMarkers(target: string, xmt: string, rcv: string, loss: string,
                       mn: string, avg: string, mx: string)
    ensures Contains(SummaryLine(target, xmt, rcv, loss, mn, avg, mx), LossMarker)
    ensures Contains(SummaryLine(target, xmt, rcv, loss, mn, avg, mx), LatencyMarker)
  {
    var line := SummaryLine(target, xmt, rcv, loss, mn, avg, mx);
    var lossRest := LossPart(xmt, rcv, loss) + ", " + LatencySplitter + LatencyTail(mn, avg, mx);
    assert line == (target + " : ") + LossMarker + (" =" + lossRest);
    OccursAfter(target + " : ", LossMarker, " =" + lossRest);
    ContainsIff(line, LossMarker);
    var pre := target + " : " + LossSplitter + LossPart(xmt, rcv, loss) + ", ";
    assert line == pre + LatencyMarker + (" =" + LatencyTail(mn, avg, mx));
    OccursAfter(pre, LatencyMarker, " =" + LatencyTail(mn, avg, mx));
    ContainsIff(line, LatencyMarker);
  }

  lemma DigitsAreToken(s: string)
    requires |s| > 0 && AllDigits(s)
    ensures Token(s)
  {
    forall i | 0 <= i < |s|
      ensures IsTokenChar(s[i])
    {
      assert IsDigit(s[i]);
    }
  }

  lemma DecimalIsToken(whole: string, frac: string)
    requires |whole| > 0 && AllDigits(whole) && AllDigits(frac)
    ensures Token(whole + "." + frac)
  {
    var t := whole + "." + frac;
    forall i | 0 <= i < |t|
      ensures IsTokenChar(t[i])
    {
      if i < |whole| {
        assert t[i] == whole[i] && IsDigit(whole[i]);
      } else if i > |whole| {
        assert t[i] == frac[i - |whole| - 1] && IsDigit(frac[i - |whole| - 1]);
      }
    }
  }

  /** With whole-number loss and a decimal average, the reading is their plain values. */
  lemma SummaryReadingValues(target: string, xmt: string, rcv: string, loss: string,
                             mn: string, whole: string, frac: string, mx: string)
    requires Host(target)
    requires Token(xmt) && Token(rcv) && Token(mn) && Token(mx)
    requires |loss| > 0 && AllDigits(loss)
    requires |whole| > 0 && AllDigits(whole) && AllDigits(frac)
    ensures RunFping(Completed(SummaryLine(target, xmt, rcv, loss, mn, whole + "." + frac, mx) + "\n"))
            == Reading(DigitsValue(loss), DecimalValue(whole, frac))
  {
    var avg := whole + "." + frac;
    DigitsAreToken(loss);
    DecimalIsToken(whole, frac);
    SummaryReading(target, xmt, rcv, loss, mn, avg, mx);
    DigitsParseAsInt(loss);
    DecimalParseAsFloat(whole, frac);
  }

  /** A text in which no position starts an occurrence does not contain it. */
  lemma NotContainedAnywhere(s: string, t: string)
    requires |t| > 0 && forall j :: 0 <= j < |s| ==> !OccursAt(s, t, j)
    ensures !Contains(s, t)
  {
  }

  /** A target that never answered prints no round-trip part, so the reading is `Down`. */
  lemma LossOnlyIsDown(target: string, xmt: string, rcv: string, loss: string)
    requires Host(target)
    requires Token(xmt) && Token(rcv) && Token(loss)
    ensures RunFping(Completed(LossOnlyLine(target, xmt, rcv, loss) + "\n")) == Down
  {
    var line := LossOnlyLine(target, xmt, rcv, loss);
    assert line[0] == target[0] && !IsSpace(target[0]);
    assert line[|line| - 1] == '%';
    SummaryStripped(line);
    var mid := LossMid(xmt, rcv, loss);
    assert line == target + mid;
    HostLacksSlash(target);
    LossMidLacksG(xmt, rcv, loss);
    assert line[..|target| + |mid|] == target + mid;
    NoLatencyStart(line, target, mid, LatencyMarker);
    NotContainedAnywhere(line, LatencyMarker);
  }
}

=== FILE: interop.dfy ===
/**
 * The three programs together: the monitor writes the daily logs that the
 * analyzer and the dashboard read back. Lemmas here follow a row from the
 * writer to each reader, for the header as the monitor writes it and for the
 * five-column header its rows call for.
 */
module Interop {
  import opened Wrappers
  import opened Strings
  import opened Numbers
  import opened Rounding
  import opened Files
  import opened Csv
  import opened Monitor
  import Display
  import Analyzer

  /** One row as the monitor writes it: time stamp, target, measurement. */
  datatype Written = Written(stamp: string, target: Target, m: Measurement)

  /** Time stamps free of the field separator, as `Stamp` makes them. */
  predicate Stamped(ws: seq<Written>) {
    forall i :: 0 <= i < |ws| ==> ';' !in ws[i].stamp
  }

  /** The lines the monitor appends, one per written row. */
  function WrittenLines(ws: seq<Written>): seq<string> {
    seq(|ws|, i requires 0 <= i < |ws| => FormatRow(ws[i].stamp, ws[i].target, ws[i].m))
  }

  /** The lines of a log: a header line, then one line per written row. */
  function LogLines(header: string, ws: seq<Written>): seq<string> {
    [header] + WrittenLines(ws)
  }

  /** The fields of a written row. */
  function FieldsOf(w: Written): seq<string> {
    RowFields(w.stamp, w.target, w.m)
  }

  lemma {:induction false} NonBlankAll(lines: seq<string>)
    requires forall k :: 0 <= k < |lines| ==> lines[k] != ""
    ensures NonBlank(lines) == lines
    decreases |lines|
  {
    if |lines| > 0 {
      NonBlankAll(lines[1..]);
      assert lines == [lines[0]] + lines[1..];
    }
  }

  /** A written line is not blank and splits back into the row's fields. */
  lemma WrittenLine(w: Written)
    requires ';' !in w.stamp
    ensures FormatRow(w.stamp, w.target, w.m) != ""
    ensures Fields(FormatRow(w.stamp, w.target, w.m)) == FieldsOf(w)
  {
    RowSplits(w.stamp, w.target, w.m);
  }

  /** No written line is blank. */
  lemma WrittenLinesKept(ws: seq<Written>)
    requires Stamped(ws)
    ensures NonBlank(WrittenLines(ws)) == WrittenLines(ws)
  {
    var body := WrittenLines(ws);
    forall k | 0 <= k < |body|
      ensures body[k] != ""
    {
      WrittenLine(ws[k]);
    }
    NonBlankAll(body);
  }

  /** Lines none of which is blank read as one row each. */
  lemma RowsOfKept(names: seq<string>, lines: seq<string>)
    requires NonBlank(lines) == lines
    ensures |RowsUnder(names, lines)| == |lines|
    ensures forall i :: 0 <= i < |lines| ==> RowsUnder(names, lines)[i] == DictRow(names, Fields(lines[i]))
  {
  }

  /** The written lines read as one row each, under any column names. */
  lemma RowsOfLines(names: seq<string>, ws: seq<Written>)
    requires Stamped(ws)
    ensures |RowsUnder(names, WrittenLines(ws))| == |ws|
    ensures forall i :: 0 <= i < |ws| ==> RowsUnder(names, WrittenLines(ws))[i] == DictRow(names, FieldsOf(ws[i]))
  {
    var body := WrittenLines(ws);
    WrittenLinesKept(ws);
    RowsOfKept(names, body);
    forall i | 0 <= i < |ws|
      ensures Fields(body[i]) == FieldsOf(ws[i])
    {
      WrittenLine(ws[i]);
    }
  }

  /** A log reads back as one row per written row, each under the header's names. */
  lemma ReadLog(header: string, ws: seq<Written>)
    requires Stamped(ws)
    ensures |ReadDict(LogLines(header, ws))| == |ws|
    ensures forall i :: 0 <= i < |ws| ==> ReadDict(LogLines(header, ws))[i] == DictRow(Fields(header), FieldsOf(ws[i]))
  {
    var lines := LogLines(header, ws);
    assert lines[0] == header && lines[1..] == WrittenLines(ws);
    RowsOfLines(Fields(header), ws);
  }

  // ----- The header as written -----

  /** A written row read under the six names of the header the monitor writes. */
  function AsWrittenRow(w: Written): Row {
    DictRow(HeaderNames, FieldsOf(w))
  }

  lemma HeaderNamesLast()
    ensures LastNamed(HeaderNames, 0) && LastNamed(HeaderNames, 1) && LastNamed(HeaderNames, 2)
    ensures LastNamed(HeaderNames, 3) && LastNamed(HeaderNames, 4) && LastNamed(HeaderNames, 5)
  {
  }

  lemma HeaderKeys(f: seq<string>)
    ensures DictRow(HeaderNames, f).Keys == {"Timestamp", "Target", "Packet_Loss_%", "", "Avg_Latency_ms", "Status"}
  {
    var names := HeaderNames;
    assert names[0] == "Timestamp" && names[1] == "Target" && names[2] == "Packet_Loss_%";
    assert names[3] == "" && names[4] == "Avg_Latency_ms" && names[5] == "Status";
  }

  /** The value under a name that no later column repeats. */
  lemma Column(names: seq<string>, f: seq<string>, j: nat, key: string)
    requires j < |names| && names[j] == key && LastNamed(names, j)
    ensures key in DictRow(names, f) && DictRow(names, f)[key] == Cell(f, j)
  {
    DictRowCell(names, f, j);
  }

  lemma WrittenStamp(w: Written)
    ensures "Timestamp" in AsWrittenRow(w) && AsWrittenRow(w)["Timestamp"] == Some(w.stamp)
  {
    HeaderNamesLast();
    Column(HeaderNames, FieldsOf(w), 0, "Timestamp");
  }

  lemma WrittenTarget(w: Written)
    ensures "Target" in AsWrittenRow(w) && AsWrittenRow(w)["Target"] == Some(w.target.Name())
  {
    HeaderNamesLast();
    Column(HeaderNames, FieldsOf(w), 1, "Target");
  }

  lemma WrittenLoss(w: Written)
    ensures "Packet_Loss_%" in AsWrittenRow(w) && AsWrittenRow(w)["Packet_Loss_%"] == Some(IntToString(w.m.loss))
  {
    HeaderNamesLast();
    Column(HeaderNames, FieldsOf(w), 2, "Packet_Loss_%");
  }

  lemma WrittenUnnamed(w: Written)
    ensures "" in AsWrittenRow(w) && AsWrittenRow(w)[""] == Some(Fixed2(w.m.latency))
  {
    HeaderNamesLast();
    Column(HeaderNames, FieldsOf(w), 3, "");
  }

  lemma WrittenLatency(w: Written)
    ensures "Avg_Latency_ms" in AsWrittenRow(w) && AsWrittenRow(w)["Avg_Latency_ms"] == Some(w.m.status.Name())
  {
    HeaderNamesLast();
    Column(HeaderNames, FieldsOf(w), 4, "Avg_Latency_ms");
  }

  lemma WrittenStatus(w: Written)
    ensures "Status" in AsWrittenRow(w) && AsWrittenRow(w)["Status"] == None
  {
    HeaderNamesLast();
    Column(HeaderNames, FieldsOf(w), 5, "Status");
  }

  /**
   * Under the written header every value lands one column late from the
   * latency on: the empty column gets the latency, `Avg_Latency_ms` the state
   * name, and `Status` has no field at all.
   */
  lemma AsWrittenColumns(w: Written)
    ensures AsWrittenRow(w).Keys == {"Timestamp", "Target", "Packet_Loss_%", "", "Avg_Latency_ms", "Status"}
    ensures AsWrittenRow(w)["Timestamp"] == Some(w.stamp)
    ensures AsWrittenRow(w)["Target"] == Some(w.target.Name())
    ensures AsWrittenRow(w)["Packet_Loss_%"] == Some(IntToString(w.m.loss))
    ensures AsWrittenRow(w)[""] == Some(Fixed2(w.m.latency))
    ensures AsWrittenRow(w)["Avg_Latency_ms"] == Some(w.m.status.Name())
    ensures AsWrittenRow(w)["Status"] == None
  {
    HeaderKeys(FieldsOf(w));
    WrittenStamp(w);
    WrittenTarget(w);
    WrittenLoss(w);
    WrittenUnnamed(w);
    WrittenLatency(w);
    WrittenStatus(w);
  }

  /** Every row of a written log reads as a row of the written header. */
  lemma AsWrittenLog(ws: seq<Written>)
    requires Stamped(ws)
    ensures |ReadDict(LogLines(Header, ws))| == |ws|
    ensures forall i :: 0 <= i < |ws| ==> ReadDict(LogLines(Header, ws))[i] == AsWrittenRow(ws[i])
  {
    HeaderColumns();
    ReadLog(Header, ws);
  }

  /** When every row is a problem, the problem time stamps are all the time stamps. */
  lemma {:induction false} AllProblemStamps(rows: seq<Row>)
    requires Analyzer.Readable(rows)
    requires forall k :: 0 <= k < |rows| ==> Analyzer.IsProblem(rows[k]["Status"])
    ensures Analyzer.ProblemStamps(rows) == seq(|rows|, k requires 0 <= k < |rows| => rows[k]["Timestamp"])
    decreases |rows|
  {
    if |rows| > 0 {
      Analyzer.ReadableTail(rows);
      AllProblemStamps(rows[1..]);
    }
  }

  /** Rows where no state is found, each with a time stamp. */
  predicate StatelessRows(rows: seq<Row>) {
    forall k :: 0 <= k < |rows| ==>
      "Status" in rows[k] && rows[k]["Status"] == None && "Timestamp" in rows[k]
  }

  /** Rows without states have only missing states. */
  lemma StatelessStatuses(rows: seq<Row>)
    requires StatelessRows(rows)
    ensures Analyzer.Readable(rows)
    ensures Analyzer.Statuses(rows) == seq<Option<string>>(|rows|, _ => None)
  {
  }

  /** Rows without states are all problems: the first and last stamps are those of the first and last rows. */
  lemma StatelessStamps(rows: seq<Row>)
    requires StatelessRows(rows) && |rows| > 0 && rows[0]["Timestamp"].Some?
    ensures Analyzer.Readable(rows)
    ensures var stamps := Analyzer.ProblemStamps(rows);
            && |stamps| == |rows|
            && Analyzer.FirstSome(stamps) == rows[0]["Timestamp"]
            && stamps[|stamps| - 1] == rows[|rows| - 1]["Timestamp"]
  {
    assert Analyzer.Readable(rows);
    AllProblemStamps(rows);
    var stamps := Analyzer.ProblemStamps(rows);
    assert stamps[0] == rows[0]["Timestamp"];
  }

  /**
   * The analyzer on rows whose state is missing: all rows are counted under
   * `None`, and all are problems, so the first and last problems are the
   * time stamps of the first and last rows.
   */
  lemma StatelessScan(rows: seq<Row>)
    requires StatelessRows(rows) && |rows| > 0 && rows[0]["Timestamp"].Some?
    ensures Analyzer.Scan(Analyzer.Start, rows).Summary?
    ensures Analyzer.Scan(Analyzer.Start, rows).tally.counts[None] == |rows|
    ensures |Analyzer.Scan(Analyzer.Start, rows).tally.counts| == |rows|
    ensures Analyzer.Scan(Analyzer.Start, rows).tally.first == rows[0]["Timestamp"]
    ensures Analyzer.Scan(Analyzer.Start, rows).tally.last == rows[|rows| - 1]["Timestamp"]
  {
    StatelessStatuses(rows);
    StatelessStamps(rows);
    Analyzer.ScanComputesExpected(Analyzer.Start, rows);
    var nones := seq<Option<string>>(|rows|, _ => None);
    NoneCount(|rows|);
    assert multiset{} + multiset(nones) == multiset(nones);
  }

  /** Read back under the written header, a log's rows have no state and carry their time stamps. */
  lemma AsWrittenRowsStateless(ws: seq<Written>)
    requires Stamped(ws)
    ensures var rows := ReadDict(LogLines(Header, ws));
            && |rows| == |ws| && StatelessRows(rows)
            && forall k :: 0 <= k < |ws| ==> rows[k]["Timestamp"] == Some(ws[k].stamp)
  {
    var rows := ReadDict(LogLines(Header, ws));
    AsWrittenLog(ws);
    forall k | 0 <= k < |rows|
      ensures "Status" in rows[k] && "Timestamp" in rows[k]
      ensures rows[k]["Status"] == None && rows[k]["Timestamp"] == Some(ws[k].stamp)
    {
      AsWrittenColumns(ws[k]);
    }
  }

  /**
   * The analyzer on a log the monitor wrote: the state of every row reads as
   * missing, so every row, OK or not, is counted under `None` and as a
   * problem; the first and last problems are the first and last rows.
   */
  lemma AnalyzerSeesOnlyProblems(ws: seq<Written>)
    requires Stamped(ws) && |ws| > 0
    ensures var out := Analyzer.Scan(Analyzer.Start, ReadDict(LogLines(Header, ws)));
            && out.Summary?
            && out.tally.counts[None] == |ws|
            && |out.tally.counts| == |ws|
            && out.tally.first == Some(ws[0].stamp)
            && out.tally.last == Some(ws[|ws| - 1].stamp)
  {
    AsWrittenRowsStateless(ws);
    StatelessScan(ReadDict(LogLines(Header, ws)));
  }

  lemma {:induction false} NoneCount(n: nat)
    ensures multiset(seq<Option<string>>(n, _ => None))[None] == n
    ensures |multiset(seq<Option<string>>(n, _ => None))| == n
    decreases n
  {
    if n > 0 {
      NoneCount(n - 1);
      assert seq<Option<string>>(n, _ => None) == seq<Option<string>>(n - 1, _ => None) + [None];
    }
  }

  /** Text of capital letters and underscores, as the state names are. */
  predicate Word(s: string) {
    |s| > 0 && forall i :: 0 <= i < |s| ==> 'A' <= s[i] <= 'Z' || s[i] == '_'
  }

  lemma WordHasNoComma(s: string)
    requires Word(s)
    ensures Substitute(s, ',', '.') == s
  {
    assert ',' !in s by {
      forall i | 0 <= i < |s|
        ensures s[i] != ','
      {
      }
    }
    SubstituteAbsent(s, ',', '.');
  }

  lemma WordUnstripped(s: string)
    requires Word(s)
    ensures Strip(s) == s
  {
    assert forall i :: 0 <= i < |s| ==> !IsSpace(s[i]);
    StripNoSpace(s);
  }

  lemma WordHasNoPoint(s: string)
    requires Word(s)
    ensures Find(s, ".").None?
  {
    assert '.' !in s by {
      forall i | 0 <= i < |s|
        ensures s[i] != '.'
      {
      }
    }
    MissingCharNotContained(s, ".", 0);
  }

  /** `float()` rejects a word. */
  lemma WordIsNotNumber(s: string)
    requires Word(s)
    ensures ParseFloat(Substitute(s, ',', '.')).None?
  {
    WordHasNoComma(s);
    WordUnstripped(s);
    WordHasNoPoint(s);
    assert !IsDigit(s[0]);
    assert ParseDecimal(s).None?;
  }

  /** A state name is not a number, so `float()` rejects it. */
  lemma NameIsNotNumber(st: Status)
    ensures Display.LatencyOf(Some(st.Name())) == 0.0
  {
    var s := st.Name();
    assert Word(s) by {
      match st
      case Ok =>
      case WarnLatency =>
      case WarnLoss =>
      case Critical =>
      case Down =>
    }
    WordIsNotNumber(s);
  }

  /** Without the key it looks the loss up under, the dashboard reads the loss as 0. */
  lemma LossAbsentReadsZero(row: Row)
    requires Display.LossKey !in row
    ensures Display.EntryOf(row, Display.LossKey).loss == 0
  {
    ZeroReadsAsZero();
  }

  /** No name of the written header is the dashboard's loss key. */
  lemma LossKeyNotWritten()
    ensures Display.LossKey !in HeaderNames
  {
    var key := Display.LossKey;
    assert |key| == 14 && key[0] == 'P';
    assert HeaderNames[4][0] == 'A';
    forall j | 0 <= j < |HeaderNames|
      ensures HeaderNames[j] != key
    {
      if j != 4 {
        assert |HeaderNames[j]| != 14;
      }
    }
  }

  /** Nor of the corrected header. */
  lemma LossKeyNotCorrected()
    ensures Display.LossKey !in CorrectedNames
  {
    var key := Display.LossKey;
    assert |key| == 14 && key[0] == 'P';
    assert CorrectedNames[3][0] == 'A';
    forall j | 0 <= j < |CorrectedNames|
      ensures CorrectedNames[j] != key
    {
      if j != 3 {
        assert |CorrectedNames[j]| != 14;
      }
    }
  }

  /** The written header has no column under the dashboard's loss key. */
  lemma AsWrittenLacksLossKey(w: Written)
    ensures Display.LossKey !in AsWrittenRow(w)
  {
    LossKeyNotWritten();
  }

  /** Neither has the corrected header. */
  lemma CorrectedLacksLossKey(w: Written)
    ensures Display.LossKey !in CorrectedRow(w)
  {
    LossKeyNotCorrected();
  }

  /** A state name where the latency should be reads as 0.0. */
  lemma AsWrittenLatencyZero(w: Written)
    ensures Display.EntryOf(AsWrittenRow(w), Display.LossKey).latency == 0.0
  {
    WrittenLatency(w);
    NameIsNotNumber(w.m.status);
  }

  /**
   * The dashboard on a row the monitor wrote: no loss column under its key,
   * a state name where the latency should be, no state at all, shown in cyan.
   */
  lemma DashboardEntryAsWritten(w: Written)
    ensures Display.EntryOf(AsWrittenRow(w), Display.LossKey) == Display.Entry(Some(w.stamp), 0, 0.0, None)
    ensures Display.StatusToColor(Display.EntryOf(AsWrittenRow(w), Display.LossKey).status) == Display.Cyan
  {
    var e := Display.EntryOf(AsWrittenRow(w), Display.LossKey);
    WrittenStamp(w);
    WrittenStatus(w);
    AsWrittenLacksLossKey(w);
    LossAbsentReadsZero(AsWrittenRow(w));
    AsWrittenLatencyZero(w);
    assert e.ts == Some(w.stamp) && e.status == None;
  }

  lemma ZeroReadsAsZero()
    ensures Display.LossOf(Some("0")) == 0
  {
    assert '0' !in "0" ==> false;
    SubstituteAbsent("0", ',', '.');
    DigitsParseAsFloat("0");
    TruncateWhole(0);
  }

  /**
   * Whatever the monitor measured, every entry the dashboard keeps from its log
   * shows no loss, no latency and no state.
   */
  lemma DashboardShowsNothing(fs: FileSystem, path: string, ws: seq<Written>, maxEntries: int, name: string)
    requires Stamped(ws)
    requires path in fs && fs[path] == LogLines(Header, ws)
    requires name == "ROUTER" || name == "INTERNET"
    ensures forall e :: e in Display.ReadPingHistory(fs, path, maxEntries)[name] ==>
              e.loss == 0 && e.latency == 0.0 && e.status == None
  {
    var rows := ReadDict(fs[path]);
    AsWrittenLog(ws);
    Display.HistoryFromRows(fs, path, maxEntries, Display.LossKey, name);
    forall e | e in Display.ReadPingHistory(fs, path, maxEntries)[name]
      ensures e.loss == 0 && e.latency == 0.0 && e.status == None
    {
      var k :| 0 <= k < |rows| && Display.RowFor(rows[k], name) && e == Display.EntryOf(rows[k], Display.LossKey);
      DashboardEntryAsWritten(ws[k]);
    }
  }

  // ----- The header with one name per field -----

  /** The header the rows call for: five names, one per field. */
  const CorrectedHeader := "Timestamp;Target;Packet_Loss_%;Avg_Latency_ms;Status"

  const CorrectedNames: seq<string> := ["Timestamp", "Target", "Packet_Loss_%", "Avg_Latency_ms", "Status"]

  /** The corrected names joined by `;`, as `Join` nests them. */
  function JoinedCorrectedHeader(): string {
    "Timestamp" + ";" + ("Target" + ";" + ("Packet_Loss_%" + ";"
    + ("Avg_Latency_ms" + ";" + "Status")))
  }

  lemma CorrectedTextOne()
    ensures |JoinedCorrectedHeader()| == |CorrectedHeader|
    ensures forall i :: 0 <= i < 9 ==> JoinedCorrectedHeader()[i] == CorrectedHeader[i]
  {
  }

  lemma CorrectedTextTwo()
    ensures forall i :: 9 <= i < 18 ==> JoinedCorrectedHeader()[i] == CorrectedHeader[i]
  {
  }

  lemma CorrectedTextThree()
    ensures forall i :: 18 <= i < 27 ==> JoinedCorrectedHeader()[i] == CorrectedHeader[i]
  {
  }

  lemma CorrectedTextFour()
    ensures forall i :: 27 <= i < 36 ==> JoinedCorrectedHeader()[i] == CorrectedHeader[i]
  {
  }

  lemma CorrectedTextFive()
    ensures forall i :: 36 <= i < 45 ==> JoinedCorrectedHeader()[i] == CorrectedHeader[i]
  {
  }

  lemma CorrectedTextSix()
    ensures forall i :: 45 <= i < |CorrectedHeader| ==> JoinedCorrectedHeader()[i] == CorrectedHeader[i]
  {
  }

  /** The corrected header's characters, nine at a time. */
  lemma CorrectedHeaderText()
    ensures JoinedCorrectedHeader() == CorrectedHeader
  {
    CorrectedTextOne();
    CorrectedTextTwo();
    CorrectedTextThree();
    CorrectedTextFour();
    CorrectedTextFive();
    CorrectedTextSix();
  }

  lemma CorrectedHeaderJoin()
    ensures Join(CorrectedNames, ";") == CorrectedHeader
  {
    var names := CorrectedNames;
    assert names[4..] == ["Status"];
    JoinStep(names, 3, ";");
    JoinStep(names, 2, ";");
    JoinStep(names, 1, ";");
    JoinStep(names, 0, ";");
    assert names[0..] == names;
    assert Join(names, ";") == JoinedCorrectedHeader();
    CorrectedHeaderText();
  }

  /** Read back, the corrected header names the five columns. */
  lemma CorrectedHeaderColumns()
    ensures Fields(CorrectedHeader) == CorrectedNames
  {
    CorrectedHeaderJoin();
    forall k | 0 <= k < |CorrectedNames|
      ensures ';' !in CorrectedNames[k]
    {
    }
    FieldsOfJoin(CorrectedNames);
  }

  /** A written row read under the corrected header. */
  function CorrectedRow(w: Written): Row {
    DictRow(CorrectedNames, FieldsOf(w))
  }

  lemma CorrectedNamesLast()
    ensures LastNamed(CorrectedNames, 0) && LastNamed(CorrectedNames, 1) && LastNamed(CorrectedNames, 2)
    ensures LastNamed(CorrectedNames, 3) && LastNamed(CorrectedNames, 4)
  {
  }

  lemma CorrectedKeys(f: seq<string>)
    ensures DictRow(CorrectedNames, f).Keys == {"Timestamp", "Target", "Packet_Loss_%", "Avg_Latency_ms", "Status"}
  {
    var names := CorrectedNames;
    assert names[0] == "Timestamp" && names[1] == "Target" && names[2] == "Packet_Loss_%";
    assert names[3] == "Avg_Latency_ms" && names[4] == "Status";
  }

  lemma CorrectedStamp(w: Written)
    ensures "Timestamp" in CorrectedRow(w) && CorrectedRow(w)["Timestamp"] == Some(w.stamp)
  {
    CorrectedNamesLast();
    Column(CorrectedNames, FieldsOf(w), 0, "Timestamp");
  }

  lemma CorrectedTarget(w: Written)
    ensures "Target" in CorrectedRow(w) && CorrectedRow(w)["Target"] == Some(w.target.Name())
  {
    CorrectedNamesLast();
    Column(CorrectedNames, FieldsOf(w), 1, "Target");
  }

  lemma CorrectedLoss(w: Written)
    ensures "Packet_Loss_%" in CorrectedRow(w) && CorrectedRow(w)["Packet_Loss_%"] == Some(IntToString(w.m.loss))
  {
    CorrectedNamesLast();
    Column(CorrectedNames, FieldsOf(w), 2, "Packet_Loss_%");
  }

  lemma CorrectedLatency(w: Written)
    ensures "Avg_Latency_ms" in CorrectedRow(w) && CorrectedRow(w)["Avg_Latency_ms"] == Some(Fixed2(w.m.latency))
  {
    CorrectedNamesLast();
    Column(CorrectedNames, FieldsOf(w), 3, "Avg_Latency_ms");
  }

  lemma CorrectedStatus(w: Written)
    ensures "Status" in CorrectedRow(w) && CorrectedRow(w)["Status"] == Some(w.m.status.Name())
  {
    CorrectedNamesLast();
    Column(CorrectedNames, FieldsOf(w), 4, "Status");
  }

  /** Under the corrected header every value is found under its own name. */
  lemma CorrectedColumns(w: Written)
    ensures CorrectedRow(w).Keys == {"Timestamp", "Target", "Packet_Loss_%", "Avg_Latency_ms", "Status"}
    ensures CorrectedRow(w)["Timestamp"] == Some(w.stamp)
    ensures CorrectedRow(w)["Target"] == Some(w.target.Name())
    ensures CorrectedRow(w)["Packet_Loss_%"] == Some(IntToString(w.m.loss))
    ensures CorrectedRow(w)["Avg_Latency_ms"] == Some(Fixed2(w.m.latency))
    ensures CorrectedRow(w)["Status"] == Some(w.m.status.Name())
  {
    CorrectedKeys(FieldsOf(w));
    CorrectedStamp(w);
    CorrectedTarget(w);
    CorrectedLoss(w);
    CorrectedLatency(w);
    CorrectedStatus(w);
  }

  /** Every row of a log with the corrected header reads as a corrected row. */
  lemma CorrectedLog(ws: seq<Written>)
    requires Stamped(ws)
    ensures |ReadDict(LogLines(CorrectedHeader, ws))| == |ws|
    ensures forall i :: 0 <= i < |ws| ==> ReadDict(LogLines(CorrectedHeader, ws))[i] == CorrectedRow(ws[i])
  {
    CorrectedHeaderColumns();
    ReadLog(CorrectedHeader, ws);
  }

  /** Rows with a state and a time stamp each. */
  predicate StampedRows(rows: seq<Row>) {
    forall k :: 0 <= k < |rows| ==>
      "Status" in rows[k] && "Timestamp" in rows[k] && rows[k]["Timestamp"].Some?
  }

  /**
   * The analyzer on rows with states and time stamps: it counts every state
   * and reports a first problem exactly when some row is a problem.
   */
  lemma StampedScan(rows: seq<Row>)
    requires StampedRows(rows)
    ensures Analyzer.Readable(rows)
    ensures Analyzer.Scan(Analyzer.Start, rows).Summary?
    ensures Analyzer.Scan(Analyzer.Start, rows).tally.counts == multiset(Analyzer.Statuses(rows))
    ensures Analyzer.Scan(Analyzer.Start, rows).tally.first.Some?
            <==> exists k :: 0 <= k < |rows| && Analyzer.IsProblem(rows[k]["Status"])
  {
    assert Analyzer.Readable(rows);
    Analyzer.ScanComputesExpected(Analyzer.Start, rows);
    assert multiset{} + multiset(Analyzer.Statuses(rows)) == multiset(Analyzer.Statuses(rows));
    Analyzer.FirstProblemIff(rows);
    if exists k :: 0 <= k < |rows| && Analyzer.IsProblem(rows[k]["Status"]) {
      var k :| 0 <= k < |rows| && Analyzer.IsProblem(rows[k]["Status"]);
      assert rows[k]["Timestamp"].Some?;
    }
  }

  /** Read back under the corrected header, a log's rows carry their states and time stamps. */
  lemma CorrectedRowsStamped(ws: seq<Written>)
    requires Stamped(ws)
    ensures var rows := ReadDict(LogLines(CorrectedHeader, ws));
            && |rows| == |ws| && StampedRows(rows)
            && (forall k :: 0 <= k < |ws| ==> rows[k]["Status"] == Some(ws[k].m.status.Name()))
            && forall k :: 0 <= k < |ws| ==> rows[k]["Timestamp"] == Some(ws[k].stamp)
  {
    var rows := ReadDict(LogLines(CorrectedHeader, ws));
    CorrectedLog(ws);
    forall k | 0 <= k < |rows|
      ensures "Status" in rows[k] && "Timestamp" in rows[k]
      ensures rows[k]["Status"] == Some(ws[k].m.status.Name()) && rows[k]["Timestamp"] == Some(ws[k].stamp)
    {
      CorrectedColumns(ws[k]);
    }
  }

  /** Only the state `Ok` is named `OK`. */
  lemma OkNamed(st: Status)
    ensures Analyzer.IsProblem(Some(st.Name())) <==> st != Ok
  {
  }

  /** The states of the rows, as names of the measured states. */
  function StateNames(ws: seq<Written>): seq<Option<string>> {
    seq(|ws|, i requires 0 <= i < |ws| => Some(ws[i].m.status.Name()))
  }

  /** Rows carrying the measured states have a problem exactly where a measurement was not OK. */
  lemma ProblemsAreNotOk(rows: seq<Row>, ws: seq<Written>)
    requires StampedRows(rows) && |rows| == |ws|
    requires forall k :: 0 <= k < |ws| ==> rows[k]["Status"] == Some(ws[k].m.status.Name())
    ensures Analyzer.Statuses(rows) == StateNames(ws)
    ensures (exists k :: 0 <= k < |rows| && Analyzer.IsProblem(rows[k]["Status"]))
            <==> exists i :: 0 <= i < |ws| && ws[i].m.status != Ok
  {
    StatusesAreNames(rows, ws);
    ProblemWhereNotOk(rows, ws);
    NotOkIsProblem(rows, ws);
  }

  lemma StatusesAreNames(rows: seq<Row>, ws: seq<Written>)
    requires StampedRows(rows) && |rows| == |ws|
    requires forall k :: 0 <= k < |ws| ==> rows[k]["Status"] == Some(ws[k].m.status.Name())
    ensures Analyzer.Statuses(rows) == StateNames(ws)
  {
    assert Analyzer.Readable(rows);
    var a := Analyzer.Statuses(rows);
    var b := StateNames(ws);
    forall k | 0 <= k < |a|
      ensures a[k] == b[k]
    {
    }
  }

  lemma ProblemWhereNotOk(rows: seq<Row>, ws: seq<Written>)
    requires StampedRows(rows) && |rows| == |ws|
    requires forall k :: 0 <= k < |ws| ==> rows[k]["Status"] == Some(ws[k].m.status.Name())
    ensures (exists k :: 0 <= k < |rows| && Analyzer.IsProblem(rows[k]["Status"]))
            ==> exists i :: 0 <= i < |ws| && ws[i].m.status != Ok
  {
    if exists k :: 0 <= k < |rows| && Analyzer.IsProblem(rows[k]["Status"]) {
      var k :| 0 <= k < |rows| && Analyzer.IsProblem(rows[k]["Status"]);
      OkNamed(ws[k].m.status);
    }
  }

  lemma NotOkIsProblem(rows: seq<Row>, ws: seq<Written>)
    requires StampedRows(rows) && |rows| == |ws|
    requires forall k :: 0 <= k < |ws| ==> rows[k]["Status"] == Some(ws[k].m.status.Name())
    ensures (exists i :: 0 <= i < |ws| && ws[i].m.status != Ok)
            ==> exists k :: 0 <= k < |rows| && Analyzer.IsProblem(rows[k]["Status"])
  {
    if exists i :: 0 <= i < |ws| && ws[i].m.status != Ok {
      var i :| 0 <= i < |ws| && ws[i].m.status != Ok;
      OkNamed(ws[i].m.status);
    }
  }

  /**
   * The analyzer on a log with the corrected header: each row is counted
   * under its own state name, and a first problem is reported exactly when
   * some measurement was not OK.
   */
  lemma AnalyzerOnCorrectedLog(ws: seq<Written>)
    requires Stamped(ws)
    ensures var out := Analyzer.Scan(Analyzer.Start, ReadDict(LogLines(CorrectedHeader, ws)));
            && out.Summary?
            && out.tally.counts == multiset(StateNames(ws))
            && (out.tally.first.Some? <==> exists i :: 0 <= i < |ws| && ws[i].m.status != Ok)
  {
    var rows := ReadDict(LogLines(CorrectedHeader, ws));
    CorrectedRowsStamped(ws);
    StampedScan(rows);
    ProblemsAreNotOk(rows, ws);
  }

  /**
   * On a log with the corrected header whose time stamps are not empty, as
   * every stamp the monitor writes is, the analyzer reports problems exactly
   * when some measurement was not OK.
   */
  lemma AnalyzerReportsOnCorrectedLog(ws: seq<Written>)
    requires Stamped(ws)
    requires forall i :: 0 <= i < |ws| ==> ws[i].stamp != ""
    ensures Analyzer.ReportsProblems(Analyzer.Scan(Analyzer.Start, ReadDict(LogLines(CorrectedHeader, ws))))
            <==> exists i :: 0 <= i < |ws| && ws[i].m.status != Ok
  {
    var rows := ReadDict(LogLines(CorrectedHeader, ws));
    CorrectedRowsStamped(ws);
    AnalyzerOnCorrectedLog(ws);
    assert Analyzer.Readable(rows);
    Analyzer.FirstProblemStamp(rows);
    var out := Analyzer.Scan(Analyzer.Start, rows);
    if out.tally.first.Some? {
      var k :| 0 <= k < |rows| && Analyzer.IsProblem(rows[k]["Status"]) && rows[k]["Timestamp"] == out.tally.first;
      assert out.tally.first.value == ws[k].stamp;
    }
  }

  /** The loss column, named as the header names it. */
  const CorrectedLossKey := "Packet_Loss_%"

  /** `int(float(str(n)))` is `n`. */
  lemma LossReadsBack(n: int)
    ensures Display.LossOf(Some(IntToString(n))) == n
  {
    var s := IntToString(n);
    assert forall i :: 0 <= i < |s| ==> s[i] != ',' by {
      forall i | 0 <= i < |s|
        ensures s[i] != ','
      {
        if i > 0 {
          assert IsDigit(s[i]);
        }
      }
    }
    SubstituteAbsent(s, ',', '.');
    IntParsesAsFloat(n);
    TruncateWhole(n);
  }

  /** Number text has no comma for the dashboard to replace. */
  lemma NumberTextKept(s: string)
    requires forall i :: 0 <= i < |s| ==> IsDigit(s[i]) || s[i] == '.' || s[i] == '-'
    ensures Substitute(s, ',', '.') == s
  {
    assert ',' !in s by {
      forall i | 0 <= i < |s|
        ensures s[i] != ','
      {
        assert IsDigit(s[i]) || s[i] == '.' || s[i] == '-';
      }
    }
    SubstituteAbsent(s, ',', '.');
  }

  /** The dashboard reads a number text as `float()` does. */
  lemma LatencyOfNumber(s: string, v: real)
    requires Substitute(s, ',', '.') == s && ParseFloat(s) == Some(v)
    ensures Display.LatencyOf(Some(s)) == v
  {
  }

  /** `float()` of a `:.2f` text is within half a hundredth of the value written. */
  lemma LatencyReadsBack(x: real)
    ensures -0.005 <= Display.LatencyOf(Some(Fixed2(x))) - x <= 0.005
  {
    var s := Fixed2(x);
    NumberTextKept(s);
    Fixed2RoundTrip(x);
    LatencyOfNumber(s, ParseFloat(s).value);
  }

  /**
   * The dashboard on a row under the corrected header, looking the loss up
   * under its name: the loss exactly, the latency to two decimals, the state.
   */
  lemma DashboardEntryCorrected(w: Written)
    ensures var e := Display.EntryOf(CorrectedRow(w), CorrectedLossKey);
            && e.ts == Some(w.stamp)
            && e.loss == w.m.loss
            && -0.005 <= e.latency - w.m.latency <= 0.005
            && e.status == Some(w.m.status.Name())
  {
    CorrectedColumns(w);
    LossReadsBack(w.m.loss);
    LatencyReadsBack(w.m.latency);
  }

  /**
   * With the key the dashboard uses, the loss column is never found, even
   * under the corrected header: every loss reads as 0.
   */
  lemma DashboardLossAlwaysZero(w: Written)
    ensures Display.EntryOf(CorrectedRow(w), Display.LossKey).loss == 0
    ensures Display.EntryOf(AsWrittenRow(w), Display.LossKey).loss == 0
  {
    CorrectedLacksLossKey(w);
    AsWrittenLacksLossKey(w);
    LossAbsentReadsZero(CorrectedRow(w));
    LossAbsentReadsZero(AsWrittenRow(w));
  }

  /** The dashboard's colours follow the monitor's severity: green, then yellow, then red. */
  lemma ColorBands(st: Status)
    ensures Display.StatusToColor(Some(st.Name()))
            == if st.Rank() == 0 then Display.Green
               else if st.Rank() <= 2 then Display.Yellow
               else Display.Red
  {
  }

  // ----- Where the files are -----

  /** A date key is digits and dashes, so it holds no `/`. */
  lemma DateKeyHasNoSlash(d: Date)
    requires Formattable(d)
    ensures '/' !in DateKey(d)
  {
    DateKeyChars(d);
  }

  lemma AffixesHaveNoSlash()
    ensures '/' !in "network_log" + "_" && '/' !in ".csv"
  {
    var pre := "network_log" + "_";
    forall i | 0 <= i < |pre|
      ensures pre[i] != '/'
    {
    }
  }

  /** The monitor's default file name for a day holds no `/`. */
  lemma LogNameHasNoSlash(today: Date)
    requires Formattable(today)
    ensures '/' !in "network_log" + "_" + DateKey(today) + ".csv"
  {
    DateKeyHasNoSlash(today);
    AffixesHaveNoSlash();
  }

  /** A file name of the pattern's shape, directly inside the analyzer's directory, is found. */
  lemma FoundInLogDir(name: string)
    requires |name| >= |Analyzer.NamePrefix| + |Analyzer.NameSuffix|
    requires name[..12] == Analyzer.NamePrefix && name[|name| - 4..] == Analyzer.NameSuffix
    requires '/' !in name
    ensures Analyzer.IsLogPath(Analyzer.LogDir + "/" + name)
  {
    var dir := Analyzer.LogDir + "/";
    var p := dir + name;
    assert p[..|dir|] == dir;
    assert p[|dir|..] == name;
    assert p[|dir|..|dir| + 12] == name[..12];
    assert p[|p| - 4..] == name[|name| - 4..];
  }

  /** The monitor joins its directory and file name with one `/`. */
  lemma LogPathJoined(cfg: Config, today: Date)
    requires Formattable(today)
    requires |cfg.logDir| > 0 && cfg.logDir[|cfg.logDir| - 1] != '/' && |cfg.logPrefix| > 0 && cfg.logPrefix[0] != '/'
    ensures LogFilePath(cfg, today) == cfg.logDir + "/" + LogFileName(cfg, today)
  {
    assert LogFileName(cfg, today)[0] == cfg.logPrefix[0];
  }

  /** The default prefix gives names of the analyzer's pattern. */
  lemma DefaultNameShape(key: string)
    requires |key| == 10
    ensures var name := "network_log" + "_" + key + ".csv";
            && name[..12] == Analyzer.NamePrefix && name[|name| - 4..] == Analyzer.NameSuffix
  {
  }

  /**
   * A monitor configured with the analyzer's directory and the default
   * prefix writes files the analyzer's search finds.
   */
  lemma MonitorLogFound(cfg: Config, today: Date)
    requires Formattable(today)
    requires cfg.logDir == Analyzer.LogDir && cfg.logPrefix == "network_log"
    ensures Analyzer.IsLogPath(LogFilePath(cfg, today))
  {
    LogPathJoined(cfg, today);
    var key := DateKey(today);
    DefaultNameShape(key);
    LogNameHasNoSlash(today);
    FoundInLogDir("network_log" + "_" + key + ".csv");
  }

  /** Paths under `/home/pi` are not in the analyzer's directory. */
  lemma OutsideLogDir(p: string)
    requires |p| > 7 && p[7] == 'i'
    ensures !Analyzer.IsLogPath(p)
  {
    var dir := Analyzer.LogDir + "/";
    assert dir[7] == 'a';
  }

  lemma DefaultLogPath(today: Date)
    requires Formattable(today)
    ensures LogFilePath(Defaults, today) == "/home/pi/monitoring" + "/" + LogFileName(Defaults, today)
  {
    assert Defaults.logDir == "/home/pi/monitoring";
    assert Defaults.logPrefix == "network_log";
    LogPathJoined(Defaults, today);
  }

  lemma JoinedIndex(dir: string, name: string, i: nat)
    requires i < |dir|
    ensures i < |dir + "/" + name| && (dir + "/" + name)[i] == dir[i]
  {
  }

  lemma PiLetter()
    ensures |"/home/pi/monitoring"| > 7 && "/home/pi/monitoring"[7] == 'i'
  {
  }

  /** The default path has the `i` of `/home/pi` where the analyzer's has the `a` of `/home/partner`. */
  lemma DefaultPathLetter(today: Date)
    requires Formattable(today)
    ensures |LogFilePath(Defaults, today)| > 7 && LogFilePath(Defaults, today)[7] == 'i'
  {
    var dir := "/home/pi/monitoring";
    var name := LogFileName(Defaults, today);
    DefaultLogPath(today);
    PiLetter();
    JoinedIndex(dir, name, 7);
  }

  /**
   * With the default configuration the monitor logs under `/home/pi`, where
   * the analyzer, which searches `/home/partner`, does not look.
   */
  lemma DefaultLogsNotFound(today: Date)
    requires Formattable(today)
    ensures !Analyzer.IsLogPath(LogFilePath(Defaults, today))
  {
    DefaultPathLetter(today);
    OutsideLogDir(LogFilePath(Defaults, today));
  }
}

=== FILE: monitor.dfy ===
/**
 * The network monitor: its configuration, the status classifier, the daily log
 * file and its header, and one pass of the probing loop.
 */
module Monitor {
  import opened Wrappers
  import opened Strings
  import opened Numbers
  import opened Rounding
  import opened Files
  import opened Csv
  import opened Fping

  /** The settings the monitor reads from `config.ini`. */
  datatype Config = Config(
    routerIp: string,
    internetIp: string,
    logDir: string,
    logPrefix: string,
    pingCount: int,
    pingIntervalMs: int,
    intervalOk: int,
    intervalProblem: int,
    latencyWarnMs: real,
    lossWarnPercent: int,
    lossCriticalPercent: int)

  /** The value of every setting that the configuration file leaves out. */
  const Defaults := Config("192.168.0.1", "8.8.8.8", "/home/pi/monitoring", "network_log",
                           5, 200, 60, 5, 100.0, 5, 20)

  /** One section of the configuration file: option names (lower case) to their text. */
  type Section = map<string, string>

  /** `section.get(key, default)`. */
  function GetText(sec: Section, key: string, default: string): string {
    if key in sec then sec[key] else default
  }

  /** `section.getint(key, default)`: `None` where the text is not an integer. */
  function GetInt(sec: Section, key: string, default: int): Option<int> {
    if key in sec then ParseInt(sec[key]) else Some(default)
  }

  /** `section.getfloat(key, default)`: `None` where the text is not a number. */
  function GetFloat(sec: Section, key: string, default: real): Option<real> {
    if key in sec then ParseFloat(sec[key]) else Some(default)
  }

  /** Every numeric option that is present is readable as its kind of number. */
  predicate Readable(network: Section, thresholds: Section) {
    && GetInt(network, "ping_count", 5).Some?
    && GetInt(network, "ping_interval_ms", 200).Some?
    && GetInt(network, "interval_ok", 60).Some?
    && GetInt(network, "interval_problem", 5).Some?
    && GetFloat(thresholds, "latency_warn_ms", 100.0).Some?
    && GetInt(thresholds, "loss_warn_percent", 5).Some?
    && GetInt(thresholds, "loss_critical_percent", 20).Some?
  }

  /** A text option: the file's text when present, the default otherwise. */
  predicate TextOption(sec: Section, key: string, default: string, v: string) {
    && (key in sec ==> v == sec[key])
    && (key !in sec ==> v == default)
  }

  /** An integer option: what `int()` reads from the file's text when present, the default otherwise. */
  predicate IntOption(sec: Section, key: string, default: int, v: int) {
    && (key in sec ==> ParseInt(sec[key]) == Some(v))
    && (key !in sec ==> v == default)
  }

  /** A real option: what `float()` reads from the file's text when present, the default otherwise. */
  predicate RealOption(sec: Section, key: string, default: real, v: real) {
    && (key in sec ==> ParseFloat(sec[key]) == Some(v))
    && (key !in sec ==> v == default)
  }

  /**
   * `load_config` over the parsed file, by section: `None` where Python raises,
   * that is when a section is missing or a numeric option is unreadable.
   */
  function LoadConfig(ini: map<string, Section>): (r: Option<Config>)
    ensures r.Some? <==> "network" in ini && "thresholds" in ini && Readable(ini["network"], ini["thresholds"])
    ensures r.Some? ==> TextOption(ini["network"], "router_ip", Defaults.routerIp, r.value.routerIp)
    ensures r.Some? ==> TextOption(ini["network"], "internet_ip", Defaults.internetIp, r.value.internetIp)
    ensures r.Some? ==> TextOption(ini["network"], "log_dir", Defaults.logDir, r.value.logDir)
    ensures r.Some? ==> TextOption(ini["network"], "log_prefix", Defaults.logPrefix, r.value.logPrefix)
    ensures r.Some? ==> IntOption(ini["network"], "ping_count", Defaults.pingCount, r.value.pingCount)
    ensures r.Some? ==> IntOption(ini["network"], "ping_interval_ms", Defaults.pingIntervalMs, r.value.pingIntervalMs)
    ensures r.Some? ==> IntOption(ini["network"], "interval_ok", Defaults.intervalOk, r.value.intervalOk)
    ensures r.Some? ==> IntOption(ini["network"], "interval_problem", Defaults.intervalProblem, r.value.intervalProblem)
    ensures r.Some? ==> RealOption(ini["thresholds"], "latency_warn_ms", Defaults.latencyWarnMs, r.value.latencyWarnMs)
    ensures r.Some? ==> IntOption(ini["thresholds"], "loss_warn_percent", Defaults.lossWarnPercent, r.value.lossWarnPercent)
    ensures r.Some? ==> IntOption(ini["thresholds"], "loss_critical_percent", Defaults.lossCriticalPercent,
                                  r.value.lossCriticalPercent)
  {
    if "network" !in ini || "thresholds" !in ini then None
    else
      var network := ini["network"];
      var thresholds := ini["thresholds"];
      if !Readable(network, thresholds) then None
      else Some(Config(
        GetText(network, "router_ip", "192.168.0.1"),
        GetText(network, "internet_ip", "8.8.8.8"),
        GetText(network, "log_dir", "/home/pi/monitoring"),
        GetText(network, "log_prefix", "network_log"),
        GetInt(network, "ping_count", 5).value,
        GetInt(network, "ping_interval_ms", 200).value,
        GetInt(network, "interval_ok", 60).value,
        GetInt(network, "interval_problem", 5).value,
        GetFloat(thresholds, "latency_warn_ms", 100.0).value,
        GetInt(thresholds, "loss_warn_percent", 5).value,
        GetInt(thresholds, "loss_critical_percent", 20).value))
  }

  /** Two empty sections give exactly the defaults. */
  lemma EmptySectionsGiveDefaults()
    ensures LoadConfig(map["network" := map[], "thresholds" := map[]]) == Some(Defaults)
  {
  }

  /** The settings a section holding only `interval_problem` gives. */
  lemma OnlyIntervalProblem(network: Section, text: string)
    requires network == map["interval_problem" := text]
    requires |text| > 0 && AllDigits(text)
    ensures GetInt(network, "interval_problem", 5) == Some(DigitsValue(text))
    ensures GetInt(network, "ping_count", 5) == Some(5)
    ensures GetInt(network, "ping_interval_ms", 200) == Some(200)
    ensures GetInt(network, "interval_ok", 60) == Some(60)
    ensures GetText(network, "router_ip", "192.168.0.1") == "192.168.0.1"
    ensures GetText(network, "internet_ip", "8.8.8.8") == "8.8.8.8"
    ensures GetText(network, "log_dir", "/home/pi/monitoring") == "/home/pi/monitoring"
    ensures GetText(network, "log_prefix", "network_log") == "network_log"
  {
    DigitsParseAsInt(text);
    assert "ping_interval_ms"[0] != "interval_problem"[0];
  }

  /** The settings an empty section gives. */
  lemma EmptyThresholds(thresholds: Section)
    requires thresholds == map[]
    ensures GetFloat(thresholds, "latency_warn_ms", 100.0) == Some(100.0)
    ensures GetInt(thresholds, "loss_warn_percent", 5) == Some(5)
    ensures GetInt(thresholds, "loss_critical_percent", 20) == Some(20)
  {
  }

  /** A setting written in the file overrides its default; the others keep theirs. */
  lemma OverrideOne(ini: map<string, Section>, text: string)
    requires ini == map["network" := map["interval_problem" := text], "thresholds" := map[]]
    requires |text| > 0 && AllDigits(text)
    ensures LoadConfig(ini) == Some(Defaults.(intervalProblem := DigitsValue(text)))
  {
    var network := ini["network"];
    var thresholds := ini["thresholds"];
    OnlyIntervalProblem(network, text);
    EmptyThresholds(thresholds);
    assert Readable(network, thresholds);
    assert LoadConfig(ini) == Some(Config("192.168.0.1", "8.8.8.8", "/home/pi/monitoring", "network_log",
                                          5, 200, 60, DigitsValue(text), 100.0, 5, 20));
  }

  /** The five link states, most severe last. */
  datatype Status = Ok | WarnLatency | WarnLoss | Critical | Down {

    /** The name written to the log. */
    function Name(): (r: string)
      ensures r in StatusNames
    {
      match this
      case Ok => "OK"
      case WarnLatency => "WARN_LATENCY"
      case WarnLoss => "WARN_LOSS"
      case Critical => "CRITICAL"
      case Down => "DOWN"
    }

    /** Severity rank: the order in which the classifier tests the states, reversed. */
    function Rank(): nat {
      match this
      case Ok => 0
      case WarnLatency => 1
      case WarnLoss => 2
      case Critical => 3
      case Down => 4
    }
  }

  const StatusNames: set<string> := {"OK", "WARN_LATENCY", "WARN_LOSS", "CRITICAL", "DOWN"}

  /** Different states are written under different names. */
  lemma NameInjective(a: Status, b: Status)
    requires a.Name() == b.Name()
    ensures a == b
  {
  }

  /** The log's name of a state: the inverse of `Name`. */
  function StatusNamed(s: string): (r: Option<Status>)
    ensures r.Some? <==> s in StatusNames
    ensures r.Some? ==> r.value.Name() == s
  {
    if s == "OK" then Some(Ok)
    else if s == "WARN_LATENCY" then Some(WarnLatency)
    else if s == "WARN_LOSS" then Some(WarnLoss)
    else if s == "CRITICAL" then Some(Critical)
    else if s == "DOWN" then Some(Down)
    else None
  }

  lemma StatusNameRoundTrip(st: Status)
    ensures StatusNamed(st.Name()) == Some(st)
  {
  }

  /**
   * `classify_status`: a total loss is DOWN whatever the thresholds; then loss
   * against the critical and the warning threshold; then latency.
   */
  function Classify(loss: int, latency: real, cfg: Config): (r: Status)
    ensures r == Down <==> loss == 100
    ensures r == Critical <==> loss != 100 && loss >= cfg.lossCriticalPercent
    ensures r == WarnLoss <==> loss != 100 && cfg.lossWarnPercent <= loss < cfg.lossCriticalPercent
    ensures r == WarnLatency <==> loss != 100 && loss < cfg.lossCriticalPercent
                                  && loss < cfg.lossWarnPercent && latency >= cfg.latencyWarnMs
    ensures r == Ok <==> loss != 100 && loss < cfg.lossCriticalPercent
                         && loss < cfg.lossWarnPercent && latency < cfg.latencyWarnMs
  {
    if loss == 100 then Down
    else if loss >= cfg.lossCriticalPercent then Critical
    else if loss >= cfg.lossWarnPercent then WarnLoss
    else if latency >= cfg.latencyWarnMs then WarnLatency
    else Ok
  }

  /**
   * More loss and more latency never give a milder state, as long as the loss
   * stays a percentage: past 100 the classifier falls back to the threshold
   * tests, which may give any state but DOWN.
   */
  lemma ClassifyMonotone(loss: int, latency: real, loss': int, latency': real, cfg: Config)
    requires loss <= loss' <= 100 && latency <= latency'
    ensures Classify(loss, latency, cfg).Rank() <= Classify(loss', latency', cfg).Rank()
  {
  }

  /**
   * Above a total loss the classifier is no longer monotone: any loss beyond
   * 100 gets a milder state than 100 itself, whatever the thresholds.
   */
  lemma BeyondTotalLoss(cfg: Config, loss: int, latency: real, latency': real)
    requires loss > 100
    ensures Classify(100, latency', cfg) == Down
    ensures Classify(loss, latency, cfg).Rank() < Classify(100, latency', cfg).Rank()
  {
  }

  /** The two probed hosts, by the name the log gives them. */
  datatype Target = Router | Internet {
    function Name(): (r: string)
      ensures r == "ROUTER" || r == "INTERNET"
    {
      match this
      case Router => "ROUTER"
      case Internet => "INTERNET"
    }
  }

  /** A calendar date. */
  datatype Date = Date(year: int, month: int, day: int)

  /** A date whose `%Y-%m-%d` is ten characters. */
  predicate Formattable(d: Date) {
    1000 <= d.year <= 9999 && 1 <= d.month <= 12 && 1 <= d.day <= 31
  }

  /** Three fields joined by `-`: each field sits at its fixed place. */
  lemma DashedParts(y: string, m: string, d: string)
    requires |y| == 4 && |m| == 2 && |d| == 2
    ensures var r := y + "-" + m + "-" + d;
            && |r| == 10 && r[4] == '-' && r[7] == '-'
            && r[..4] == y && r[5..7] == m && r[8..] == d
  {
    var r := y + "-" + m + "-" + d;
    assert r[..4] == y;
    assert r[5..7] == m;
    assert r[8..] == d;
  }

  /** `strftime("%Y-%m-%d")`. */
  function DateKey(d: Date): (r: string)
    requires Formattable(d)
    ensures |r| == 10 && r[4] == '-' && r[7] == '-'
    ensures AllDigits(r[..4]) && DigitsValue(r[..4]) == d.year
    ensures AllDigits(r[5..7]) && DigitsValue(r[5..7]) == d.month
    ensures AllDigits(r[8..]) && DigitsValue(r[8..]) == d.day
  {
    DashedParts(Pad4(d.year as nat), Pad2(d.month as nat), Pad2(d.day as nat));
    Pad4(d.year as nat) + "-" + Pad2(d.month as nat) + "-" + Pad2(d.day as nat)
  }

  /** A date key is digits and dashes. */
  lemma DateKeyChars(d: Date)
    requires Formattable(d)
    ensures forall i :: 0 <= i < |DateKey(d)| ==> IsDigit(DateKey(d)[i]) || DateKey(d)[i] == '-'
  {
    DashedChars(DateKey(d));
  }

  /** Digits in the three fields and dashes between them: every character is one or the other. */
  lemma DashedChars(r: string)
    requires |r| == 10 && r[4] == '-' && r[7] == '-'
    requires AllDigits(r[..4]) && AllDigits(r[5..7]) && AllDigits(r[8..])
    ensures forall i :: 0 <= i < |r| ==> IsDigit(r[i]) || r[i] == '-'
  {
    forall i | 0 <= i < 10
      ensures IsDigit(r[i]) || r[i] == '-'
    {
      if i < 4 {
        assert r[i] == r[..4][i];
      } else if 4 < i < 7 {
        assert r[i] == r[5..7][i - 5];
      } else if 7 < i {
        assert r[i] == r[8..][i - 8];
      }
    }
  }

  /** Different days get different keys. */
  lemma DateKeyInjective(d1: Date, d2: Date)
    requires Formattable(d1) && Formattable(d2)
    requires DateKey(d1) == DateKey(d2)
    ensures d1 == d2
  {
  }

  /** A local date and time of day. */
  datatype DateTime = DateTime(date: Date, hour: int, minute: int, second: int)

  predicate StampFormattable(t: DateTime) {
    Formattable(t.date) && 0 <= t.hour < 24 && 0 <= t.minute < 60 && 0 <= t.second < 60
  }

  predicate IsStampChar(c: char) {
    IsDigit(c) || c == '-' || c == ' ' || c == ':'
  }

  /** A date key, a space, and three two-digit fields joined by `:`: each sits at its fixed place. */
  lemma StampParts(key: string, h: string, m: string, s: string)
    requires |key| == 10 && |h| == 2 && |m| == 2 && |s| == 2
    ensures var r := key + " " + h + ":" + m + ":" + s;
            && |r| == 19 && r[..10] == key && r[10] == ' ' && r[13] == ':' && r[16] == ':'
            && r[11..13] == h && r[14..16] == m && r[17..] == s
  {
    var r := key + " " + h + ":" + m + ":" + s;
    assert r[..10] == key;
    assert r[11..13] == h;
    assert r[14..16] == m;
    assert r[17..] == s;
  }

  /** A stamp is its date key, a space, and three digit pairs joined by `:`. */
  lemma StampCharsOf(r: string)
    requires |r| == 19 && r[10] == ' ' && r[13] == ':' && r[16] == ':'
    requires forall i :: 0 <= i < 10 ==> IsDigit(r[..10][i]) || r[..10][i] == '-'
    requires AllDigits(r[11..13]) && AllDigits(r[14..16]) && AllDigits(r[17..])
    ensures forall i :: 0 <= i < |r| ==> IsStampChar(r[i])
  {
    forall i | 0 <= i < |r|
      ensures IsStampChar(r[i])
    {
      if i < 10 {
        assert r[i] == r[..10][i];
      } else if 11 <= i < 13 {
        assert r[i] == r[11..13][i - 11];
      } else if 14 <= i < 16 {
        assert r[i] == r[14..16][i - 14];
      } else if 17 <= i {
        assert r[i] == r[17..][i - 17];
      }
    }
  }

  /** `strftime("%Y-%m-%d %H:%M:%S")`. */
  function Stamp(t: DateTime): (r: string)
    requires StampFormattable(t)
    ensures |r| == 19 && r[..10] == DateKey(t.date)
    ensures r[10] == ' ' && r[13] == ':' && r[16] == ':'
    ensures AllDigits(r[11..13]) && DigitsValue(r[11..13]) == t.hour
    ensures AllDigits(r[14..16]) && DigitsValue(r[14..16]) == t.minute
    ensures AllDigits(r[17..]) && DigitsValue(r[17..]) == t.second
    ensures forall i :: 0 <= i < |r| ==> IsStampChar(r[i])
  {
    var key := DateKey(t.date);
    var h := Pad2(t.hour as nat);
    var m := Pad2(t.minute as nat);
    var s := Pad2(t.second as nat);
    DateKeyChars(t.date);
    StampParts(key, h, m, s);
    StampCharsOf(key + " " + h + ":" + m + ":" + s);
    key + " " + h + ":" + m + ":" + s
  }

  /** Different moments get different stamps. */
  lemma StampInjective(t1: DateTime, t2: DateTime)
    requires StampFormattable(t1) && StampFormattable(t2)
    requires Stamp(t1) == Stamp(t2)
    ensures t1 == t2
  {
    DateKeyInjective(t1.date, t2.date);
  }

  /** Text made of stamp characters has no `;`. */
  lemma StampCharsFree(r: string)
    requires forall i :: 0 <= i < |r| ==> IsStampChar(r[i])
    ensures ';' !in r
  {
    forall i | 0 <= i < |r|
      ensures r[i] != ';'
    {
      assert IsStampChar(r[i]);
    }
  }

  /** A time stamp never holds the log's field separator. */
  lemma StampHasNoSeparator(t: DateTime)
    requires StampFormattable(t)
    ensures ';' !in Stamp(t)
  {
    StampCharsFree(Stamp(t));
  }

  /** The file name for a day's log: `prefix_YYYY-MM-DD.csv`. */
  function LogFileName(cfg: Config, today: Date): string
    requires Formattable(today)
  {
    cfg.logPrefix + "_" + DateKey(today) + ".csv"
  }

  /** `get_log_file_path`, without creating the directory. */
  function LogFilePath(cfg: Config, today: Date): (r: string)
    requires Formattable(today)
    ensures |r| >= |LogFileName(cfg, today)|
    ensures r[|r| - |LogFileName(cfg, today)|..] == LogFileName(cfg, today)
  {
    JoinPath(cfg.logDir, LogFileName(cfg, today))
  }

  /** The date key sits right after the prefix and its `_`. */
  lemma NameHoldsKey(cfg: Config, d: Date)
    requires Formattable(d)
    ensures |LogFileName(cfg, d)| == |cfg.logPrefix| + 15
    ensures LogFileName(cfg, d)[|cfg.logPrefix| + 1..|cfg.logPrefix| + 11] == DateKey(d)
  {
    var key := DateKey(d);
    var n := cfg.logPrefix + "_" + key + ".csv";
    assert n[|cfg.logPrefix| + 1..|cfg.logPrefix| + 11] == key;
  }

  /** Each day of one configuration writes to its own file. */
  lemma LogFilePathInjective(cfg: Config, d1: Date, d2: Date)
    requires Formattable(d1) && Formattable(d2)
    requires LogFilePath(cfg, d1) == LogFilePath(cfg, d2)
    ensures d1 == d2
  {
    PathEndsWithKey(cfg, d1);
    PathEndsWithKey(cfg, d2);
    DateKeyInjective(d1, d2);
  }

  /** The ten characters that end four characters before the end of a path. */
  function KeyOfPath(p: string): string
    requires |p| >= 14
  {
    p[|p| - 14..|p| - 4]
  }

  /** A log path ends with its date key and `.csv`. */
  lemma PathEndsWithKey(cfg: Config, d: Date)
    requires Formattable(d)
    ensures |LogFilePath(cfg, d)| >= 14 && KeyOfPath(LogFilePath(cfg, d)) == DateKey(d)
  {
    KeyEndsPath(cfg.logDir, cfg.logPrefix + "_", DateKey(d));
  }

  /** Any ten-character key followed by `.csv` ends a joined path at the place `KeyOfPath` reads. */
  lemma KeyEndsPath(dir: string, pre: string, key: string)
    requires |key| == 10
    ensures var p := JoinPath(dir, pre + key + ".csv");
            |p| >= 14 && KeyOfPath(p) == key
  {
    var n := pre + key + ".csv";
    var p := JoinPath(dir, n);
    assert n[|n| - 14..|n| - 4] == key;
    TailSlice(p, n, 14, 4);
  }

  /** A slice near the end of a text's tail is the same slice of the text. */
  lemma TailSlice(p: string, n: string, i: nat, j: nat)
    requires |n| <= |p| && p[|p| - |n|..] == n
    requires j <= i <= |n|
    ensures p[|p| - i..|p| - j] == n[|n| - i..|n| - j]
  {
    var a := p[|p| - i..|p| - j];
    var b := n[|n| - i..|n| - j];
    forall k | 0 <= k < |a|
      ensures a[k] == b[k]
    {
      assert n[|n| - i + k] == p[|p| - |n|..][|n| - i + k];
    }
    assert a == b;
  }

  /**
   * The header line the monitor writes. As in the program, it names six
   * columns (an empty one between the loss and the latency), while every data
   * row has five fields.
   */
  const Header := "Timestamp;Target;Packet_Loss_%;;Avg_Latency_ms;Status"

  /** `ensure_header`: create the file with the header line, only if it does not exist. */
  function EnsureHeader(fs: FileSystem, path: string): (r: FileSystem)
    ensures path in r
    ensures path in fs ==> r == fs
    ensures path !in fs ==> r[path] == [Header]
    ensures r.Keys == fs.Keys + {path}
    ensures forall p :: p in fs ==> r[p] == fs[p]
  {
    if path in fs then fs else fs[path := [Header]]
  }

  lemma EnsureHeaderIdempotent(fs: FileSystem, path: string)
    ensures EnsureHeader(EnsureHeader(fs, path), path) == EnsureHeader(fs, path)
  {
  }

  /** The column names the header line spells out. */
  const HeaderNames: seq<string> := ["Timestamp", "Target", "Packet_Loss_%", "", "Avg_Latency_ms", "Status"]

  lemma HeaderJoin()
    ensures Join(HeaderNames, ";") == Header
  {
    var names := HeaderNames;
    assert names[5..] == ["Status"];
    JoinStep(names, 4, ";");
    JoinStep(names, 3, ";");
    JoinStep(names, 2, ";");
    JoinStep(names, 1, ";");
    JoinStep(names, 0, ";");
    assert names[0..] == names;
    assert Join(names, ";") == JoinedHeader();
    HeaderText();
  }

  /** The header's names joined by `;`, as `Join` nests them. */
  function JoinedHeader(): string {
    "Timestamp" + ";" + ("Target" + ";" + ("Packet_Loss_%" + ";"
    + ("" + ";" + ("Avg_Latency_ms" + ";" + "Status"))))
  }

  lemma HeaderTextOne()
    ensures |JoinedHeader()| == |Header|
    ensures forall i :: 0 <= i < 9 ==> JoinedHeader()[i] == Header[i]
  {
  }

  lemma HeaderTextTwo()
    ensures forall i :: 9 <= i < 18 ==> JoinedHeader()[i] == Header[i]
  {
  }

  lemma HeaderTextThree()
    ensures forall i :: 18 <= i < 27 ==> JoinedHeader()[i] == Header[i]
  {
  }

  lemma HeaderTextFour()
    ensures forall i :: 27 <= i < 36 ==> JoinedHeader()[i] == Header[i]
  {
  }

  lemma HeaderTextFive()
    ensures forall i :: 36 <= i < 45 ==> JoinedHeader()[i] == Header[i]
  {
  }

  lemma HeaderTextSix()
    ensures forall i :: 45 <= i < |Header| ==> JoinedHeader()[i] == Header[i]
  {
  }

  /** The header's characters, nine at a time. */
  lemma HeaderText()
    ensures JoinedHeader() == Header
  {
    HeaderTextOne();
    HeaderTextTwo();
    HeaderTextThree();
    HeaderTextFour();
    HeaderTextFive();
    HeaderTextSix();
  }

  /** Read back, the header names six columns, the fourth of them empty. */
  lemma HeaderColumns()
    ensures Fields(Header) == HeaderNames
  {
    HeaderJoin();
    forall k | 0 <= k < |HeaderNames|
      ensures ';' !in HeaderNames[k]
    {
    }
    FieldsOfJoin(HeaderNames);
  }

  /** One target's probe result and its classification. */
  datatype Measurement = Measurement(loss: int, latency: real, status: Status)

  /**
   * Probe one target and classify what came back: the numbers are the
   * probe's reading, and the state is DOWN exactly on a total loss, CRITICAL
   * at or past the critical loss, OK only below every threshold.
   */
  function Measure(cfg: Config, probe: ProbeOutcome): (m: Measurement)
    ensures Reading(m.loss, m.latency) == RunFping(probe)
    ensures probe.Failed? ==> m == Measurement(100, 0.0, Down)
    ensures m.status == Down <==> m.loss == 100
    ensures m.status == Critical <==> m.loss != 100 && m.loss >= cfg.lossCriticalPercent
    ensures m.status == WarnLoss <==> m.loss != 100 && cfg.lossWarnPercent <= m.loss < cfg.lossCriticalPercent
    ensures m.status == Ok <==> m.loss != 100 && m.loss < cfg.lossWarnPercent
                                && m.loss < cfg.lossCriticalPercent && m.latency < cfg.latencyWarnMs
  {
    var rd := RunFping(probe);
    Measurement(rd.loss, rd.latency, Classify(rd.loss, rd.latency, cfg))
  }

  /** A probe that failed to run is recorded as a total loss. */
  lemma FailedProbeIsDown(cfg: Config)
    ensures Measure(cfg, Failed) == Measurement(100, 0.0, Down)
  {
  }

  /** The five values of one log row, before joining. */
  function RowFields(stamp: string, target: Target, m: Measurement): seq<string> {
    [stamp, target.Name(), IntToString(m.loss), Fixed2(m.latency), m.status.Name()]
  }

  /** One log row: `timestamp;TARGET;loss;latency with two decimals;STATUS`. */
  function FormatRow(stamp: string, target: Target, m: Measurement): string {
    Join(RowFields(stamp, target, m), ";")
  }

  lemma NoSeparatorInNumber(s: string)
    requires forall i :: 0 <= i < |s| ==> IsDigit(s[i]) || s[i] == '.' || s[i] == '-'
    ensures ';' !in s
  {
    forall i | 0 <= i < |s|
      ensures s[i] != ';'
    {
    }
  }

  /** No name holds the separator. */
  lemma NamesFree(target: Target, st: Status)
    ensures ';' !in target.Name() && ';' !in st.Name()
  {
  }

  /** Neither number holds the separator. */
  lemma NumbersFree(m: Measurement)
    ensures ';' !in IntToString(m.loss) && ';' !in Fixed2(m.latency)
  {
    var loss := IntToString(m.loss);
    assert forall i :: 0 <= i < |loss| ==> IsDigit(loss[i]) || loss[i] == '-';
    NoSeparatorInNumber(loss);
    NoSeparatorInNumber(Fixed2(m.latency));
  }

  lemma FiveFree(a: string, b: string, c: string, d: string, e: string)
    requires ';' !in a && ';' !in b && ';' !in c && ';' !in d && ';' !in e
    ensures forall k :: 0 <= k < 5 ==> ';' !in [a, b, c, d, e][k]
  {
  }

  lemma RowFieldsFree(stamp: string, target: Target, m: Measurement)
    requires ';' !in stamp
    ensures forall k :: 0 <= k < |RowFields(stamp, target, m)| ==> ';' !in RowFields(stamp, target, m)[k]
  {
    var name := target.Name();
    var loss := IntToString(m.loss);
    var latency := Fixed2(m.latency);
    var state := m.status.Name();
    NamesFree(target, m.status);
    NumbersFree(m);
    FiveFree(stamp, name, loss, latency, state);
    assert RowFields(stamp, target, m) == [stamp, name, loss, latency, state];
  }

  /** A row splits back into the five values that were joined. */
  lemma RowSplits(stamp: string, target: Target, m: Measurement)
    requires ';' !in stamp
    ensures Fields(FormatRow(stamp, target, m)) == RowFields(stamp, target, m)
  {
    RowFieldsFree(stamp, target, m);
    FieldsOfJoin(RowFields(stamp, target, m));
  }

  /**
   * Each written value reads back: the loss exactly, the latency to within the
   * two decimals kept, the state by its name.
   */
  lemma RowLossField(stamp: string, target: Target, m: Measurement)
    ensures |RowFields(stamp, target, m)| == 5 && RowFields(stamp, target, m)[2] == IntToString(m.loss)
  {
  }

  lemma RowLatencyField(stamp: string, target: Target, m: Measurement)
    ensures |RowFields(stamp, target, m)| == 5 && RowFields(stamp, target, m)[3] == Fixed2(m.latency)
  {
  }

  lemma RowStateField(stamp: string, target: Target, m: Measurement)
    ensures |RowFields(stamp, target, m)| == 5 && RowFields(stamp, target, m)[4] == m.status.Name()
  {
  }

  lemma RowValues(stamp: string, target: Target, m: Measurement)
    ensures ParseInt(RowFields(stamp, target, m)[2]) == Some(m.loss)
    ensures ParseFloat(RowFields(stamp, target, m)[3]).Some?
    ensures -0.005 <= ParseFloat(RowFields(stamp, target, m)[3]).value - m.latency <= 0.005
    ensures StatusNamed(RowFields(stamp, target, m)[4]) == Some(m.status)
  {
    RowLossField(stamp, target, m);
    RowLatencyField(stamp, target, m);
    RowStateField(stamp, target, m);
    IntToStringRoundTrip(m.loss);
    Fixed2RoundTrip(m.latency);
    StatusNameRoundTrip(m.status);
  }

  /** Writing `lines` at the end of an existing file; every other file stays as it was. */
  function AppendLines(fs: FileSystem, path: string, lines: seq<string>): (r: FileSystem)
    requires path in fs
    ensures path in r && |r[path]| == |fs[path]| + |lines|
    ensures r[path][..|fs[path]|] == fs[path] && r[path][|fs[path]|..] == lines
    ensures r.Keys == fs.Keys
    ensures forall p :: p in fs && p != path ==> r[p] == fs[p]
  {
    var all := fs[path] + lines;
    assert all[..|fs[path]|] == fs[path] && all[|fs[path]|..] == lines;
    fs[path := all]
  }

  /** The header, if the file is new, then two rows at the end of the file. */
  lemma AppendAfterHeader(fs: FileSystem, path: string, rows: seq<string>)
    requires |rows| == 2
    ensures var r := AppendLines(EnsureHeader(fs, path), path, rows);
            && path in r
            && (path in fs ==> |r[path]| == |fs[path]| + 2 && r[path][..|fs[path]|] == fs[path])
            && (path !in fs ==> |r[path]| == 3 && r[path][0] == Header)
            && r[path][|r[path]| - 2..] == rows
            && r.Keys == fs.Keys + {path}
            && forall p :: p in fs && p != path ==> r[p] == fs[p]
  {
    var fs1 := EnsureHeader(fs, path);
    var r := AppendLines(fs1, path, rows);
    assert |r[path]| - 2 == |fs1[path]|;
    if path !in fs {
      assert r[path][..1] == fs1[path] == [Header];
      assert r[path][0] == r[path][..1][0];
    }
  }

  /** What one pass of the loop leaves behind. */
  datatype CycleResult = CycleResult(
    fs: FileSystem,
    path: string,
    router: Measurement,
    internet: Measurement,
    sleep: int)

  /** The pause before the next pass: the long one only when both links are OK. */
  function SleepFor(cfg: Config, router: Status, internet: Status): (s: int)
    ensures router != Ok || internet != Ok ==> s == cfg.intervalProblem
    ensures router == Ok && internet == Ok ==> s == cfg.intervalOk
  {
    if router == Ok && internet == Ok then cfg.intervalOk else cfg.intervalProblem
  }

  /**
   * One pass of the monitor's loop: today's log file gets its header if it is
   * new, then one ROUTER row and one INTERNET row, both stamped with `now`; the
   * pause depends on the two states. The probe results and the clock are inputs.
   */
  function Cycle(cfg: Config, fs: FileSystem, today: Date, now: DateTime,
                 routerProbe: ProbeOutcome, internetProbe: ProbeOutcome): (r: CycleResult)
    requires Formattable(today) && StampFormattable(now)
    ensures r.path == LogFilePath(cfg, today)
    ensures r.router == Measure(cfg, routerProbe) && r.internet == Measure(cfg, internetProbe)
    ensures r.path in r.fs
    ensures r.path in fs ==> |r.fs[r.path]| == |fs[r.path]| + 2 && r.fs[r.path][..|fs[r.path]|] == fs[r.path]
    ensures r.path !in fs ==> |r.fs[r.path]| == 3 && r.fs[r.path][0] == Header
    ensures r.fs[r.path][|r.fs[r.path]| - 2..]
            == [FormatRow(Stamp(now), Router, r.router), FormatRow(Stamp(now), Internet, r.internet)]
    ensures r.fs.Keys == fs.Keys + {r.path}
    ensures forall p :: p in fs && p != r.path ==> r.fs[p] == fs[p]
    ensures r.sleep == SleepFor(cfg, r.router.status, r.internet.status)
  {
    var path := LogFilePath(cfg, today);
    var stamp := Stamp(now);
    var router := Measure(cfg, routerProbe);
    var internet := Measure(cfg, internetProbe);
    var rows := [FormatRow(stamp, Router, router), FormatRow(stamp, Internet, internet)];
    AppendAfterHeader(fs, path, rows);
    CycleResult(AppendLines(EnsureHeader(fs, path), path, rows), path, router, internet,
                SleepFor(cfg, router.status, internet.status))
  }

  /** Running the loop again on the same day only appends. */
  lemma CyclesAppend(cfg: Config, fs: FileSystem, today: Date, now1: DateTime, now2: DateTime,
                     r1: ProbeOutcome, i1: ProbeOutcome, r2: ProbeOutcome, i2: ProbeOutcome)
    requires Formattable(today) && StampFormattable(now1) && StampFormattable(now2)
    ensures var first := Cycle(cfg, fs, today, now1, r1, i1);
            var second := Cycle(cfg, first.fs, today, now2, r2, i2);
            second.path == first.path
            && |second.fs[second.path]| == |first.fs[first.path]| + 2
            && second.fs[second.path][..|first.fs[first.path]|] == first.fs[first.path]
  {
  }
}

=== FILE: numbers.dfy ===
/**
 * Decimal text: Python's `str(n)` for integers, zero-padded fields, and the
 * `int()` and `float()` conversions restricted to plain decimal notation.
 */
module Numbers {
  import opened Wrappers
  import opened Strings

  predicate IsDigit(c: char) {
    '0' <= c <= '9'
  }

  predicate AllDigits(s: string) {
    forall i :: 0 <= i < |s| ==> IsDigit(s[i])
  }

  function DigitValue(c: char): nat
    requires IsDigit(c)
  {
    (c as int) - ('0' as int)
  }

  function DigitChar(d: nat): (c: char)
    requires d < 10
    ensures IsDigit(c) && DigitValue(c) == d
  {
    (('0' as int) + d) as char
  }

  function Pow10(k: nat): (r: nat)
    ensures r >= 1
  {
    if k == 0 then 1 else 10 * Pow10(k - 1)
  }

  /** The value of a string of decimal digits, most significant first. */
  function DigitsValue(s: string): nat
    requires AllDigits(s)
    decreases |s|
  {
    if |s| == 0 then 0 else DigitsValue(s[..|s| - 1]) * 10 + DigitValue(s[|s| - 1])
  }

  /** `str(n)` for a non-negative integer: its digits, no leading zero. */
  function NatToString(n: nat): (r: string)
    ensures |r| >= 1 && AllDigits(r)
    ensures |r| > 1 ==> r[0] != '0'
    decreases n
  {
    if n < 10 then [DigitChar(n)] else NatToString(n / 10) + [DigitChar(n % 10)]
  }

  /** `str(n)` for any integer. */
  function IntToString(n: int): (r: string)
    ensures |r| >= 1
    ensures n < 0 <==> r[0] == '-'
    ensures forall i :: 0 < i < |r| ==> IsDigit(r[i])
  {
    if n < 0 then "-" + NatToString(-n) else NatToString(n)
  }

  /** Reading back the digits that `NatToString` wrote gives the number. */
  lemma {:induction false} NatToStringRoundTrip(n: nat)
    ensures DigitsValue(NatToString(n)) == n
    decreases n
  {
    if n >= 10 {
      var s := NatToString(n);
      NatToStringRoundTrip(n / 10);
      assert s[..|s| - 1] == NatToString(n / 10);
    }
  }

  lemma {:induction false} NatToStringLength(n: nat)
    ensures n < 10 ==> |NatToString(n)| == 1
    ensures n < 100 ==> |NatToString(n)| <= 2
    ensures n < 1000 ==> |NatToString(n)| <= 3
    ensures n < 10000 ==> |NatToString(n)| <= 4
    decreases n
  {
    if n >= 10 {
      NatToStringLength(n / 10);
      assert |NatToString(n)| == |NatToString(n / 10)| + 1;
      assert n < 100 ==> n / 10 < 10;
      assert n < 1000 ==> n / 10 < 100;
      assert n < 10000 ==> n / 10 < 1000;
    }
  }

  /** Leading zeros do not change the value of a digit string. */
  lemma {:induction false} LeadingZeros(k: nat, s: string)
    requires AllDigits(s)
    ensures AllDigits(Repeat('0', k) + s)
    ensures DigitsValue(Repeat('0', k) + s) == DigitsValue(s)
    decreases |s|
  {
    var z := Repeat('0', k);
    if |s| == 0 {
      assert z + s == z;
      ZerosValue(k);
    } else {
      LeadingZeros(k, s[..|s| - 1]);
      assert (z + s)[..|z + s| - 1] == z + s[..|s| - 1];
    }
  }

  lemma {:induction false} ZerosValue(k: nat)
    ensures DigitsValue(Repeat('0', k)) == 0
    decreases k
  {
    if k > 0 {
      ZerosValue(k - 1);
      assert Repeat('0', k)[..k - 1] == Repeat('0', k - 1);
    }
  }

  /** `s` right-aligned in `width` characters, filled on the left with `c`. */
  function PadLeft(s: string, width: nat, c: char): (r: string)
    ensures |r| == if |s| < width then width else |s|
    ensures r[|r| - |s|..] == s
  {
    if |s| < width then Repeat(c, width - |s|) + s else s
  }

  /** A number below 100 as exactly two digits, as `%m`, `%d`, `%H` print it. */
  function Pad2(n: nat): (r: string)
    requires n < 100
    ensures |r| == 2 && AllDigits(r)
    ensures DigitsValue(r) == n
  {
    NatToStringRoundTrip(n);
    NatToStringLength(n);
    LeadingZeros(2 - |NatToString(n)|, NatToString(n));
    PadLeft(NatToString(n), 2, '0')
  }

  /** A number below 10000 as exactly four digits, as `%Y` prints it. */
  function Pad4(n: nat): (r: string)
    requires n < 10000
    ensures |r| == 4 && AllDigits(r)
    ensures DigitsValue(r) == n
  {
    NatToStringRoundTrip(n);
    NatToStringLength(n);
    LeadingZeros(4 - |NatToString(n)|, NatToString(n));
    PadLeft(NatToString(n), 4, '0')
  }

  /** Non-empty digits only: the unsigned core of `int()`. */
  function ParseUnsigned(t: string): Option<nat> {
    if |t| > 0 && AllDigits(t) then Some(DigitsValue(t)) else None
  }

  /** `int()` on text without surrounding whitespace: an optional sign, then digits. */
  function ParseIntText(t: string): Option<int> {
    if |t| > 0 && (t[0] == '-' || t[0] == '+') then
      match ParseUnsigned(t[1..])
      case None => None
      case Some(v) => var k: int := v; Some(if t[0] == '-' then -k else k)
    else
      match ParseUnsigned(t)
      case None => None
      case Some(v) => Some(v)
  }

  /**
   * Python's `int(s)` on decimal text: surrounding whitespace is ignored; `None`
   * where Python raises `ValueError`.
   */
  function ParseInt(s: string): Option<int> {
    ParseIntText(Strip(s))
  }

  /** The value of `whole.frac` written in decimal. */
  function DecimalValue(whole: string, frac: string): real
    requires AllDigits(whole) && AllDigits(frac)
  {
    DigitsValue(whole) as real + DigitsValue(frac) as real / Pow10(|frac|) as real
  }

  /** An unsigned decimal with at most one point: `12`, `12.5`, `12.`, `.5`. */
  function ParseDecimal(t: string): Option<real> {
    match Find(t, ".")
    case None =>
      if |t| > 0 && AllDigits(t) then Some(DigitsValue(t) as real) else None
    case Some(i) =>
      var whole := t[..i];
      var frac := t[i + 1..];
      if AllDigits(whole) && AllDigits(frac) && |whole| + |frac| > 0 then
        Some(DecimalValue(whole, frac))
      else None
  }

  /** `float()` on text without surrounding whitespace: an optional sign, then a decimal. */
  function ParseFloatText(t: string): Option<real> {
    if |t| > 0 && (t[0] == '-' || t[0] == '+') then
      match ParseDecimal(t[1..])
      case None => None
      case Some(v) => Some(if t[0] == '-' then -v else v)
    else ParseDecimal(t)
  }

  /**
   * Python's `float(s)` on plain decimal text: surrounding whitespace is ignored;
   * `None` where Python raises `ValueError`.
   */
  function ParseFloat(s: string): Option<real> {
    ParseFloatText(Strip(s))
  }

  lemma NoPointInDigits(s: string)
    requires AllDigits(s)
    ensures '.' !in s
  {
    forall i | 0 <= i < |s|
      ensures s[i] != '.'
    {
      assert IsDigit(s[i]);
    }
  }

  /** Digits, points and signs are not whitespace, so the conversions see the text as it is. */
  lemma NumberTextUnstripped(s: string)
    requires forall i :: 0 <= i < |s| ==> IsDigit(s[i]) || s[i] == '.' || s[i] == '-'
    ensures Strip(s) == s
    ensures ParseInt(s) == ParseIntText(s)
    ensures ParseFloat(s) == ParseFloatText(s)
  {
    forall i | 0 <= i < |s|
      ensures !IsSpace(s[i])
    {
    }
    StripNoSpace(s);
  }

  /** A plain digit string reads as the same number through `int()`. */
  lemma DigitsParseAsInt(s: string)
    requires |s| > 0 && AllDigits(s)
    ensures ParseInt(s) == Some(DigitsValue(s) as int)
  {
    NumberTextUnstripped(s);
    assert IsDigit(s[0]);
    assert ParseIntText(s) == Some(DigitsValue(s) as int);
  }

  /** A plain digit string reads as the same number through `float()`. */
  lemma DigitsParseAsFloat(s: string)
    requires |s| > 0 && AllDigits(s)
    ensures ParseFloat(s) == Some(DigitsValue(s) as real)
  {
    NumberTextUnstripped(s);
    NoPointInDigits(s);
    MissingCharNotContained(s, ".", 0);
    assert IsDigit(s[0]);
    assert ParseFloatText(s) == Some(DigitsValue(s) as real);
  }

  /** Digits, a point, digits: the value is the whole part plus the scaled fraction. */
  lemma ParseDecimalPoint(whole: string, frac: string)
    requires AllDigits(whole) && AllDigits(frac) && |whole| > 0
    ensures ParseDecimal(whole + "." + frac) == Some(DecimalValue(whole, frac))
  {
    var body := whole + "." + frac;
    NoPointInDigits(whole);
    FindChar(whole, '.', frac);
    assert body[..|whole|] == whole;
    assert body[|whole| + 1..] == frac;
  }

  /** `whole.frac` is digits and one point, and starts with a digit when `whole` is not empty. */
  lemma DecimalChars(whole: string, frac: string)
    requires AllDigits(whole) && AllDigits(frac)
    ensures forall i :: 0 <= i < |whole + "." + frac| ==> IsDigit((whole + "." + frac)[i]) || (whole + "." + frac)[i] == '.'
    ensures |whole| > 0 ==> IsDigit((whole + "." + frac)[0])
  {
    var body := whole + "." + frac;
    forall i | 0 <= i < |body|
      ensures IsDigit(body[i]) || body[i] == '.'
    {
      if i < |whole| {
        assert body[i] == whole[i];
      } else if i > |whole| {
        assert body[i] == frac[i - |whole| - 1];
      }
    }
    if |whole| > 0 {
      assert body[0] == whole[0];
    }
  }

  /** `float()` of `whole.frac` is its decimal value. */
  lemma DecimalParseAsFloat(whole: string, frac: string)
    requires AllDigits(whole) && AllDigits(frac) && |whole| > 0
    ensures ParseFloat(whole + "." + frac) == Some(DecimalValue(whole, frac))
  {
    DecimalChars(whole, frac);
    NumberTextUnstripped(whole + "." + frac);
    ParseDecimalPoint(whole, frac);
  }

  /** `k` digits stay below `10^k`. */
  lemma {:induction false} DigitsBelowPow10(s: string)
    requires AllDigits(s)
    ensures DigitsValue(s) < Pow10(|s|)
    decreases |s|
  {
    if |s| > 0 {
      var pre := s[..|s| - 1];
      DigitsBelowPow10(pre);
      assert DigitsValue(pre) + 1 <= Pow10(|pre|);
      assert DigitsValue(pre) * 10 + 10 <= Pow10(|pre|) * 10;
    }
  }

  /** The fraction of `whole.frac` is below one: the value lies in `[whole, whole + 1)`. */
  lemma DecimalValueBounds(whole: string, frac: string)
    requires AllDigits(whole) && AllDigits(frac)
    ensures DigitsValue(whole) as real <= DecimalValue(whole, frac) < DigitsValue(whole) as real + 1.0
  {
    DigitsBelowPow10(frac);
    DivBelowOne(DigitsValue(frac) as real, Pow10(|frac|) as real);
  }

  lemma DivBelowOne(f: real, q: real)
    requires 0.0 <= f < q
    ensures 0.0 <= f / q < 1.0
  {
    var x := f / q;
    assert x * q == f;
  }

  /** `int()` reads back what `str()` wrote. */
  lemma IntToStringRoundTrip(n: int)
    ensures ParseInt(IntToString(n)) == Some(n)
  {
    NumberTextUnstripped(IntToString(n));
    IntTextRoundTrip(n);
  }

  lemma IntTextRoundTrip(n: int)
    ensures ParseIntText(IntToString(n)) == Some(n)
  {
    var r := IntToString(n);
    if n < 0 {
      NatToStringRoundTrip(-n);
      NegativeText(r, NatToString(-n));
    } else {
      NatToStringRoundTrip(n);
      assert IsDigit(r[0]);
    }
  }

  lemma NegativeText(r: string, d: string)
    requires |d| > 0 && AllDigits(d) && r == "-" + d
    ensures ParseIntText(r) == Some(-(DigitsValue(d) as int))
  {
    assert r[1..] == d;
  }
}

/** `int()` of a float, and the `:.2f` rendering of a number. */
module Rounding {
  import opened Wrappers
  import opened Strings
  import opened Numbers

  /** Python's `int(x)` for a float: truncation toward zero. */
  function Truncate(x: real): (r: int)
    ensures x >= 0.0 ==> 0 <= r && r as real <= x < r as real + 1.0
    ensures x < 0.0 ==> r <= 0 && r as real - 1.0 < x <= r as real
  {
    if x >= 0.0 then x.Floor else -((-x).Floor)
  }

  /** The nearest integer to `y`, ties going to the even neighbour. */
  function RoundHalfEven(y: real): (n: nat)
    requires y >= 0.0
    ensures -0.5 <= n as real - y <= 0.5
  {
    var f := y.Floor;
    var d := y - f as real;
    if d < 0.5 then f
    else if d > 0.5 then f + 1
    else if f % 2 == 0 then f
    else f + 1
  }

  /** The digits of `n / 100` to two places: what `:.2f` prints for a rounded `n` hundredths. */
  function Hundredths(n: nat): (r: string)
    ensures |r| >= 4 && IsDigit(r[0])
    ensures forall i :: 0 <= i < |r| ==> IsDigit(r[i]) || r[i] == '.'
  {
    DecimalChars(NatToString(n / 100), Pad2(n % 100));
    NatToString(n / 100) + "." + Pad2(n % 100)
  }

  /** Hundredths written as a whole part and two digits. */
  lemma Scale100(a: nat, b: nat, v: real)
    requires v == a as real + b as real / 100.0
    ensures v * 100.0 == (a * 100 + b) as real
  {
  }

  /** With two fraction digits, the fraction counts hundredths. */
  lemma TwoPlaces(whole: string, frac: string)
    requires AllDigits(whole) && AllDigits(frac) && |frac| == 2
    ensures DecimalValue(whole, frac) == DigitsValue(whole) as real + DigitsValue(frac) as real / 100.0
  {
    assert Pow10(1) == 10;
    assert Pow10(2) == 100;
  }

  /** `float()` of `Hundredths(n)` is `n / 100`. */
  lemma HundredthsValue(n: nat)
    ensures ParseDecimal(Hundredths(n)).Some?
    ensures ParseDecimal(Hundredths(n)).value * 100.0 == n as real
  {
    var whole := NatToString(n / 100);
    var frac := Pad2(n % 100);
    ParseDecimalPoint(whole, frac);
    NatToStringRoundTrip(n / 100);
    TwoPlaces(whole, frac);
    Scale100(n / 100, n % 100, DecimalValue(whole, frac));
    assert (n / 100) * 100 + n % 100 == n;
  }

  /** A sign, if any, before digits and points. */
  lemma SignedChars(sign: string, body: string)
    requires sign == "" || sign == "-"
    requires forall i :: 0 <= i < |body| ==> IsDigit(body[i]) || body[i] == '.'
    ensures forall i :: 0 <= i < |sign + body| ==> IsDigit((sign + body)[i]) || (sign + body)[i] == '.' || (sign + body)[i] == '-'
  {
    forall i | 0 <= i < |sign + body|
      ensures IsDigit((sign + body)[i]) || (sign + body)[i] == '.' || (sign + body)[i] == '-'
    {
      if i >= |sign| {
        assert (sign + body)[i] == body[i - |sign|];
      }
    }
  }

  /** The rounded magnitude, in hundredths, that `:.2f` prints. */
  function Magnitude(x: real): nat {
    RoundHalfEven((if x < 0.0 then -x else x) * 100.0)
  }

  /**
   * The `:.2f` rendering of `x`: a minus sign for negative `x`, then the
   * magnitude rounded half to even to two decimal places.
   */
  function Fixed2(x: real): (r: string)
    ensures |r| >= 4
    ensures forall i :: 0 <= i < |r| ==> IsDigit(r[i]) || r[i] == '.' || r[i] == '-'
  {
    var sign := if x < 0.0 then "-" else "";
    SignedChars(sign, Hundredths(Magnitude(x)));
    sign + Hundredths(Magnitude(x))
  }

  /** `float()` reads back what `:.2f` wrote to within half a hundredth. */
  lemma Fixed2RoundTrip(x: real)
    ensures ParseFloat(Fixed2(x)).Some?
    ensures -0.005 <= ParseFloat(Fixed2(x)).value - x <= 0.005
  {
    NumberTextUnstripped(Fixed2(x));
    if x < 0.0 {
      Fixed2Negative(x);
    } else {
      Fixed2NonNegative(x);
    }
  }

  lemma Fixed2Negative(x: real)
    requires x < 0.0
    ensures ParseFloatText(Fixed2(x)).Some?
    ensures -0.005 <= ParseFloatText(Fixed2(x)).value - x <= 0.005
  {
    var n := Magnitude(x);
    assert -0.5 <= n as real - (-x) * 100.0 <= 0.5;
    HundredthsValue(n);
    ScaledBack(ParseDecimal(Hundredths(n)).value, n, -x);
    assert Fixed2(x) == "-" + Hundredths(n);
    NegativeDecimal(Fixed2(x), Hundredths(n));
  }

  lemma Fixed2NonNegative(x: real)
    requires x >= 0.0
    ensures ParseFloatText(Fixed2(x)).Some?
    ensures -0.005 <= ParseFloatText(Fixed2(x)).value - x <= 0.005
  {
    var n := Magnitude(x);
    assert -0.5 <= n as real - x * 100.0 <= 0.5;
    HundredthsValue(n);
    ScaledBack(ParseDecimal(Hundredths(n)).value, n, x);
    assert Fixed2(x) == "" + Hundredths(n) == Hundredths(n);
    PlainDecimal(Hundredths(n));
  }

  lemma ScaledBack(v: real, n: nat, a: real)
    requires v * 100.0 == n as real
    requires -0.5 <= n as real - a * 100.0 <= 0.5
    ensures -0.005 <= v - a <= 0.005
  {
  }

  lemma NegativeDecimal(r: string, body: string)
    requires r == "-" + body
    ensures ParseFloatText(r) == match ParseDecimal(body) case None => None case Some(v) => Some(-v)
  {
    assert r[1..] == body;
  }

  lemma PlainDecimal(r: string)
    requires |r| > 0 && IsDigit(r[0])
    ensures ParseFloatText(r) == ParseDecimal(r)
  {
  }

  /** `float()` reads `str(n)` back as the same number. */
  lemma IntParsesAsFloat(n: int)
    ensures ParseFloat(IntToString(n)) == Some(n as real)
  {
    NumberTextUnstripped(IntToString(n));
    if n < 0 {
      NegativeParsesAsFloat(n);
    } else {
      NatParsesAsFloat(n);
    }
  }

  lemma NatParsesAsFloat(n: nat)
    ensures ParseFloatText(IntToString(n)) == Some(n as real)
  {
    var r := NatToString(n);
    assert IntToString(n) == r;
    NatToStringRoundTrip(n);
    DigitsDecimal(r);
    PlainDecimal(r);
  }

  lemma NegativeParsesAsFloat(n: int)
    requires n < 0
    ensures ParseFloatText(IntToString(n)) == Some(n as real)
  {
    var d := NatToString(-n);
    assert IntToString(n) == "-" + d;
    NatToStringRoundTrip(-n);
    DigitsDecimal(d);
    NegativeDecimal(IntToString(n), d);
  }

  lemma DigitsDecimal(s: string)
    requires |s| > 0 && AllDigits(s)
    ensures ParseDecimal(s) == Some(DigitsValue(s) as real)
  {
    NoPointInDigits(s);
    MissingCharNotContained(s, ".", 0);
  }

  /** `int()` of a whole number given as a float is that number. */
  lemma TruncateWhole(n: int)
    ensures Truncate(n as real) == n
  {
  }
}

=== FILE: strings.dfy ===
/**
 * The parts of Python's `str` that the monitor and its readers rely on:
 * `strip()`, `in`, `split(sep)`, `replace(a, b)` for one-character `a`,
 * and the code-point ordering used by `sorted()`.
 */
module Strings {
  import opened Wrappers

  /** Python's `str.isspace()` for one character. */
  const Spaces: set<char> := {' ', '\t', '\n', '\r', '\U{0B}', '\U{0C}', '\U{1C}', '\U{1D}', '\U{1E}', '\U{1F}', '\U{85}', '\U{A0}', '\U{1680}', '\U{2000}', '\U{2001}', '\U{2002}', '\U{2003}', '\U{2004}', '\U{2005}', '\U{2006}', '\U{2007}', '\U{2008}', '\U{2009}', '\U{200A}', '\U{2028}', '\U{2029}', '\U{202F}', '\U{205F}', '\U{3000}'}
  predicate IsSpace(c: char) {
    c in Spaces
  }

  predicate AllSpace(s: string) {
    forall i :: 0 <= i < |s| ==> IsSpace(s[i])
  }

  /** Text that `strip()` leaves alone: empty, or neither end is whitespace. */
  predicate Trimmed(s: string) {
    |s| == 0 || (!IsSpace(s[0]) && !IsSpace(s[|s| - 1]))
  }

  /** `s.lstrip()`: the suffix left after dropping leading whitespace. */
  function StripLeft(s: string): (r: string)
    ensures |r| <= |s|
    ensures |r| > 0 ==> !IsSpace(r[0])
    decreases |s|
  {
    if |s| > 0 && IsSpace(s[0]) then StripLeft(s[1..]) else s
  }

  /** `lstrip()` removes a whitespace prefix and nothing else. */
  lemma {:induction false} StripLeftRemovesSpace(s: string)
    ensures StripLeft(s) == s[|s| - |StripLeft(s)|..]
    ensures AllSpace(s[..|s| - |StripLeft(s)|])
    decreases |s|
  {
    if |s| > 0 && IsSpace(s[0]) {
      StripLeftRemovesSpace(s[1..]);
      var k := |s| - |StripLeft(s)|;
      assert s[..k] == [s[0]] + s[1..][..k - 1];
    }
  }

  /** `s.rstrip()`: the prefix left after dropping trailing whitespace. */
  function StripRight(s: string): (r: string)
    ensures |r| <= |s|
    ensures |r| > 0 ==> !IsSpace(r[|r| - 1])
    decreases |s|
  {
    if |s| > 0 && IsSpace(s[|s| - 1]) then StripRight(s[..|s| - 1]) else s
  }

  /** `rstrip()` removes a whitespace suffix and nothing else. */
  lemma {:induction false} StripRightRemovesSpace(s: string)
    ensures StripRight(s) == s[..|StripRight(s)|]
    ensures AllSpace(s[|StripRight(s)|..])
    decreases |s|
  {
    if |s| > 0 && IsSpace(s[|s| - 1]) {
      StripRightRemovesSpace(s[..|s| - 1]);
      var k := |StripRight(s)|;
      assert s[k..] == s[..|s| - 1][k..] + [s[|s| - 1]];
    }
  }

  /** `s.strip()` with no argument. */
  function Strip(s: string): (r: string)
    ensures Trimmed(r)
    ensures |r| <= |s|
  {
    StripRightRemovesSpace(StripLeft(s));
    StripRight(StripLeft(s))
  }

  /** Surrounding a trimmed text with whitespace on either side is undone by `strip()`. */
  lemma {:induction false} StripPadded(a: string, t: string, b: string)
    requires AllSpace(a) && AllSpace(b) && Trimmed(t)
    ensures Strip(a + t + b) == t
  {
    if |t| == 0 {
      assert a + t + b == (a + b) + "";
      StripLeftPadded(a + b, "");
    } else {
      assert a + t + b == a + (t + b);
      StripLeftPadded(a, t + b);
      StripRightPadded(t, b);
    }
  }

  lemma {:induction false} StripLeftPadded(a: string, u: string)
    requires AllSpace(a)
    requires |u| > 0 ==> !IsSpace(u[0])
    ensures StripLeft(a + u) == u
    decreases |a|
  {
    if |a| > 0 {
      assert (a + u)[1..] == a[1..] + u;
      StripLeftPadded(a[1..], u);
    } else {
      assert a + u == u;
    }
  }

  lemma {:induction false} StripRightPadded(t: string, b: string)
    requires AllSpace(b)
    requires |t| > 0 ==> !IsSpace(t[|t| - 1])
    ensures StripRight(t + b) == t
    decreases |b|
  {
    if |b| > 0 {
      assert (t + b)[..|t + b| - 1] == t + b[..|b| - 1];
      StripRightPadded(t, b[..|b| - 1]);
    } else {
      assert t + b == t;
    }
  }

  /** A text without whitespace is left alone by `strip()`. */
  lemma StripNoSpace(s: string)
    requires forall i :: 0 <= i < |s| ==> !IsSpace(s[i])
    ensures Strip(s) == s
  {
    assert "" + s + "" == s;
    StripPadded("", s, "");
  }

  /** `t` occurs in `s` starting at index `i`. */
  predicate OccursAt(s: string, t: string, i: int) {
    0 <= i && i + |t| <= |s| && s[i..i + |t|] == t
  }

  /** `s.find(t, i)`: the first occurrence of `t` at or after `i`, if any. */
  function FindFrom(s: string, t: string, i: nat): (r: Option<nat>)
    requires i <= |s|
    ensures r.Some? ==> i <= r.value && OccursAt(s, t, r.value)
    ensures r.Some? ==> forall j :: i <= j < r.value ==> !OccursAt(s, t, j)
    ensures r.None? ==> forall j :: i <= j ==> !OccursAt(s, t, j)
    decreases |s| - i
  {
    if i + |t| > |s| then None
    else if s[i..i + |t|] == t then Some(i)
    else FindFrom(s, t, i + 1)
  }

  function Find(s: string, t: string): (r: Option<nat>)
    ensures r.Some? ==> OccursAt(s, t, r.value) && forall j :: 0 <= j < r.value ==> !OccursAt(s, t, j)
    ensures r.None? ==> forall j :: !OccursAt(s, t, j)
  {
    FindFrom(s, t, 0)
  }

  /** Python's `t in s`. */
  predicate Contains(s: string, t: string) {
    Find(s, t).Some?
  }

  lemma ContainsIff(s: string, t: string)
    ensures Contains(s, t) <==> exists i :: OccursAt(s, t, i)
  {
  }

  /** An occurrence with none before it is what `Find` reports. */
  lemma FindFirst(s: string, t: string, i: nat)
    requires OccursAt(s, t, i)
    requires forall j :: 0 <= j < i ==> !OccursAt(s, t, j)
    ensures Find(s, t) == Some(i)
  {
  }

  /** `t` sits in `a + t + b` right after `a`. */
  lemma OccursAfter(a: string, t: string, b: string)
    ensures OccursAt(a + t + b, t, |a|)
  {
    assert (a + t + b)[|a|..|a| + |t|] == t;
  }

  /**
   * If `t[k]` does not appear in `s` before index `i + k`, then no occurrence of
   * `t` starts before `i`.
   */
  lemma NoEarlierOccurrence(s: string, t: string, i: int, k: nat)
    requires k < |t|
    requires forall j :: 0 <= j < i + k && j < |s| ==> s[j] != t[k]
    ensures forall j :: 0 <= j < i ==> !OccursAt(s, t, j)
  {
    forall j | 0 <= j < i
      ensures !OccursAt(s, t, j)
    {
      if j + |t| <= |s| {
        assert s[j..j + |t|][k] == s[j + k] != t[k];
      }
    }
  }

  /**
   * If `t[k]` does not appear in `s` between `lo + k` and `i + k`, then no
   * occurrence of `t` starts between `lo` and `i`.
   */
  lemma NoOccurrenceBetween(s: string, t: string, lo: int, i: int, k: nat)
    requires k < |t|
    requires forall j :: lo + k <= j < i + k && 0 <= j < |s| ==> s[j] != t[k]
    ensures forall j :: lo <= j < i ==> !OccursAt(s, t, j)
  {
    forall j | lo <= j < i
      ensures !OccursAt(s, t, j)
    {
      if 0 <= j && j + |t| <= |s| {
        assert s[j..j + |t|][k] == s[j + k] != t[k];
      }
    }
  }

  /** The first occurrence of a character is right after a prefix that lacks it. */
  lemma FindChar(a: string, c: char, b: string)
    requires c !in a
    ensures Find(a + [c] + b, [c]) == Some(|a|)
  {
    var s := a + [c] + b;
    forall j | 0 <= j < |a|
      ensures !OccursAt(s, [c], j)
    {
      assert s[j..j + 1][0] == a[j];
      assert a[j] in a;
    }
    OccursAfter(a, [c], b);
    FindFirst(s, [c], |a|);
  }

  /** For a one-character pattern, `in` is plain membership. */
  lemma ContainsChar(s: string, c: char)
    ensures Contains(s, [c]) <==> c in s
  {
    if c in s {
      var i :| 0 <= i < |s| && s[i] == c;
      assert OccursAt(s, [c], i);
    } else {
      MissingCharNotContained(s, [c], 0);
    }
  }

  /** A text missing one of the characters of `t` does not contain `t`. */
  lemma MissingCharNotContained(s: string, t: string, k: nat)
    requires k < |t| && t[k] !in s
    ensures !Contains(s, t)
  {
    forall j | 0 <= j && j + |t| <= |s|
      ensures !OccursAt(s, t, j)
    {
      assert s[j..j + |t|][k] == s[j + k];
      assert s[j + k] in s;
    }
  }

  /** The inverse of `Split`: `sep.join(parts)`. */
  function Join(parts: seq<string>, sep: string): string
    decreases |parts|
  {
    if |parts| == 0 then ""
    else if |parts| == 1 then parts[0]
    else parts[0] + sep + Join(parts[1..], sep)
  }

  /** Joining from position `i` on: the part at `i`, the separator, then the rest. */
  lemma JoinStep(parts: seq<string>, i: nat, sep: string)
    requires i + 1 < |parts|
    ensures Join(parts[i..], sep) == parts[i] + sep + Join(parts[i + 1..], sep)
  {
    assert parts[i..][1..] == parts[i + 1..];
  }

  /** `s.split(sep)` for a non-empty separator (Python raises on an empty one). */
  function Split(s: string, sep: string): (r: seq<string>)
    requires |sep| > 0
    ensures |r| >= 1
    ensures Join(r, sep) == s
    ensures forall k :: 0 <= k < |r| ==> !Contains(r[k], sep)
    decreases |s|
  {
    match Find(s, sep)
    case None => [s]
    case Some(i) =>
      var rest := Split(s[i + |sep|..], sep);
      PrefixHasNoOccurrence(s, sep, i);
      assert s == s[..i] + sep + s[i + |sep|..];
      assert ([s[..i]] + rest)[1..] == rest;
      [s[..i]] + rest
  }

  /** No occurrence of `t` fits inside `s[..i]` when the first one in `s` is at `i`. */
  lemma PrefixHasNoOccurrence(s: string, t: string, i: nat)
    requires i <= |s| && |t| > 0
    requires forall j :: 0 <= j < i ==> !OccursAt(s, t, j)
    ensures !Contains(s[..i], t)
  {
    forall j | 0 <= j && j + |t| <= i
      ensures !OccursAt(s[..i], t, j)
    {
      assert !OccursAt(s, t, j);
      assert s[..i][j..j + |t|] == s[j..j + |t|];
    }
  }

  /** Cutting at the first occurrence of the separator. */
  lemma SplitAtFirst(a: string, sep: string, b: string)
    requires |sep| > 0
    requires forall j :: 0 <= j < |a| ==> !OccursAt(a + sep + b, sep, j)
    ensures Split(a + sep + b, sep) == [a] + Split(b, sep)
  {
    var s := a + sep + b;
    OccursAfter(a, sep, b);
    FindFirst(s, sep, |a|);
    assert s[..|a|] == a;
    assert s[|a| + |sep|..] == b;
  }

  /** Cutting at the first occurrence of a one-character separator. */
  lemma SplitAtChar(a: string, c: char, b: string)
    requires c !in a
    ensures Split(a + [c] + b, [c]) == [a] + Split(b, [c])
  {
    forall j | 0 <= j < |a|
      ensures !OccursAt(a + [c] + b, [c], j)
    {
      assert (a + [c] + b)[j..j + 1][0] == a[j];
      assert a[j] in a;
    }
    SplitAtFirst(a, [c], b);
  }

  /**
   * A separator splits `a + sep + b` into `a` and `b` when some character of
   * it is missing from `a` and from the part of it before that character, and
   * some character of it is missing from `b`.
   */
  lemma SplitOnce(a: string, sep: string, b: string, k: nat, m: nat)
    requires k < |sep| && sep[k] !in a && sep[k] !in sep[..k]
    requires m < |sep| && sep[m] !in b
    ensures Split(a + sep + b, sep) == [a, b]
  {
    var s := a + sep + b;
    forall j | 0 <= j < |a| + k && j < |s|
      ensures s[j] != sep[k]
    {
      if j < |a| {
        assert s[j] == a[j] && a[j] in a;
      } else {
        assert s[j] == sep[..k][j - |a|];
      }
    }
    NoEarlierOccurrence(s, sep, |a|, k);
    SplitAtFirst(a, sep, b);
    MissingCharNotContained(b, sep, m);
    SplitNone(b, sep);
  }

  /** A text without the separator splits into itself. */
  lemma SplitNone(s: string, sep: string)
    requires |sep| > 0 && !Contains(s, sep)
    ensures Split(s, sep) == [s]
  {
  }

  /** For a one-character separator, `Split` undoes `Join`. */
  lemma {:induction false} SplitJoinChar(parts: seq<string>, c: char)
    requires |parts| >= 1
    requires forall k :: 0 <= k < |parts| ==> c !in parts[k]
    ensures Split(Join(parts, [c]), [c]) == parts
    decreases |parts|
  {
    if |parts| == 1 {
      MissingCharNotContained(parts[0], [c], 0);
    } else {
      var a := parts[0];
      var b := Join(parts[1..], [c]);
      forall j | 0 <= j < |a|
        ensures !OccursAt(a + [c] + b, [c], j)
      {
        assert (a + [c] + b)[j..j + 1][0] == a[j];
        assert a[j] in a;
      }
      SplitAtFirst(a, [c], b);
      SplitJoinChar(parts[1..], c);
      assert parts == [a] + parts[1..];
    }
  }

  /** `s.replace(c, "")`: every occurrence of `c` removed. */
  function Remove(s: string, c: char): (r: string)
    ensures c !in r
    ensures multiset(r) == multiset(s)[c := 0]
    decreases |s|
  {
    if |s| == 0 then ""
    else
      var rest := Remove(s[1..], c);
      assert s == [s[0]] + s[1..];
      if s[0] == c then rest else [s[0]] + rest
  }

  /** Removing a character that does not occur changes nothing. */
  lemma {:induction false} RemoveAbsent(s: string, c: char)
    requires c !in s
    ensures Remove(s, c) == s
    decreases |s|
  {
    if |s| > 0 {
      RemoveAbsent(s[1..], c);
      assert s == [s[0]] + s[1..];
    }
  }

  /** Removing a character distributes over concatenation. */
  lemma {:induction false} RemoveAppend(a: string, b: string, c: char)
    ensures Remove(a + b, c) == Remove(a, c) + Remove(b, c)
    decreases |a|
  {
    if |a| > 0 {
      assert (a + b)[1..] == a[1..] + b;
      RemoveAppend(a[1..], b, c);
    } else {
      assert a + b == b;
    }
  }

  /** `s.replace(a, b)` for one-character `a` and `b`. */
  function Substitute(s: string, a: char, b: char): (r: string)
    ensures |r| == |s|
    ensures forall i :: 0 <= i < |s| ==> r[i] == (if s[i] == a then b else s[i])
    decreases |s|
  {
    if |s| == 0 then ""
    else [if s[0] == a then b else s[0]] + Substitute(s[1..], a, b)
  }

  /** Replacing a character that does not occur changes nothing. */
  lemma SubstituteAbsent(s: string, a: char, b: char)
    requires a !in s
    ensures Substitute(s, a, b) == s
  {
    assert forall i :: 0 <= i < |s| ==> s[i] != a;
  }

  /** `c * n`. */
  function Repeat(c: char, n: nat): (r: string)
    ensures |r| == n
    ensures forall i :: 0 <= i < n ==> r[i] == c
  {
    seq(n, _ => c)
  }

  /** Python's `a < b` on `str`: lexicographic by code point, a proper prefix first. */
  predicate Below(a: string, b: string)
    decreases |a|
  {
    if |a| == 0 then |b| > 0
    else if |b| == 0 then false
    else if a[0] != b[0] then a[0] < b[0]
    else Below(a[1..], b[1..])
  }

  lemma {:induction false} BelowIrreflexive(a: string)
    ensures !Below(a, a)
    decreases |a|
  {
    if |a| > 0 {
      BelowIrreflexive(a[1..]);
    }
  }

  lemma {:induction false} BelowTransitive(a: string, b: string, c: string)
    requires Below(a, b) && Below(b, c)
    ensures Below(a, c)
    decreases |a|
  {
    if |a| > 0 && |b| > 0 && |c| > 0 && a[0] == b[0] && b[0] == c[0] {
      BelowTransitive(a[1..], b[1..], c[1..]);
    }
  }

  lemma {:induction false} BelowTotal(a: string, b: string)
    ensures a == b || Below(a, b) || Below(b, a)
    decreases |a|
  {
    if |a| > 0 && |b| > 0 && a[0] == b[0] {
      BelowTotal(a[1..], b[1..]);
      if a[1..] == b[1..] {
        assert a == [a[0]] + a[1..] && b == [b[0]] + b[1..];
      }
    }
  }
}

=== FILE: wrappers.dfy ===
/** The conventional optional value, used for Python's `None` and for parses that can fail. */
module Wrappers {

  datatype Option<+T> = None | Some(value: T) {

    /** The wrapped value, or `default` when there is none. */
    function GetOr(default: T): T {
      match this
      case Some(v) => v
      case None => default
    }
  }
}
